=== FILE: README.md ===
# BSE glue codec, container bookkeeping, file magic and super time stamps

A Dafny model of four pieces of the BSE sound engine:

- **The glue codec** (`bse/gslgluecodec.c`). A client and a responder exchange text messages.
  - The client writes requests: describe an enum, an interface, a property or a procedure; list names; execute a procedure; connect a signal; send a client message.
  - The responder reads one command, calls the glue layer behind it and writes a reply. The reply starts with `;gsl-glue-return\n`, or is `;gsl-glue-parse-error` when reading failed.
  - The responder keeps a registry of signal connections per codec and sends an event when a connected signal fires or a connection ends.
  - The model covers glue values (none, bool, int range, float range, string, enum, proxy, sequence, record), parameter descriptions and string lists, each with a writer and a reader.
- **Container bookkeeping** (`bse/bsecontainer.c`). This covers:
  - the item tree below a container;
  - unique child names of the form `base-N`;
  - the 1-based sequence id of a child and its inverse;
  - item handles (`Type`, `Type:N`, `Type::name`) and two-level item paths;
  - the array of cross references between items below a container: append, swap-remove, remove the first match, and remove everything that reaches into a subtree.
- **File magic** (`bse/bsemagic.c`). This covers:
  - reading a magic specification of offset / type / test lines, with escape and octal decoding in string tests;
  - checking the data read from a file against a rule;
  - matching a file against a whole rule list;
  - the order in which magics are tried when the file's extension is known or unknown.
- **Super object time stamps** (`bse/bsesuper.c`). A super object has a creation time, a modification time and the modification time last saved. It is dirty while the modification time is newer than the saved one, and every operation keeps creation ≤ modification.

Files:

| file | contents |
|---|---|
| `wrappers.dfy` | `Option` |
| `cstring.dfy` | the C library behaviour the code relies on: `strtol`, printing with `%u`, 32- and 64-bit truncation |
| `seqs.dfy` | small sequence facts |
| `glue_value.dfy` | tokens, glue values, parameter descriptions, descriptors and their writers |
| `glue_parse.dfy` | the value reader and the value round trip |
| `glue_describe.dfy` | the readers of parameter descriptions, string lists and descriptors, with their round trips |
| `glue_codec.dfy` | responder dispatch, reply framing, the signal registry, events and the client side |
| `container_tree.dfy` | the item tree: naming, adding, removing and sequence ids |
| `container_cross.dfy` | the cross-reference array |
| `container_handle.dfy` | handles and paths |
| `magic_parse.dfy` | the magic specification reader |
| `magic_match.dfy` | reading data, checking rules and the match order |
| `super.dfy` | the time stamps |

The glue messages are modelled as the token sequences GLib's scanner delivers, not as text.
- A writer produces the tokens that its printed text scans back into.
- A reader consumes tokens and returns a value, the remaining tokens and an `ok` flag. `ok` models the scanner's failed state, which is `user_data != NULL`.
- Where the end-to-end lemmas put text on the wire, printing and scanning are two parameters. Each lemma assumes only that scanning reads back the two texts of its own exchange: the request, and the payload of the reply. `GlueCodec.WireExists` shows that for any glue layer, registry, request and payload there is a wire that meets this assumption and carries requests to the responder.

## Behaviour kept as written

- An error `scanner_error` reports does not put the scanner into its failed state. A value with an unknown type id, and a command with an unknown id, are therefore still answered with the return marker.
- A connect id of 0 from the glue layer drops the new connection record, so the reply to an enable can be false.
- `T:N` reads N with strtol and converts it to guint, so `T:-1` wraps to a huge sequence id and finds nothing.
- After the test prefixes `<`, `>`, `&` and `^`, the direction and the number are both read from the character after the prefix. So `<n` is a "greater" test on n, and `&n` and `^n` are "zeros" tests. A second `<` or `&` starts no number, so the field is rejected, and the "smaller" and "all ones" checks are never produced.
- A type field with a non-empty `&mask` is always rejected, because the field is not advanced past the mask.
- In a string test, a backslash that ends the line escapes the NUL that `magic_create` wrote over the newline. The test gets a NUL byte and decoding carries on into the next line, which is still read as a rule of its own. So `0 string =ab\` followed by `1 byte 5` compares `ab` with a data size of 4.
- `short` reads four bytes. A byte swap of a 16-bit value would leave nothing in the low half, but no keyword reaches it.
- When a file's extension is unknown, magics without an extension are skipped.

## Model

| member | source | states |
|---|---|---|
| CString.StrToL | bse/bsemagic.c:417-426 | the strtol the offset reader relies on: the end index never passes the text, the value lies in the range of a long, no number read means the value 0 at index 0, and a number read ends on a digit that is followed by a non-digit or the end |
| CString.DecimalRoundTrip | bse/bsecontainer.c:177-212 | what `%u` prints for n reads back with strtol as n, consuming every character |
| CString.DecimalStringInjective | bse/bsecontainer.c:177-212 | different numbers print as different decimal strings, so the candidate names `base-1`, `base-2`, … are all distinct |
| GlueParse.ParseString | bse/gslgluecodec.c:344-356 | parse_string succeeds exactly on a string token or the NULL identifier, consumes it, and yields the string or no string |
| GlueParse.SignedIntRoundTrip | bse/gslgluecodec.c:392-401 | an integer written with a leading `-` when negative is read back by scanner_check_negate and the next integer token as the same integer |
| GlueParse.SignedRealRoundTrip | bse/gslgluecodec.c:392-401 | a number written with a leading `-` when negative is read back as the same number |
| GlueParse.RecSetLookup | bse/gslgluecodec.c:731-753 | storing a record field makes a lookup of that name give the new value and leaves the lookup of every other name unchanged |
| GlueParse.RecSetFresh | bse/gslgluecodec.c:731-753 | storing a field whose name the record lacks appends it at the end |
| GlueParse.RecSetUnique | bse/gslgluecodec.c:731-753 | storing a field keeps the record's field names pairwise different |
| GlueParse.UnknownValueType | bse/gslgluecodec.c:650-658 | a type id above the last glue type yields the NONE value with the scanner still in good state: the error is reported but not flagged |
| GlueParse.ValueRoundTrip | bse/gslgluecodec.c:592-761 | for every well-formed value (including empty sequences and records, NULL strings and negative numbers), reading what g_string_add_value writes gives back the value and exactly the tokens that follow |
| GlueParse.FloatLeftOnlyOnFailure | bse/gslgluecodec.c:644-761 | parse_value leaves `int_2_float` on only when the reading fails, which happens when a float read fails, at any depth of sequences and records |
| GlueParse.WrittenValueKeepsMode | bse/gslgluecodec.c:644-761 | reading a written well-formed value never leaves the switch on |
| GlueParse.BadFloatLeavesMode | bse/gslgluecodec.c:677-684 | a float value that holds a string leaves the switch on and fails |
| GlueParse.ValueReadsBack | bse/gslgluecodec.c:592-761 | a well-formed value written alone is read back with nothing left over |
| GlueParse.ElemsRoundTrip | bse/gslgluecodec.c:701-730 | the elements of a sequence are read back in order, up to the closing parenthesis |
| GlueParse.FieldsRoundTrip | bse/gslgluecodec.c:731-753 | the fields of a record with unique names are read back in order, appended to what was read before |
| GlueDescribe.Clamp | bse/gslgluecodec.c:492-517 | CLAMP gives the value itself when it lies in the range, and otherwise a bound; with lo ≤ hi the result lies in the range |
| GlueDescribe.ParseIRange | bse/gslgluecodec.c:492-517 | an int range read from the wire always has min ≤ default ≤ max, because max is raised to min and the default is clamped |
| GlueDescribe.ParseFRange | bse/gslgluecodec.c:518-540 | a float range read from the wire always has min ≤ default ≤ max |
| GlueDescribe.ParseKind | bse/gslgluecodec.c:457-589 | the type-specific fields read for a type id give a parameter kind of that id |
| GlueDescribe.ParseParam | bse/gslgluecodec.c:457-589 | a parameter read from the wire has a valid range and is never a sequence or record parameter |
| GlueDescribe.CanonicalIdempotent | bse/gslgluecodec.c:492-540 | validating a range twice changes nothing more than validating it once |
| GlueDescribe.KindRoundTrip | bse/gslgluecodec.c:404-589 | the type-specific fields g_string_add_param writes are read back as the validated kind |
| GlueDescribe.ParamRoundTrip | bse/gslgluecodec.c:404-589 | every parameter that is not a sequence or record, has a name where one is needed, and names its enum or interface is read back as written, with its range validated |
| GlueDescribe.ParamRejected | bse/gslgluecodec.c:555-583 | a sequence or record parameter yields no parameter, and the reader stops at the closing parenthesis |
| GlueDescribe.LeadingQuoted | bse/gslgluecodec.c:359-374 | the strings read from a written list are exactly the listed strings |
| GlueDescribe.StringArrayRoundTrip | bse/gslgluecodec.c:359-389 | writing a string list and reading it back gives the list, except that an empty or missing list is written as `()` and read back as missing |
| GlueDescribe.EnumRoundTrip | bse/gslgluecodec.c:791-856 | the enum descriptor encode_describe_enum receives is the one the responder wrote, with empty lists read as missing |
| GlueDescribe.IfaceRoundTrip | bse/gslgluecodec.c:859-934 | an interface descriptor with ancestry is read back with its type name, ancestry, properties and signals, empty lists read as missing |
| GlueDescribe.IfaceWithoutAncestry | bse/gslgluecodec.c:859-882 | an empty ancestry list ends the reading of an interface descriptor: properties and signals stay missing and their tokens are left unread |
| GlueDescribe.PropRoundTrip | bse/gslgluecodec.c:937-1012 | a property descriptor is read back with its parameter validated and its group, pretty name, blurb and flags unchanged |
| GlueDescribe.ParamListRoundTrip | bse/gslgluecodec.c:1015-1037 | a procedure's parameter list is read back parameter by parameter, each validated |
| GlueDescribe.ProcRoundTrip | bse/gslgluecodec.c:1015-1092 | a procedure descriptor is read back with its name, its validated return parameter and its validated parameters |
| GlueCodec.CommandOf | bse/gslgluecodec.c:1536-1588 | a command id is known exactly for the thirteen command numbers, and each known id names the command with that number |
| GlueCodec.CommandIdInverse | bse/gslgluecodec.c:1536-1588 | reading a command's number gives back the command |
| GlueCodec.FindSignal | bse/gslgluecodec.c:1323-1337 | find_signal gives the first connection for the proxy and signal, and nothing exactly when none is registered |
| GlueCodec.RegistryKeyUnique | bse/gslgluecodec.c:1323-1337 | in a sound registry a proxy and signal name have at most one connection, and find_signal finds exactly that one |
| GlueCodec.Connect | bse/gslgluecodec.c:1383-1437 | the registry never gets two connections for the same proxy and signal, and no other connection is added or removed; proxy 0 changes nothing and replies false; a disable always replies false and leaves an absent key alone; enabling a registered key replies true and changes nothing; enabling a new key asks the glue layer to connect, and a non-zero id puts the new connection first and replies true, while id 0 replies false and changes nothing; the only event ever sent is the disconnect of the key |
| GlueCodec.DisconnectSendsEvent | bse/gslgluecodec.c:1339-1364 | disabling a connected signal removes its connection and sends exactly one event saying the connection ended |
| GlueCodec.EnableTwice | bse/gslgluecodec.c:1383-1437 | enabling a connection that exists or whose connect succeeds replies true; enabling it again replies true, changes nothing, sends nothing, and leaves exactly one connection for the key |
| GlueCodec.SignalDestroy | bse/gslgluecodec.c:1339-1364 | removing a connection keeps the others in order and sends one disconnect event unless its id was zeroed |
| GlueCodec.RemoveKeepsOthers | bse/gslgluecodec.c:1339-1364 | removing a connection from the ring keeps every connection with another key and adds none |
| GlueCodec.Destroy | bse/gslgluecodec.c:161-185 | tearing a codec down removes every connection and sends no event, because the ids are zeroed first |
| GlueCodec.HandleSignal | bse/gslgluecodec.c:1367-1380 | a signal that fires is announced as a still-connected event for its own proxy and name, carrying the emission's arguments unchanged |
| GlueCodec.SignalEventQueued | bse/gslgluecodec.c:1367-1380 | a signal that fires on a live proxy reaches the client's event queue as a running connection with the emission's arguments |
| GlueCodec.HandleProxyIface | bse/gslgluecodec.c:1232-1243 | the responder reads a proxy number, and its reply reads back as the glue layer's interface name for that proxy, NULL included; any other token fails and leaves the codec alone |
| GlueCodec.HandleListProcNames | bse/gslgluecodec.c:1095-1106 | listing procedure names reads no argument, never fails, and its reply reads back as the glue layer's list, with a missing or empty list read as NULL |
| GlueCodec.HandleBaseIface | bse/gslgluecodec.c:1164-1174 | asking for the base interface reads no argument, never fails, and its reply reads back as exactly the glue layer's answer, NULL included |
| GlueCodec.Dispatch | bse/gslgluecodec.c:1536-1588 | only a signal connection changes the codec or sends events, and the registry invariant is kept |
| GlueCodec.Process | bse/gslgluecodec.c:1591-1617 | the reply is the parse-error marker exactly when reading the command failed; the registry invariant is kept. This is the corrected codec, whose scanner switch `int_2_float` is put back on every path, so one message leaves nothing behind for the next except the registry |
| GlueCodec.ProcessStep | bse/gslgluecodec.c:1591-1617 | a request the handler reads completely is answered with the handler's payload behind the return marker |
| GlueCodec.FloatModeOnlyAfterError | bse/gslgluecodec.c:1264-1293 | a request leaves the codec scanner's `int_2_float` switch on only when its exec or client-message value failed in a float read, and such a request gets the parse-error reply |
| GlueCodec.ProcessAsWritten | bse/gslgluecodec.c:1536-1545 | as written: while the switch is on, every message gets the parse-error reply, with no events and the codec unchanged, and the switch stays on. While it is off, the message is answered as by the corrected codec, and the switch is on afterwards only after a parse error |
| GlueCodec.ExecKeepsMode | bse/gslgluecodec.c:1264-1293 | an exec request the client writes for well-formed parameters never leaves the switch on |
| GlueCodec.ClientMsgKeepsMode | bse/gslgluecodec.c:1463-1509 | a client message the client writes for a well-formed value never leaves the switch on |
| GlueCodec.BadFloatBlocksNext | bse/gslgluecodec.c:677-684 | as written: an exec request whose float argument holds a string leaves the switch on, after which every message gets the parse-error reply, although a scanner with the switch off answers it as the corrected codec does |
| GlueCodec.BadFloatForgotten | bse/gslgluecodec.c:677-684 | corrected: after the same bad request, the next message is answered exactly as by a fresh codec |
| GlueCodec.UnknownCommand | bse/gslgluecodec.c:1578-1585 | an unknown command id, or the event id, is answered with an empty success reply and changes nothing |
| GlueCodec.CheckReply | bse/gslgluecodec.c:764-788 | the client accepts a reply only when it starts with the 17-character return marker, and then keeps exactly what follows the marker |
| GlueCodec.ReplyCheck | bse/gslgluecodec.c:1605-1613 | a success reply passes the client's check with its payload intact, and a parse-error reply is rejected |
| GlueCodec.LoopbackExchange | bse/gslgluecodec.c:1591-1617 | over a transport that hands each request to the responder, and a scanner that reads back the request and the reply payload, the client scans exactly the responder's payload, or nothing after a parse error |
| GlueCodec.ExecHandled | bse/gslgluecodec.c:1265-1293 | an exec request with a sequence of arguments calls the procedure with those arguments and replies with its result |
| GlueCodec.ExecNonSequence | bse/gslgluecodec.c:1265-1293 | an exec request whose argument is not a sequence calls nothing and replies with the NONE value |
| GlueCodec.ExecEndToEnd | bse/gslgluecodec.c:1296-1320 | a client's exec call returns what the procedure returned, whenever the scanner reads back the request and the result |
| GlueCodec.SignalHandled | bse/gslgluecodec.c:1383-1437 | the responder reads proxy, enable flag and signal name and replies whether the connection now exists |
| GlueCodec.SignalConnectionEndToEnd | bse/gslgluecodec.c:1440-1461 | the client's answer is the responder's connect reply; for a live proxy it is true exactly when the registry holds a connection for the proxy and signal afterwards |
| GlueCodec.DescribeProcEndToEnd | bse/gslgluecodec.c:1040-1092 | the client receives the procedure descriptor of the glue layer, with its parameters validated, whenever the scanner reads back the request and the descriptor |
| GlueCodec.ListEndToEnd | bse/gslgluecodec.c:1127-1229 | the client receives the method or child list of the glue layer, an empty one as missing, whenever the scanner reads back the request and the list |
| GlueCodec.ListProcNamesEndToEnd | bse/gslgluecodec.c:1109-1124 | the client receives the glue layer's list of procedure names, an empty or missing one as NULL |
| GlueCodec.BaseIfaceEndToEnd | bse/gslgluecodec.c:1177-1192 | the client receives the glue layer's base interface name, NULL included |
| GlueCodec.ProxyIfaceEndToEnd | bse/gslgluecodec.c:1246-1262 | the client receives the glue layer's interface name for the proxy it asked about, NULL included |
| GlueCodec.MessageHandled | bse/gslgluecodec.c:1464-1509 | a client message is answered with the glue layer's reply, or with NONE when no handler answers |
| GlueCodec.ClientMessageEndToEnd | bse/gslgluecodec.c:1512-1533 | a client's message returns the glue layer's answer, or NONE when there is none, whenever the scanner reads back the message and the answer |
| GlueCodec.EventRoundTrip | bse/gslgluecodec.c:1620-1677 | an event written by the responder is queued on the client side with its signal name, arguments and disconnect flag |
| GlueCodec.DisconnectEventFinishes | bse/gslgluecodec.c:1339-1364 | the event sent when a connection ends is queued on the client side as a disconnect of that signal with the proxy as its argument |
| GlueCodec.NotAnEvent | bse/gslgluecodec.c:1680-1703 | a message with any other command id queues nothing |
| GlueCodec.SetupScannerAsWritten | bse/gslgluecodec.c:273-283 | the scanner set-up as written dereferences the input exactly when the reply was rejected |
| GlueCodec.RejectedReplyDereferencesNull | bse/gslgluecodec.c:764-788 | every reply without the return marker leads the client into the null dereference |
| GlueCodec.ParseErrorDereferencesNull | bse/gslgluecodec.c:1605-1613 | the responder's own parse-error reply leads the client into the null dereference |
| GlueCodec.SetupScanner | bse/gslgluecodec.c:273-283 | the corrected set-up scans an empty input for a rejected reply and otherwise does what the written one does |
| GlueCodec.RejectedValueRequest | bse/gslgluecodec.c:644-761 | with the corrected set-up, a rejected reply makes a value request come back as NONE with the scanner failed |
| ContainerTree.Lookup | bse/bsecontainer.c:547-576 | lookup gives the first child in forall order with the name, and nothing exactly when no child has it |
| ContainerTree.LookupNames | bse/bsecontainer.c:547-576 | a name is taken exactly when lookup finds a child carrying it |
| ContainerTree.CandidatesSize | bse/bsecontainer.c:177-212 | the candidate names `base-1` … `base-(n-1)` are n-1 different names |
| ContainerTree.SmallestFree | bse/bsecontainer.c:177-212 | the naming loop stops at the smallest i ≥ 1 whose `base-i` no child carries, and it always stops |
| ContainerTree.ChildName | bse/bsecontainer.c:177-212 | the name an added child gets is carried by no sibling |
| ContainerTree.AddItem | bse/bsecontainer.c:159-212 | adding a child appends it, links it to the container, increments the child count by one and renames only that child |
| ContainerTree.AddItemNames | bse/bsecontainer.c:177-212 | the added child keeps its name when it had one no sibling used, and otherwise gets `base-i` for the smallest free i, base being its name or its type name |
| ContainerTree.AddItemGood | bse/bsecontainer.c:159-212 | adding a child keeps the tree's links consistent |
| ContainerTree.AddKeepsNamesUnique | bse/bsecontainer.c:177-212 | children whose names are pairwise different keep them so after an addition |
| ContainerTree.SeqId | bse/bsecontainer.c:373-409 | a child's sequence id is its 1-based position in forall order |
| ContainerTree.GetItem | bse/bsecontainer.c:411-457 | get_item finds a child exactly when the sequence id is at most the child count |
| ContainerTree.GetItemOfSeqId | bse/bsecontainer.c:373-457 | fetching a child by its sequence id gives the child back |
| ContainerTree.SeqIdOfGetItem | bse/bsecontainer.c:373-457 | the child fetched at a position has that position as its sequence id |
| ContainerTree.UncrossItemClears | bse/bsecontainer.c:894-985 | after uncrossing, no cross reference of a container reaches into the item's subtree, and every other one is kept |
| ContainerTree.RemoveItem | bse/bsecontainer.c:268-306 | removing a child cuts it out at its one position among the container's children, keeping the others in order, and drops its parent link; it uncrosses it in every container above it and nowhere else; the items, the id counter, the other containers' children and the other parent links are unchanged |
| ContainerTree.RemoveItemGood | bse/bsecontainer.c:268-306 | removing a child keeps the tree's links consistent |
| ContainerTree.AddRemoveCount | bse/bsecontainer.c:159-306 | adding a child and removing it again gives back the original child count |
| ContainerCross.CrossAdd | bse/bsecontainer.c:798-842 | cross_ref keeps the old entries and appends the new one at index old-count |
| ContainerCross.SwapRemove | bse/bsecontainer.c:755-769 | destroy_cref shortens the array by one, moves the last entry into the freed slot and leaves the others in place |
| ContainerCross.SwapRemoveMultiset | bse/bsecontainer.c:755-769 | destroy_cref removes exactly the destroyed entry from the array's multiset |
| ContainerCross.CrossUnref | bse/bsecontainer.c:844-888 | cross_unref destroys the first entry joining owner and referenced item, and only it; without one it changes nothing |
| ContainerCross.UnrefUndoesRef | bse/bsecontainer.c:798-888 | unreferencing a pair that was just referenced for the first time restores the array and destroys the new entry |
| ContainerCross.LeafTouches | bse/bsecontainer.c:894-985 | for an item without children, the quick owner/referenced-item test agrees with the subtree walk |
| ContainerCross.UncrossSound | bse/bsecontainer.c:894-985 | uncross_item destroys exactly the entries that reach into the subtree and keeps the others, as a multiset |
| ContainerCross.UncrossKeepsOthers | bse/bsecontainer.c:894-985 | the entries uncross_item keeps are, as a multiset, exactly those that do not reach into the subtree |
| ContainerHandle.NewItem | bse/bsecontainer.c:247-266 | a new item gets the next id and the type name, joins the container's children at the end and changes no existing item |
| ContainerHandle.NewItemNames | bse/bsecontainer.c:177-266 | a new item is named against the children as they were: it keeps a requested name no child has, and without a name it gets `type-i` for the smallest free i |
| ContainerHandle.FindNamed | bse/bsecontainer.c:578-593 | finds a child with the name whose type is the requested one, and nothing exactly when there is none |
| ContainerHandle.ItemFromHandle | bse/bsecontainer.c:595-655 | a handle whose type is not an item type gives nothing and changes nothing; otherwise the result is a child of the container, and the tree either stays as it is or gains exactly one new child |
| ContainerHandle.SeqHandleFetches | bse/bsecontainer.c:595-655 | `T:N` with 1 ≤ N ≤ count fetches the N-th child and creates nothing |
| ContainerHandle.SeqHandleZero | bse/bsecontainer.c:595-655 | `T:0` gives nothing and changes nothing |
| ContainerHandle.NamedHandleFinds | bse/bsecontainer.c:595-655 | `T::name` finds the existing child of that type and name without changing the tree |
| ContainerHandle.NamedHandleCreates | bse/bsecontainer.c:595-655 | `T::name` creates the child with that name when no child carries it |
| ContainerHandle.NamedHandleIdempotent | bse/bsecontainer.c:595-655 | resolving `T::name` a second time finds the child the first resolution created and changes nothing more |
| ContainerHandle.BareHandleCreates | bse/bsecontainer.c:595-655 | a bare `T` always creates a new child named `T-i` for the smallest free i |
| ContainerHandle.PathNeedsContainer | bse/bsecontainer.c:657-683 | a path whose head does not name a container gives nothing |
| ContainerHandle.ChainTo | bse/bsecontainer.c:685-711 | the ancestor chain of an item below a container starts with a child of the container, ends with the item, and links each entry to the one before |
| ContainerHandle.PathRoundTrip | bse/bsecontainer.c:657-711 | a path make_item_path writes for an item one or two levels down resolves back to the item without changing the tree |
| MagicParse.ParseOffset | bse/bsemagic.c:417-426 | an offset field is accepted exactly when strtol in base 10 consumes all of it |
| MagicParse.OffsetRoundTrip | bse/bsemagic.c:417-426 | a printed decimal offset reads back as that offset, and any non-digit after it makes the field fail |
| MagicParse.FirstKeyword | bse/bsemagic.c:338-415 | the keyword chosen is the first in table order that begins the field |
| MagicParse.ParseType | bse/bsemagic.c:338-415 | a type field is accepted exactly when nothing but an optional `u` follows the keyword, or a lone `&`; a non-empty mask is never accepted; with no `&` the mask is all ones, with a lone `&` it is 0 |
| MagicParse.KeywordTypes | bse/bsemagic.c:338-415 | each keyword, with or without `u`, gives its data size, string/size flags and byte order, and `u` or `size` selects unsigned comparison |
| MagicParse.KeywordFound | bse/bsemagic.c:338-415 | every keyword, with or without `u`, is recognised as itself and not as an earlier keyword |
| MagicParse.NumericTest | bse/bsemagic.c:241-278 | a numeric test is never read as "smaller" or "all ones", and an unsigned "smaller" never arises |
| MagicParse.NoNumberAfterPrefix | bse/bsemagic.c:252-274 | the direction and the number are both read from the character after the prefix, so when that character is a second `<` or `&`, strtol finds no number there |
| MagicParse.DoublePrefixRejected | bse/bsemagic.c:248-276 | a field starting with `<<` or `&&` is rejected, because no number follows the prefix |
| MagicParse.EqualTest | bse/bsemagic.c:241-278 | `=n` and a plain `n` give an equality test against n, truncated to 32 bits |
| MagicParse.LessReadsAsGreater | bse/bsemagic.c:252-262 | `<n` gives a "greater" test, because the direction is read from the character after the prefix |
| MagicParse.AndReadsAsZeros | bse/bsemagic.c:252-262 | `&n` and `^n` both give a "zeros" test |
| MagicParse.Decode | bse/bsemagic.c:279-336 | string decoding only appends to what it has, and never beyond 256 bytes |
| MagicParse.CStr | bse/bsemagic.c:486-541 | the C string of bytes is their prefix up to the first NUL |
| MagicParse.StringTest | bse/bsemagic.c:279-336 | a string test's data size is at most 256 and at least the length of its C string; a `<` test compares a string that starts with `<` |
| MagicParse.EscapedNulContinues | bse/bsemagic.c:295-331 | a backslash before a NUL stores a NUL byte, and decoding goes on with the text behind the NUL |
| MagicParse.BackslashAtLineEnd | bse/bsemagic.c:279-336 | the test `=ab\` followed by the NUL and the line `1 byte 5` compares `ab` with a data size of 4: a, b, the NUL and `1` |
| MagicParse.TestMemory | bse/bsemagic.c:462-469 | what a string test reads is its line up to the newline, then a NUL in the newline's place, then the following lines untouched |
| MagicParse.ContinuedStringRule | bse/bsemagic.c:428-484 | the rule line `0 string =ab\` followed by the line `1 byte 5` has offset 0, compares `ab` with a data size of 4, and the next line is still read as a rule of its own |
| MagicParse.ParseTest | bse/bsemagic.c:241-336 | a test is a string test exactly when the type reads a string, and a string test field is always accepted |
| MagicParse.DecodeEscaped | bse/bsemagic.c:279-336 | decoding the escaped form of any bytes (octal escapes for non-printing ones) gives the bytes |
| MagicParse.StringTestRoundTrip | bse/bsemagic.c:279-336 | a string test `=` followed by escaped bytes reads back as an equality test on those bytes, with the byte count as data size |
| MagicParse.StringLessReadsAsGreater | bse/bsemagic.c:279-290 | a string test `<…` is read as "greater" |
| MagicParse.StepAt | bse/bsemagic.c:428-484 | a line is skipped exactly when it starts with `#` or is empty |
| MagicParse.CreateReverses | bse/bsemagic.c:428-484 | magic_create gives the rules in reverse line order, and fails when any line fails |
| MagicParse.CommentSkipped | bse/bsemagic.c:428-484 | a comment line contributes no rule |
| MagicMatch.ReadData | bse/bsemagic.c:543-602 | a `size` rule reads the file size; otherwise a string rule reads text and a number rule reads a number |
| MagicMatch.WordSwap | bse/bsemagic.c:543-602 | swapping the bytes of a 32-bit word is the same as reading it in the other byte order |
| MagicMatch.ByteOrderRead | bse/bsemagic.c:543-602 | a 4-byte number is read in the keyword's byte order: host order for `short`/`long`, little-endian for `le…`, big-endian for `be…` |
| MagicMatch.AndAllOnes | bse/bsemagic.c:486-541 | masking with all ones keeps the data |
| MagicMatch.EqualNumber | bse/bsemagic.c:486-541 | an equality test with the full mask holds exactly when the data is the value's 32-bit pattern |
| MagicMatch.StrNCmpEqual | bse/bsemagic.c:486-541 | strncmp over l bytes finds no difference exactly when the two C strings agree on their first l bytes |
| MagicMatch.TextMatches | bse/bsemagic.c:486-541 | data read for a non-empty string equality test matches that string |
| MagicMatch.MatchFileAll | bse/bsemagic.c:604-629 | a file matches a rule list exactly when the list has a rule and every rule reads and checks successfully |
| MagicMatch.StringRuleMatches | bse/bsemagic.c:486-629 | a file holding the bytes at the offset matches the string rule written for them |
| MagicMatch.MagicNew | bse/bsemagic.c:143-166 | a magic is built exactly when its specification yields at least one rule, and it keeps the extension it was given |
| MagicMatch.FirstMatch | bse/bsemagic.c:168-200 | the first magic in list order whose rules the file matches, and nothing exactly when none does |
| MagicMatch.FirstMatchAppend | bse/bsemagic.c:84-141 | trying one list and then another finds the first list's match if it has one, and otherwise the second's |
| MagicMatch.WithExt | bse/bsemagic.c:84-141 | a pass of the list keeps exactly the magics whose extension test has the wanted outcome, in order |
| MagicMatch.Scan | bse/bsemagic.c:84-141 | one pass over the list returns the first magic with the wanted extension outcome that matches the file |
| MagicMatch.ListMatchFile | bse/bsemagic.c:84-141 | without an open file nothing matches; otherwise the result is the first match among the magics for the extension followed by the others |
| MagicMatch.ExtensionFirst | bse/bsemagic.c:84-141 | when a magic for the file's known extension matches, a magic for that extension is returned |
| MagicMatch.NoExtensionSkipped | bse/bsemagic.c:84-141 | when the extension is unknown, magics without an extension are never returned |
| MagicMatch.MatchInList | bse/bsemagic.c:168-200 | bse_magic_match_file returns the first listed magic the file matches: every non-NULL entry before it fails to match, NULL entries are skipped, and nothing is returned only when no listed magic matches |
| Super.Init | bse/bsesuper.c:128-142 | a new object has its creation, modification and saved times all equal to the current time, so it is not dirty |
| Super.SetModTimeParam | bse/bsesuper.c:180-181 | setting the modification time stores the later of the value and the creation time, and changes nothing else |
| Super.SetCreationTimeParam | bse/bsesuper.c:183-191 | setting the creation time stores it and raises the modification time to it when that was earlier, announcing the change exactly then |
| Super.Modified | bse/bsesuper.c:231-236 | a modification never moves the modification time back, and makes the object dirty exactly when it was dirty or the stamp is newer than the saved time |
| Super.SetCreationTime | bse/bsesuper.c:251-265 | a creation time after the last modification sets the modification and saved times to it as well, leaving the object clean; an earlier one changes only the creation time |
| Super.ResetModTime | bse/bsesuper.c:267-279 | resetting sets modification and saved time to t, clips the creation time to t and leaves the object clean |
| Super.RunValid | bse/bsesuper.c:128-279 | whatever sequence of operations follows creation, the creation time is never after the modification time |
| Super.ForwardNeverRewinds | bse/bsesuper.c:183-265 | modifications and creation-time changes never move the modification time back |
| Super.DirtStays | bse/bsesuper.c:180-236 | a dirty object stays dirty, with its saved time unchanged, under modifications, creation-time property changes and modification times set after the saved time |

## Left out

- GLib's scanner, `g_strescape` and the scanner's unescaping are not modelled. Messages are token sequences, and a string token carries its text unescaped.
- The numbering of glue types and codec commands lives in headers that are not part of this model.
  - Glue types are numbered NONE=0 to REC=8.
  - Commands are numbered 1 to 13 in the order of the responder's switch, with the event command last.
  - Only the distinctness of these numbers matters to the properties.
- `%.30g` printing of doubles is not modelled: float ranges and float values are real numbers. The value round trip therefore covers float payloads, which text does not carry exactly.
- `gsl_glue_rec_set` is not part of this model. It is taken to replace the value of a same-named field and otherwise to append.
- The glue layer behind the responder is a parameter (a `Service`). It covers describing, listing, exec, client messages, signal connect and disconnect. The transport (`io_handler`) and the event sink are parameters too. The `gsl_glue_gc_*` deferred-free list, context push/pop and user data are left out.
- A failed `parse_or_return` is modelled as consuming the offending token, because the properties do not depend on which token is consumed. What a failure leaves behind in the scanner's configuration is modelled separately: see `GlueCodec.ProcessAsWritten` and the finding below.
- GlueCodec.Exchange: the client context's scanner has the same `int_2_float` leak. A float read that fails in a reply, for a value (bse/gslgluecodec.c:677-684) or a float range parameter (519-537), leaves every later reply unreadable. The client functions of the model start each exchange afresh, so they do not carry that state. Replies the responder writes do not trigger the leak for values: `GlueParse.WrittenValueKeepsMode`.
- In bsecontainer.c these are left out: reference counting, the queued cross-change notification, storage (`store_items`, `try_statement`), `prepare`/`reset` propagation, `destroy_crefs`, `cross_forall` and the class hooks.
  - Subclasses place a new child where they like; the model appends it.
  - The destroy callback of a cross reference is named by a number and never called.
  - The `g_return_if_fail` guards are preconditions.
- The GType system is a parameter: which names are item types, which are containers, and is-a. `bse_item_make_handle` is a parameter too.
- GlueValue.EncodeParamOpt: a descriptor's missing parameter (a property without its parameter, a procedure without its return parameter) is written as nothing. g_string_add_param (bse/gslgluecodec.c:404-409) dereferences it and would crash. The descriptor round trips and DescribeProcEndToEnd cover only descriptors whose parameters are present.
- ContainerTree.ChildName: the suffix number is unbounded. The C writes it with `g_snprintf (p, 11, "-%u", ++i)` (bse/bsecontainer.c:200), which cuts off the last digit once i reaches 10^9, and `++i` wraps at 2^32. Both need at least 10^9 - 1 siblings already named after the same base, so the model leaves them out.
- ContainerHandle.PathRoundTrip: a path of three or more levels is not covered, because item_from_path resolves only one dot.
- In bsemagic.c these are left out: opening, seeking, reading and closing files (a file is its size and a read function), and the in-place string mechanics of `SKIP_CLEAN` (lines and fields are split on the text). Of the NULs written into the text, only the one that replaces a rule's newline is modelled, because a string test can read past it.
  - The host byte order is a parameter.
  - Looking up an extension's quark is a parameter.
  - `bse_magic_list_append` is left out: the list is a parameter.
  - The BFILE buffering bounds are left out.
- MagicParse.CharByte: a character stands for one byte, its code modulo 256. A non-ASCII character in the specification would be several UTF-8 bytes in C.
- MagicParse.Create: whenever `SKIP_CLEAN` reaches the terminating NUL, its `strchr` also matches that NUL, and the macro clears and reads past the end of the text. This is undefined behaviour in C. It happens for an empty specification, for a last line whose offset or type field ends the text, and for a last rule with a number test, with or without a newline after it. The model stops at the end of the text and ends the loop there.
- MagicParse.Decode: a backslash that is the very last character of the specification makes the C read past the terminating NUL. The model stores the NUL byte and stops.
- In bsesuper.c these are left out: the author and copyright properties (they rely on `bse_strdup_stripped` and qdata), `get_param`, the list of super objects, the "Unnamed" default name, `get_project` and destruction. `BseTime` is an unbounded integer, and the current time is a parameter. The "mod-time" change notification is a flag.

## Findings

| source | as written | input that shows it | evidently intended | confidence | as-written member | corrected member |
|---|---|---|---|---|---|---|
| bse/gslgluecodec.c:273-283 | `encoder_setup_scanner` calls `strlen (input)` on the reply that `encoder_process_request` returns, and that reply is NULL when it lacked the return marker | the responder's reply `;gsl-glue-parse-error` to any request it could not read | a rejected reply is scanned as empty input, so the reader fails and the client gets NONE | not executed | GlueCodec.RejectedReplyDereferencesNull | GlueCodec.RejectedValueRequest |
| bse/gslgluecodec.c:677-684 | `parse_value` switches the codec scanner's `int_2_float` on for a float value and switches it back only after the float was read. A failed `parse_or_return` returns before that, and the switch is part of the scanner's own configuration, which `gsl_glue_codec_process` does not reset. From then on the command id of every message scans as a float and fails at line 1542 | an exec request `(10 "p" (3 "x"))`, whose float argument holds a string, followed by any request | the switch is put back on every path, so a malformed message costs only its own reply | not executed | GlueCodec.BadFloatBlocksNext | GlueCodec.BadFloatForgotten |

=== FILE: container_cross.dfy ===
/**
 * The cross-reference array a BseContainer keeps for references between
 * items below it (bse_container_cross_ref, destroy_cref,
 * bse_container_cross_unref, bse_container_uncross_item).
 *
 * Items are named by ids.  The destroy callback an entry carries is a
 * foreign function; it is named by a number and never called here.
 */
module ContainerCross {
  import opened Wrappers

  type ItemId = nat

  /** One cross reference: `owner` refers to `refItem`; `notify` names the destroy callback and its data. */
  datatype CrossRef = CrossRef(owner: ItemId, refItem: ItemId, notify: nat)

  /** bse_container_cross_ref: the new entry goes to index old-count. */
  function CrossAdd(crefs: seq<CrossRef>, owner: ItemId, refItem: ItemId, notify: nat): (r: seq<CrossRef>)
    ensures |r| == |crefs| + 1
    ensures r[|crefs|] == CrossRef(owner, refItem, notify)
    ensures r[..|crefs|] == crefs
  {
    crefs + [CrossRef(owner, refItem, notify)]
  }

  /**
   * destroy_cref's bookkeeping: the count drops by one and the last entry
   * moves into the freed slot n.
   */
  function SwapRemove<T>(xs: seq<T>, n: nat): (r: seq<T>)
    requires n < |xs|
    ensures |r| == |xs| - 1
    ensures forall k :: 0 <= k < |r| && k != n ==> r[k] == xs[k]
    ensures n < |r| ==> r[n] == xs[|xs| - 1]
  {
    var last := |xs| - 1;
    if n < last then xs[..last][n := xs[last]] else xs[..last]
  }

  /** The entries left after a swap-remove are the old ones minus the removed one, as a multiset. */
  lemma SwapRemoveMultiset<T>(xs: seq<T>, n: nat)
    requires n < |xs|
    ensures multiset(SwapRemove(xs, n)) + multiset{xs[n]} == multiset(xs)
  {
    var last := |xs| - 1;
    assert xs == xs[..last] + [xs[last]];
    if n < last {
      var front := xs[..last];
      assert front == front[..n] + [front[n]] + front[n + 1..];
      assert front[n := xs[last]] == front[..n] + [xs[last]] + front[n + 1..];
    }
  }

  /** Does the entry join `owner` to `refItem`? */
  predicate Joins(e: CrossRef, owner: ItemId, refItem: ItemId) {
    e.owner == owner && e.refItem == refItem
  }

  /** The first entry joining owner to refItem, as cross_unref's loop finds it. */
  function FirstJoining(crefs: seq<CrossRef>, owner: ItemId, refItem: ItemId): (r: Option<nat>)
    ensures r.Some? ==> r.value < |crefs| && Joins(crefs[r.value], owner, refItem)
    ensures r.Some? ==> forall k :: 0 <= k < r.value ==> !Joins(crefs[k], owner, refItem)
    ensures r.None? <==> forall k :: 0 <= k < |crefs| ==> !Joins(crefs[k], owner, refItem)
  {
    if |crefs| == 0 then None
    else if Joins(crefs[0], owner, refItem) then Some(0)
    else
      match FirstJoining(crefs[1..], owner, refItem)
      case None => None
      case Some(i) => Some(i + 1)
  }

  /** What bse_container_cross_unref leaves and which entry's destroy callback it runs. */
  datatype Unref = Unref(crefs: seq<CrossRef>, destroyed: Option<CrossRef>)

  /**
   * bse_container_cross_unref: removes the first entry joining owner to
   * refItem, or only warns when there is none.
   */
  function CrossUnref(crefs: seq<CrossRef>, owner: ItemId, refItem: ItemId): (r: Unref)
    ensures r.destroyed.None? <==> forall k :: 0 <= k < |crefs| ==> !Joins(crefs[k], owner, refItem)
    ensures r.destroyed.None? ==> r.crefs == crefs
    ensures r.destroyed.Some? ==> Joins(r.destroyed.value, owner, refItem) && |r.crefs| == |crefs| - 1
    ensures r.destroyed.Some? ==> multiset(r.crefs) + multiset{r.destroyed.value} == multiset(crefs)
    ensures r.destroyed.Some? ==>
      (exists i :: 0 <= i < |crefs| && crefs[i] == r.destroyed.value
                   && (forall k :: 0 <= k < i ==> r.crefs[k] == crefs[k] && !Joins(crefs[k], owner, refItem)))
  {
    match FirstJoining(crefs, owner, refItem)
    case None => Unref(crefs, None)
    case Some(i) =>
      SwapRemoveMultiset(crefs, i);
      Unref(SwapRemove(crefs, i), Some(crefs[i]))
  }

  /** cross_unref undoes a cross_ref of a pair the array did not join yet. */
  lemma UnrefUndoesRef(crefs: seq<CrossRef>, owner: ItemId, refItem: ItemId, notify: nat)
    requires forall k :: 0 <= k < |crefs| ==> !Joins(crefs[k], owner, refItem)
    ensures CrossUnref(CrossAdd(crefs, owner, refItem, notify), owner, refItem)
            == Unref(crefs, Some(CrossRef(owner, refItem, notify)))
  {
    var added := CrossAdd(crefs, owner, refItem, notify);
    assert FirstJoining(added, owner, refItem) == Some(|crefs|);
  }

  // --- removing a subtree ---

  /**
   * item_check_branch: is `anc` the item x itself or one of its ancestors?
   * The walk follows parent links; each link it has followed is dropped
   * from the map, which changes nothing on a tree and ends the walk on a
   * cyclic map, where the C loop would not end.
   */
  predicate InBranch(parent: map<ItemId, ItemId>, x: ItemId, anc: ItemId)
    decreases parent.Keys
  {
    x == anc || (x in parent && InBranch(parent - {x}, parent[x], anc))
  }

  /** If anc lies above x, then somebody has anc as its parent. */
  lemma {:induction false} BranchHasChild(parent: map<ItemId, ItemId>, x: ItemId, anc: ItemId)
    requires InBranch(parent, x, anc) && x != anc
    ensures exists z :: z in parent && parent[z] == anc
    decreases parent.Keys
  {
    if parent[x] != anc {
      var p := parent - {x};
      BranchHasChild(p, parent[x], anc);
      var z :| z in p && p[z] == anc;
      assert z in parent && parent[z] == anc;
    }
  }

  /**
   * The test bse_container_uncross_item applies to one entry.  On an item
   * that is no container, or an empty one, it compares with the item
   * itself; otherwise it walks up from both ends of the entry, with the
   * walk cut off at the container `c` (its parent link is cleared while
   * the loop runs).
   */
  predicate Touches(parent: map<ItemId, ItemId>, c: ItemId, item: ItemId, leaf: bool, e: CrossRef) {
    if leaf then e.owner == item || e.refItem == item
    else InBranch(parent - {c}, e.owner, item) || InBranch(parent - {c}, e.refItem, item)
  }

  /** Does the entry reach into the subtree of item below c? */
  predicate InSubtree(parent: map<ItemId, ItemId>, c: ItemId, item: ItemId, e: CrossRef) {
    Touches(parent, c, item, false, e)
  }

  /** When nothing has item as its parent, the quick test and the tree walk agree. */
  lemma LeafTouches(parent: map<ItemId, ItemId>, c: ItemId, item: ItemId, e: CrossRef)
    requires forall z :: z in parent ==> parent[z] != item
    ensures Touches(parent, c, item, true, e) == InSubtree(parent, c, item, e)
  {
    var p := parent - {c};
    if InBranch(p, e.owner, item) && e.owner != item {
      BranchHasChild(p, e.owner, item);
    }
    if InBranch(p, e.refItem, item) && e.refItem != item {
      BranchHasChild(p, e.refItem, item);
    }
  }

  /** The entries that survive, and those whose destroy callbacks ran, in the order they ran. */
  datatype Uncrossed = Uncrossed(kept: seq<CrossRef>, destroyed: seq<CrossRef>)

  /** The loop of bse_container_uncross_item from index i on: a touching entry is swap-removed and i stays. */
  function UncrossFrom(crefs: seq<CrossRef>, i: nat, parent: map<ItemId, ItemId>, c: ItemId, item: ItemId, leaf: bool)
    : (u: Uncrossed)
    requires i <= |crefs|
    ensures |u.kept| + |u.destroyed| == |crefs|
    decreases |crefs| - i
  {
    if i == |crefs| then Uncrossed(crefs, [])
    else if Touches(parent, c, item, leaf, crefs[i]) then
      var u := UncrossFrom(SwapRemove(crefs, i), i, parent, c, item, leaf);
      Uncrossed(u.kept, [crefs[i]] + u.destroyed)
    else UncrossFrom(crefs, i + 1, parent, c, item, leaf)
  }

  /**
   * The loop removes exactly the touching entries: none is left, every one
   * it destroys touches, and together they are the entries it started with.
   */
  lemma {:induction false} UncrossSound(crefs: seq<CrossRef>, i: nat, parent: map<ItemId, ItemId>, c: ItemId,
                                        item: ItemId, leaf: bool)
    requires i <= |crefs|
    requires forall k :: 0 <= k < i ==> !Touches(parent, c, item, leaf, crefs[k])
    ensures var u := UncrossFrom(crefs, i, parent, c, item, leaf);
      && (forall k :: 0 <= k < |u.kept| ==> !Touches(parent, c, item, leaf, u.kept[k]))
      && (forall k :: 0 <= k < |u.destroyed| ==> Touches(parent, c, item, leaf, u.destroyed[k]))
      && multiset(u.kept) + multiset(u.destroyed) == multiset(crefs)
    decreases |crefs| - i
  {
    if i < |crefs| {
      if Touches(parent, c, item, leaf, crefs[i]) {
        var rest := SwapRemove(crefs, i);
        UncrossSound(rest, i, parent, c, item, leaf);
        DestroyedFirst(crefs, i, UncrossFrom(rest, i, parent, c, item, leaf), parent, c, item, leaf);
      } else {
        UncrossSound(crefs, i + 1, parent, c, item, leaf);
      }
    }
  }

  /** Destroying entry i first and then what the loop destroys from the swap-removed array destroys only touching entries. */
  lemma DestroyedFirst(crefs: seq<CrossRef>, i: nat, u: Uncrossed, parent: map<ItemId, ItemId>, c: ItemId,
                       item: ItemId, leaf: bool)
    requires i < |crefs| && Touches(parent, c, item, leaf, crefs[i])
    requires forall k :: 0 <= k < |u.destroyed| ==> Touches(parent, c, item, leaf, u.destroyed[k])
    requires multiset(u.kept) + multiset(u.destroyed) == multiset(SwapRemove(crefs, i))
    ensures forall k :: 0 <= k < |[crefs[i]] + u.destroyed| ==> Touches(parent, c, item, leaf, ([crefs[i]] + u.destroyed)[k])
    ensures multiset(u.kept) + multiset([crefs[i]] + u.destroyed) == multiset(crefs)
  {
    SwapRemoveMultiset(crefs, i);
    assert multiset([crefs[i]] + u.destroyed) == multiset{crefs[i]} + multiset(u.destroyed);
    forall k | 0 <= k < |[crefs[i]] + u.destroyed|
      ensures Touches(parent, c, item, leaf, ([crefs[i]] + u.destroyed)[k])
    {
      if k > 0 {
        assert ([crefs[i]] + u.destroyed)[k] == u.destroyed[k - 1];
      }
    }
  }

  /** The entries that do not touch, in their original order: the reference for what uncrossing keeps. */
  function Untouched(crefs: seq<CrossRef>, parent: map<ItemId, ItemId>, c: ItemId, item: ItemId, leaf: bool)
    : (r: seq<CrossRef>)
  {
    if |crefs| == 0 then []
    else (if Touches(parent, c, item, leaf, crefs[0]) then [] else [crefs[0]])
         + Untouched(crefs[1..], parent, c, item, leaf)
  }

  lemma {:induction false} UntouchedCount(crefs: seq<CrossRef>, parent: map<ItemId, ItemId>, c: ItemId,
                                          item: ItemId, leaf: bool, e: CrossRef)
    ensures multiset(Untouched(crefs, parent, c, item, leaf))[e]
            == if Touches(parent, c, item, leaf, e) then 0 else multiset(crefs)[e]
  {
    if |crefs| > 0 {
      UntouchedCount(crefs[1..], parent, c, item, leaf, e);
      assert crefs == [crefs[0]] + crefs[1..];
    }
  }

  /** Uncrossing keeps every untouched entry, as a multiset; only their order changes. */
  lemma UncrossKeepsOthers(crefs: seq<CrossRef>, parent: map<ItemId, ItemId>, c: ItemId, item: ItemId, leaf: bool)
    ensures multiset(UncrossFrom(crefs, 0, parent, c, item, leaf).kept)
            == multiset(Untouched(crefs, parent, c, item, leaf))
  {
    var u := UncrossFrom(crefs, 0, parent, c, item, leaf);
    UncrossSound(crefs, 0, parent, c, item, leaf);
    forall e ensures multiset(u.kept)[e] == multiset(Untouched(crefs, parent, c, item, leaf))[e] {
      UntouchedCount(crefs, parent, c, item, leaf, e);
      if Touches(parent, c, item, leaf, e) {
        assert e !in u.kept;
      } else {
        assert e !in u.destroyed;
      }
    }
  }
}

=== FILE: container_handle.dfy ===
/**
 * Item handles and paths (bse_container_item_from_handle,
 * bse_container_item_from_path, bse_container_make_item_path).
 *
 * The GType system is a parameter: which type names denote item types,
 * which of those are containers, and the is-a relation between them.
 * bse_item_make_handle, which prints an item's handle, is a parameter too.
 */
module ContainerHandle {
  import opened Wrappers
  import opened CString
  import opened Seqs
  import opened ContainerCross
  import opened ContainerTree

  /** What the type system answers: g_type_is_a(g_type_from_name(t), BSE_TYPE_ITEM), container-ness, is-a. */
  datatype Types = Types(isItem: string -> bool, isContainer: string -> bool, isA: (string, string) -> bool)

  /** The item a handle or path denotes (NULL is None) and the tree after resolving it. */
  datatype Resolved = Resolved(item: Option<ItemId>, world: World)

  /**
   * bse_container_new_item: a fresh item of the type, with the given name or
   * none, added to the container.  A container type gets an empty child list.
   */
  function NewItem(t: Types, w: World, c: ItemId, typeName: string, name: Option<string>): (r: Resolved)
    requires Good(w) && c in w.kids
    ensures r.item == Some(w.next) && Good(r.world) && r.world.next == w.next + 1
    ensures c in r.world.kids && w.next in r.world.items
    ensures r.world.kids[c] == w.kids[c] + [w.next] && r.world.parent == w.parent[w.next := c]
    ensures r.world.items[w.next].typeName == typeName
    ensures r.world.crefs == w.crefs
    ensures forall y :: y in w.items ==> y in r.world.items && r.world.items[y] == w.items[y]
  {
    var x := w.next;
    var w1 := w.(items := w.items[x := Item(typeName, name)],
                 kids := if t.isContainer(typeName) then w.kids[x := []] else w.kids,
                 next := x + 1);
    FreshGood(w, w1, x);
    AddItemGood(w1, c, x);
    Resolved(Some(x), AddItem(w1, c, x))
  }

  /** The world NewItem adds the item to, before it is named and attached. */
  function Entered(t: Types, w: World, typeName: string, name: Option<string>): World {
    w.(items := w.items[w.next := Item(typeName, name)],
       kids := if t.isContainer(typeName) then w.kids[w.next := []] else w.kids,
       next := w.next + 1)
  }

  /**
   * The new item is named against the container's children as they were:
   * it gets the requested name when no child has it, and in any case a name
   * no child has.
   */
  lemma NewItemNames(t: Types, w: World, c: ItemId, typeName: string, name: Option<string>)
    requires Good(w) && c in w.kids
    ensures var r := NewItem(t, w, c, typeName, name);
      && Lookup(w, w.kids[c], NameOf(r.world, w.next).value).None?
      && (name.Some? && Lookup(w, w.kids[c], name.value).None? ==> NameOf(r.world, w.next) == name)
      && (name.None? ==> NameOf(r.world, w.next)
                         == Some(Candidate(typeName, SmallestFree(typeName, Names(w, w.kids[c])))))
  {
    var x := w.next;
    var w1 := Entered(t, w, typeName, name);
    FreshGood(w, w1, x);
    assert NewItem(t, w, c, typeName, name).world == AddItem(w1, c, x);
    var ks := w.kids[c];
    KidsAreItems(w, c);
    assert forall y :: y in ks ==> NameOf(w1, y) == NameOf(w, y);
    AddItemNames(w1, c, x);
    LookupSameNames(w, w1, ks, NameOf(AddItem(w1, c, x), x).value);
    NamesSame(w, w1, ks);
    if name.Some? {
      LookupSameNames(w, w1, ks, name.value);
    }
  }

  lemma KidsAreItems(w: World, c: ItemId)
    requires KidsLinked(w) && c in w.kids
    ensures forall y :: y in w.kids[c] ==> y in w.items
  {
    forall y | y in w.kids[c] ensures y in w.items {
      assert c in w.kids && y in w.kids[c];
    }
  }

  /** Names only reads the names of the children it is given. */
  lemma {:induction false} NamesSame(w: World, w1: World, ks: seq<ItemId>)
    requires forall y :: y in ks ==> NameOf(w1, y) == NameOf(w, y)
    ensures Names(w1, ks) == Names(w, ks)
  {
    if |ks| > 0 {
      NamesSame(w, w1, ks[1..]);
    }
  }

  /** Entering a fresh, parentless item keeps the tree invariant. */
  lemma FreshGood(w: World, w1: World, x: ItemId)
    requires Good(w) && x == w.next
    requires x in w1.items && w1.items == w.items[x := w1.items[x]] && w1.next == x + 1
    requires w1.kids == w.kids || w1.kids == w.kids[x := []]
    requires w1.parent == w.parent
    ensures Good(w1) && x !in w1.parent && x in w1.items
    ensures forall d :: d in w.kids ==> d in w1.kids && w1.kids[d] == w.kids[d]
  {
    assert x !in w.items && x !in w.kids by {
      assert Bounded(w);
    }
    assert x !in w.parent by {
      assert KidsLinked(w);
      assert ParentsLinked(w);
    }
    assert KidsLinked(w1) by {
      assert KidsLinked(w);
    }
    assert ParentsLinked(w1) by {
      assert ParentsLinked(w);
    }
    assert KidsDistinct(w1) by {
      assert KidsDistinct(w);
    }
  }

  /** Lookup only reads the names of the children it is given. */
  lemma {:induction false} LookupSameNames(w: World, w1: World, ks: seq<ItemId>, s: string)
    requires forall y :: y in ks ==> NameOf(w1, y) == NameOf(w, y)
    ensures Lookup(w1, ks, s) == Lookup(w, ks, s)
  {
    if |ks| > 0 {
      LookupSameNames(w, w1, ks[1..], s);
    }
  }

  /** find_named_typed_item: the first child of the type (or a subtype) with the name. */
  function FindNamed(t: Types, w: World, ks: seq<ItemId>, typeName: string, name: string): (r: Option<ItemId>)
    ensures r.Some? ==> r.value in ks && r.value in w.items && t.isA(w.items[r.value].typeName, typeName)
                        && NameOf(w, r.value) == Some(name)
    ensures r.None? <==> forall y :: y in ks && y in w.items && t.isA(w.items[y].typeName, typeName)
                                     ==> NameOf(w, y) != Some(name)
  {
    if |ks| == 0 then None
    else if ks[0] in w.items && t.isA(w.items[ks[0]].typeName, typeName) && NameOf(w, ks[0]) == Some(name)
    then Some(ks[0])
    else FindNamed(t, w, ks[1..], typeName, name)
  }

  /** The type part of a handle: everything before the first ':'. */
  function HandleType(handle: string): string {
    match IndexOf(handle, ':')
    case None => handle
    case Some(i) => handle[..i]
  }

  /**
   * bse_container_item_from_handle.  "T" creates an item of type T; "T:N"
   * fetches the N-th child when strtol reads a positive number (as a guint)
   * and nothing follows it; "T::name" finds the named child of type T or
   * creates it.  A name that is no item type gives NULL.
   */
  function ItemFromHandle(t: Types, w: World, c: ItemId, handle: string): (r: Resolved)
    requires Good(w) && c in w.kids
    ensures Good(r.world) && c in r.world.kids
    ensures !t.isItem(HandleType(handle)) ==> r == Resolved(None, w)
    ensures r.item.Some? ==> r.item.value in r.world.kids[c]
    ensures r.world == w || (r.item == Some(w.next) && r.world.kids[c] == w.kids[c] + [w.next])
  {
    var typeName := HandleType(handle);
    if !t.isItem(typeName) then Resolved(None, w)
    else
      match IndexOf(handle, ':')
      case None => NewItem(t, w, c, typeName, None)
      case Some(i) => FromIdent(t, w, c, typeName, handle[i + 1..])
  }

  /** What follows the first ':' of a handle: ":name", or a sequence id. */
  function FromIdent(t: Types, w: World, c: ItemId, typeName: string, ident: string): (r: Resolved)
    requires Good(w) && c in w.kids
    ensures Good(r.world) && c in r.world.kids
    ensures r.item.Some? ==> r.item.value in r.world.kids[c]
    ensures r.world == w || (r.item == Some(w.next) && r.world.kids[c] == w.kids[c] + [w.next])
  {
    if |ident| > 0 && ident[0] == ':' then
      match FindNamed(t, w, w.kids[c], typeName, ident[1..])
      case Some(y) => Resolved(Some(y), w)
      case None => NewItem(t, w, c, typeName, Some(ident[1..]))
    else
      var conv := StrToL(ident, 10);
      var seqId := WrapU32(conv.value);
      if seqId > 0 && conv.end == |ident| then Resolved(GetItem(w.kids[c], seqId), w)
      else Resolved(None, w)
  }

  /** "<type>:<n>" as printed with "%u". */
  function SeqHandle(typeName: string, n: nat): string {
    typeName + ":" + DecimalString(n)
  }

  /** "<type>::<name>". */
  function NamedHandle(typeName: string, name: string): string {
    typeName + "::" + name
  }

  lemma SplitAtColon(typeName: string, rest: string)
    requires ':' !in typeName
    ensures IndexOf(typeName + ":" + rest, ':') == Some(|typeName|)
    ensures HandleType(typeName + ":" + rest) == typeName
  {
    var h := typeName + ":" + rest;
    assert h[|typeName|] == ':';
    assert h[..|typeName|] == typeName;
  }

  /** A sequential handle fetches the child at that 1-based position and changes nothing. */
  lemma SeqHandleFetches(t: Types, w: World, c: ItemId, typeName: string, n: nat)
    requires Good(w) && c in w.kids
    requires ':' !in typeName && t.isItem(typeName)
    requires 1 <= n <= |w.kids[c]| && n < 0x1_0000_0000
    ensures ItemFromHandle(t, w, c, SeqHandle(typeName, n)) == Resolved(Some(w.kids[c][n - 1]), w)
  {
    var h := SeqHandle(typeName, n);
    SplitAtColon(typeName, DecimalString(n));
    assert h[|typeName| + 1..] == DecimalString(n);
    SeqIdentFetches(t, w, c, typeName, n);
  }

  lemma SeqIdentFetches(t: Types, w: World, c: ItemId, typeName: string, n: nat)
    requires Good(w) && c in w.kids
    requires 1 <= n <= |w.kids[c]| && n < 0x1_0000_0000
    ensures FromIdent(t, w, c, typeName, DecimalString(n)) == Resolved(Some(w.kids[c][n - 1]), w)
  {
    DecimalRoundTrip(n);
  }

  /** A sequential handle whose number reads as 0 (or whose number is followed by anything) gives NULL. */
  lemma SeqHandleZero(t: Types, w: World, c: ItemId, typeName: string)
    requires Good(w) && c in w.kids
    requires ':' !in typeName && t.isItem(typeName)
    ensures ItemFromHandle(t, w, c, SeqHandle(typeName, 0)) == Resolved(None, w)
  {
    SplitAtColon(typeName, DecimalString(0));
    assert SeqHandle(typeName, 0)[|typeName| + 1..] == DecimalString(0);
    DecimalRoundTrip(0);
  }

  /** A named handle finds the first child of the type with that name and changes nothing. */
  lemma NamedHandleFinds(t: Types, w: World, c: ItemId, typeName: string, name: string)
    requires Good(w) && c in w.kids
    requires ':' !in typeName && t.isItem(typeName)
    requires FindNamed(t, w, w.kids[c], typeName, name).Some?
    ensures ItemFromHandle(t, w, c, NamedHandle(typeName, name))
            == Resolved(FindNamed(t, w, w.kids[c], typeName, name), w)
  {
    NamedSplit(typeName, name);
  }

  lemma NamedSplit(typeName: string, name: string)
    requires ':' !in typeName
    ensures IndexOf(NamedHandle(typeName, name), ':') == Some(|typeName|)
    ensures HandleType(NamedHandle(typeName, name)) == typeName
    ensures var ident := NamedHandle(typeName, name)[|typeName| + 1..];
      |ident| > 0 && ident[0] == ':' && ident[1..] == name
  {
    assert NamedHandle(typeName, name) == typeName + ":" + (":" + name);
    SplitAtColon(typeName, ":" + name);
  }

  /**
   * A named handle whose name no child carries creates a child with exactly
   * that name, and resolving it again finds the same child without creating
   * another.
   */
  lemma NamedHandleIdempotent(t: Types, w: World, c: ItemId, typeName: string, name: string)
    requires Good(w) && c in w.kids
    requires ':' !in typeName && t.isItem(typeName) && t.isA(typeName, typeName)
    requires Lookup(w, w.kids[c], name).None?
    ensures var r := ItemFromHandle(t, w, c, NamedHandle(typeName, name));
      && r.item == Some(w.next) && NameOf(r.world, w.next) == Some(name)
      && ItemFromHandle(t, r.world, c, NamedHandle(typeName, name)) == r
  {
    var r := ItemFromHandle(t, w, c, NamedHandle(typeName, name));
    NamedHandleCreates(t, w, c, typeName, name);
    NewItemNames(t, w, c, typeName, Some(name));
    var x := w.next;
    var ks := r.world.kids[c];
    assert ks == w.kids[c] + [x];
    FindNamedFirst(t, r.world, ks, typeName, name, x);
    NamedHandleFinds(t, r.world, c, typeName, name);
  }

  /** A named handle whose name no child of the type carries creates the child. */
  lemma NamedHandleCreates(t: Types, w: World, c: ItemId, typeName: string, name: string)
    requires Good(w) && c in w.kids
    requires ':' !in typeName && t.isItem(typeName)
    requires Lookup(w, w.kids[c], name).None?
    ensures ItemFromHandle(t, w, c, NamedHandle(typeName, name)) == NewItem(t, w, c, typeName, Some(name))
  {
    NamedSplit(typeName, name);
    assert FindNamed(t, w, w.kids[c], typeName, name).None?;
  }

  /** FindNamed finds the last child when it is the only one of the type with the name. */
  lemma {:induction false} FindNamedFirst(t: Types, w: World, ks: seq<ItemId>, typeName: string, name: string, x: ItemId)
    requires |ks| > 0 && ks[|ks| - 1] == x && x in w.items && t.isA(w.items[x].typeName, typeName)
    requires NameOf(w, x) == Some(name)
    requires forall k :: 0 <= k < |ks| - 1 ==> NameOf(w, ks[k]) != Some(name)
    ensures FindNamed(t, w, ks, typeName, name) == Some(x)
  {
    if |ks| > 1 {
      FindNamedFirst(t, w, ks[1..], typeName, name, x);
    }
  }

  /** A bare type name creates a new child, named "<type>-<i>" for the smallest free i. */
  lemma BareHandleCreates(t: Types, w: World, c: ItemId, typeName: string)
    requires Good(w) && c in w.kids
    requires ':' !in typeName && t.isItem(typeName)
    ensures var r := ItemFromHandle(t, w, c, typeName);
      && r.item == Some(w.next) && r.world.kids[c] == w.kids[c] + [w.next]
      && NameOf(r.world, w.next) == Some(Candidate(typeName, SmallestFree(typeName, Names(w, w.kids[c]))))
  {
    assert IndexOf(typeName, ':').None?;
    assert ItemFromHandle(t, w, c, typeName) == NewItem(t, w, c, typeName, None);
    NewItemNames(t, w, c, typeName, None);
  }

  // --- paths ---

  /**
   * bse_container_item_from_path: the part before the first '.' is a handle
   * in the container; it must give a container, inside which all the rest,
   * dots included, is resolved as one handle.
   */
  function ItemFromPath(t: Types, w: World, c: ItemId, path: string): (r: Resolved)
    requires Good(w) && c in w.kids
    ensures Good(r.world)
  {
    match IndexOf(path, '.')
    case None => ItemFromHandle(t, w, c, path)
    case Some(d) =>
      var head := ItemFromHandle(t, w, c, path[..d]);
      if head.item.Some? && head.item.value in head.world.kids
      then ItemFromHandle(t, head.world, head.item.value, path[d + 1..])
      else Resolved(None, head.world)
  }

  /** A path whose head names no container gives NULL. */
  lemma PathNeedsContainer(t: Types, w: World, c: ItemId, head: string, tail: string)
    requires Good(w) && c in w.kids && '.' !in head
    requires var h := ItemFromHandle(t, w, c, head); h.item.None? || h.item.value !in h.world.kids
    ensures ItemFromPath(t, w, c, head + "." + tail).item.None?
  {
    SplitAtDot(head, tail);
  }

  lemma SplitAtDot(head: string, tail: string)
    requires '.' !in head
    ensures IndexOf(head + "." + tail, '.') == Some(|head|)
    ensures (head + "." + tail)[..|head|] == head && (head + "." + tail)[|head| + 1..] == tail
  {
    var p := head + "." + tail;
    assert p[|head|] == '.';
  }

  /**
   * The items from just below c down to x, outermost first: the ancestors
   * make_item_path prints.  None when c is not above x.
   */
  function ChainTo(parent: map<ItemId, ItemId>, x: ItemId, c: ItemId): (r: Option<seq<ItemId>>)
    ensures r.Some? ==> |r.value| >= 1 && r.value[|r.value| - 1] == x
    ensures r.Some? ==> r.value[0] in parent && parent[r.value[0]] == c
    ensures r.Some? ==> forall k :: 1 <= k < |r.value| ==> r.value[k] in parent && parent[r.value[k]] == r.value[k - 1]
    decreases parent.Keys
  {
    if x !in parent then None
    else if parent[x] == c then Some([x])
    else
      match ChainTo(parent - {x}, parent[x], c)
      case None => None
      case Some(up) => Some(up + [x])
  }

  /** The handles joined with '.'. */
  function JoinDots(hs: seq<string>): string
    requires |hs| >= 1
  {
    if |hs| == 1 then hs[0] else hs[0] + "." + JoinDots(hs[1..])
  }

  /** bse_container_make_item_path: the handles of the items from below the container down to x, joined with '.'. */
  function MakeItemPath(w: World, handleOf: ItemId -> string, c: ItemId, x: ItemId): string
    requires ChainTo(w.parent, x, c).Some?
  {
    var ch := ChainTo(w.parent, x, c).value;
    JoinDots(seq(|ch|, k requires 0 <= k < |ch| => handleOf(ch[k])))
  }

  /**
   * A path make_item_path prints for an item at most two levels below the
   * container resolves back to the item, provided each printed handle
   * resolves to its item and the upper one has no '.'.
   */
  lemma PathRoundTrip(t: Types, w: World, handleOf: ItemId -> string, c: ItemId, x: ItemId)
    requires Good(w) && c in w.kids
    requires ChainTo(w.parent, x, c).Some? && |ChainTo(w.parent, x, c).value| <= 2
    requires var ch := ChainTo(w.parent, x, c).value;
      && '.' !in handleOf(ch[0])
      && ItemFromHandle(t, w, c, handleOf(ch[0])) == Resolved(Some(ch[0]), w)
      && (|ch| == 2 ==> ch[0] in w.kids && ItemFromHandle(t, w, ch[0], handleOf(x)) == Resolved(Some(x), w))
    ensures ItemFromPath(t, w, c, MakeItemPath(w, handleOf, c, x)) == Resolved(Some(x), w)
  {
    var ch := ChainTo(w.parent, x, c).value;
    var hs := seq(|ch|, k requires 0 <= k < |ch| => handleOf(ch[k]));
    assert MakeItemPath(w, handleOf, c, x) == JoinDots(hs);
    if |ch| == 1 {
      assert JoinDots(hs) == handleOf(x);
      assert IndexOf(handleOf(x), '.').None?;
    } else {
      assert hs[1..] == [handleOf(x)];
      assert JoinDots(hs) == handleOf(ch[0]) + "." + handleOf(x);
      SplitAtDot(handleOf(ch[0]), handleOf(x));
    }
  }
}

=== FILE: container_tree.dfy ===
/**
 * The item tree below BseContainers (bsecontainer.c): unique child names,
 * the child count, the 1-based sequence id and its inverse, and what
 * adding and removing a child does to the tree and to the cross-reference
 * arrays of the containers above it.
 *
 * A container's children are the sequence its class's forall_items visits;
 * `n_items` is that sequence's length.  Where a subclass puts a new child
 * is its own affair; the model appends it.
 */
module ContainerTree {
  import opened Wrappers
  import opened CString
  import opened Seqs
  import opened ContainerCross

  /** An item: its type's name and its object name (NULL until it is named). */
  datatype Item = Item(typeName: string, name: Option<string>)

  /**
   * The object tree: every item, the children of every container (exactly
   * the items of container types have an entry), the parent links, the
   * cross-reference array of every container that has one, and the id the
   * next new item receives.
   */
  datatype World = World(items: map<ItemId, Item>, kids: map<ItemId, seq<ItemId>>,
                         parent: map<ItemId, ItemId>, crefs: map<ItemId, seq<CrossRef>>, next: ItemId)

  /** Every child is an item whose parent link points back. */
  predicate KidsLinked(w: World) {
    forall c, y :: c in w.kids && y in w.kids[c] ==> y in w.items && y in w.parent && w.parent[y] == c
  }

  /** Every parent link is matched by a child entry. */
  predicate ParentsLinked(w: World) {
    forall y :: y in w.parent ==> w.parent[y] in w.kids && y in w.kids[w.parent[y]]
  }

  predicate KidsDistinct(w: World) {
    forall c :: c in w.kids ==> Distinct(w.kids[c])
  }

  /** Containers are items, and every id in use lies below `next`. */
  predicate Bounded(w: World) {
    (forall c :: c in w.kids ==> c in w.items) && (forall y :: y in w.items ==> y < w.next)
  }

  /** The invariant of the tree. */
  predicate Good(w: World) {
    KidsLinked(w) && ParentsLinked(w) && KidsDistinct(w) && Bounded(w)
  }

  function NameOf(w: World, y: ItemId): Option<string> {
    if y in w.items then w.items[y].name else None
  }

  /** bse_container_lookup_item: the first child, in forall order, with the name. */
  function Lookup(w: World, ks: seq<ItemId>, s: string): (r: Option<ItemId>)
    ensures r.Some? ==> r.value in ks && NameOf(w, r.value) == Some(s)
    ensures r.Some? ==> exists i :: 0 <= i < |ks| && ks[i] == r.value
                                    && forall k :: 0 <= k < i ==> NameOf(w, ks[k]) != Some(s)
    ensures r.None? <==> forall y :: y in ks ==> NameOf(w, y) != Some(s)
  {
    if |ks| == 0 then None
    else if NameOf(w, ks[0]) == Some(s) then Some(ks[0])
    else
      var r := Lookup(w, ks[1..], s);
      assert r.Some? ==> forall k :: 1 <= k < |ks| && ks[k] == r.value ==> ks[1..][k - 1] == r.value;
      r
  }

  /** The names the children carry. */
  function Names(w: World, ks: seq<ItemId>): seq<string> {
    if |ks| == 0 then []
    else (if NameOf(w, ks[0]).Some? then [NameOf(w, ks[0]).value] else []) + Names(w, ks[1..])
  }

  /** A name is taken exactly when lookup finds a child with it. */
  lemma {:induction false} LookupNames(w: World, ks: seq<ItemId>, s: string)
    ensures Lookup(w, ks, s).Some? <==> s in Names(w, ks)
  {
    if |ks| > 0 {
      LookupNames(w, ks[1..], s);
    }
  }

  // --- unique naming ---

  /** The name "<base>-<i>" container_add_item tries in round i. */
  function Candidate(base: string, i: nat): string {
    base + "-" + DecimalString(i)
  }

  lemma CandidateInjective(base: string, i: nat, j: nat)
    ensures Candidate(base, i) == Candidate(base, j) ==> i == j
  {
    if Candidate(base, i) == Candidate(base, j) {
      assert DecimalString(i) == Candidate(base, i)[|base| + 1..];
      assert DecimalString(j) == Candidate(base, j)[|base| + 1..];
      DecimalStringInjective(i, j);
    }
  }

  function Candidates(base: string, n: nat): set<string> {
    set j | 1 <= j < n :: Candidate(base, j)
  }

  lemma {:induction false} CandidatesSize(base: string, n: nat)
    requires n >= 1
    ensures |Candidates(base, n)| == n - 1
  {
    if n == 1 {
      assert Candidates(base, 1) == {};
    } else {
      CandidatesSize(base, n - 1);
      assert Candidates(base, n) == Candidates(base, n - 1) + {Candidate(base, n - 1)};
      forall j | 1 <= j < n - 1 ensures Candidate(base, j) != Candidate(base, n - 1) {
        CandidateInjective(base, j, n - 1);
      }
    }
  }

  /** If the first n-1 candidates are all taken, there are at least n-1 names. */
  lemma Pigeonhole(base: string, used: seq<string>, n: nat)
    requires n >= 1
    requires forall j :: 1 <= j < n ==> Candidate(base, j) in used
    ensures n - 1 <= |used|
  {
    CandidatesSize(base, n);
    assert Candidates(base, n) <= set x | x in used;
    SubsetSize(Candidates(base, n), set x | x in used);
    SeqSetSize(used);
  }

  /** The search of container_add_item from round i on. */
  function FirstFree(base: string, used: seq<string>, i: nat): (r: nat)
    requires i >= 1
    requires forall j :: 1 <= j < i ==> Candidate(base, j) in used
    ensures r >= i && Candidate(base, r) !in used
    ensures forall j :: 1 <= j < r ==> Candidate(base, j) in used
    decreases |used| + 1 - i
  {
    Pigeonhole(base, used, i);
    if Candidate(base, i) !in used then i
    else
      Pigeonhole(base, used, i + 1);
      FirstFree(base, used, i + 1)
  }

  /** The smallest i >= 1 whose candidate is free; the search always ends. */
  function SmallestFree(base: string, used: seq<string>): (r: nat)
    ensures r >= 1 && Candidate(base, r) !in used
    ensures forall j :: 1 <= j < r ==> Candidate(base, j) in used
  {
    FirstFree(base, used, 1)
  }

  /** The name the candidates start from: the item's own name, or its type's name when it has none. */
  function BaseName(it: Item): string {
    if it.name.Some? then it.name.value else it.typeName
  }

  /** Does container_add_item keep the item's name? */
  predicate KeepsName(it: Item, used: seq<string>) {
    it.name.Some? && it.name.value !in used
  }

  /** The name container_add_item gives an item joining children named `used`. */
  function ChildName(it: Item, used: seq<string>): (r: string)
    ensures r !in used
  {
    if KeepsName(it, used) then it.name.value
    else Candidate(BaseName(it), SmallestFree(BaseName(it), used))
  }

  /**
   * bse_container_add_item: names the item uniquely among its new siblings,
   * makes it the container's last child and points its parent link at the
   * container.
   */
  function AddItem(w: World, c: ItemId, x: ItemId): (r: World)
    requires c in w.kids && x in w.items && x !in w.parent
    ensures c in r.kids && x in r.items && r.items[x].name.Some?
    ensures |r.kids[c]| == |w.kids[c]| + 1
    ensures r.kids == w.kids[c := w.kids[c] + [x]] && r.parent == w.parent[x := c]
    ensures r.crefs == w.crefs && r.next == w.next
    ensures r.items == w.items[x := Item(w.items[x].typeName, Some(ChildName(w.items[x], Names(w, w.kids[c]))))]
  {
    var it := w.items[x];
    w.(items := w.items[x := Item(it.typeName, Some(ChildName(it, Names(w, w.kids[c]))))],
       kids := w.kids[c := w.kids[c] + [x]], parent := w.parent[x := c])
  }

  /**
   * The name an added item gets: one no sibling carries; its own when it had
   * one that is free; otherwise "<base>-<i>" for the smallest i >= 1 that
   * lookup does not find, base being its name or else its type's name.
   */
  lemma AddItemNames(w: World, c: ItemId, x: ItemId)
    requires c in w.kids && x in w.items && x !in w.parent
    ensures var r := AddItem(w, c, x);
      && Lookup(w, w.kids[c], NameOf(r, x).value).None?
      && (w.items[x].name.Some? && Lookup(w, w.kids[c], w.items[x].name.value).None?
          ==> NameOf(r, x) == w.items[x].name)
      && (w.items[x].name.None? || Lookup(w, w.kids[c], w.items[x].name.value).Some? ==>
            var base := BaseName(w.items[x]);
            exists i :: i >= 1 && NameOf(r, x) == Some(Candidate(base, i))
                        && forall j :: 1 <= j < i ==> Lookup(w, w.kids[c], Candidate(base, j)).Some?)
  {
    var r := AddItem(w, c, x);
    var ks := w.kids[c];
    var used := Names(w, ks);
    var it := w.items[x];
    var name := ChildName(it, used);
    LookupNames(w, ks, name);
    if it.name.Some? {
      LookupNames(w, ks, it.name.value);
    }
    if !KeepsName(it, used) {
      var base := BaseName(it);
      var i := SmallestFree(base, used);
      forall j | 1 <= j < i ensures Lookup(w, ks, Candidate(base, j)).Some? {
        LookupNames(w, ks, Candidate(base, j));
      }
    }
  }

  /** Attaching a parentless item as the last child of a container keeps the tree invariant. */
  lemma AttachGood(w: World, r: World, c: ItemId, x: ItemId)
    requires Good(w) && c in w.kids && x in w.items && x !in w.parent
    requires r.kids == w.kids[c := w.kids[c] + [x]] && r.parent == w.parent[x := c]
    requires r.items.Keys == w.items.Keys && r.next == w.next
    ensures Good(r)
  {
    assert x !in w.kids[c] by {
      assert KidsLinked(w);
    }
    assert KidsLinked(r) by {
      assert KidsLinked(w);
      forall d, y | d in r.kids && y in r.kids[d] ensures y in r.items && y in r.parent && r.parent[y] == d {
        if d != c || y != x {
          assert y in w.kids[d];
        }
      }
    }
    assert KidsDistinct(r) by {
      assert KidsDistinct(w);
    }
    assert ParentsLinked(r) by {
      assert ParentsLinked(w);
    }
  }

  /** Adding keeps the tree invariant. */
  lemma AddItemGood(w: World, c: ItemId, x: ItemId)
    requires Good(w) && c in w.kids && x in w.items && x !in w.parent
    ensures Good(AddItem(w, c, x))
  {
    AttachGood(w, AddItem(w, c, x), c, x);
  }

  /** Siblings whose names are all different. */
  predicate UniqueNames(w: World, ks: seq<ItemId>) {
    && (forall i :: 0 <= i < |ks| ==> NameOf(w, ks[i]).Some?)
    && (forall i, j :: 0 <= i < j < |ks| ==> NameOf(w, ks[i]) != NameOf(w, ks[j]))
  }

  /** Appending a child whose name no sibling carries keeps the names pairwise different. */
  lemma UniqueAppend(w: World, r: World, ks: seq<ItemId>, x: ItemId)
    requires UniqueNames(w, ks)
    requires forall y :: y in ks ==> NameOf(r, y) == NameOf(w, y) && NameOf(w, y) != NameOf(r, x)
    requires NameOf(r, x).Some?
    ensures UniqueNames(r, ks + [x])
  {
    var rs := ks + [x];
    forall i | 0 <= i < |rs| ensures NameOf(r, rs[i]).Some? {
      if i < |ks| {
        assert rs[i] == ks[i] && ks[i] in ks;
      }
    }
    forall i, j | 0 <= i < j < |rs| ensures NameOf(r, rs[i]) != NameOf(r, rs[j]) {
      assert rs[i] == ks[i] && ks[i] in ks;
      if j < |ks| {
        assert rs[j] == ks[j] && ks[j] in ks;
      }
    }
  }

  /** Adding keeps the children's names pairwise different. */
  lemma AddKeepsNamesUnique(w: World, c: ItemId, x: ItemId)
    requires Good(w) && c in w.kids && x in w.items && x !in w.parent
    requires UniqueNames(w, w.kids[c])
    ensures UniqueNames(AddItem(w, c, x), AddItem(w, c, x).kids[c])
  {
    var r := AddItem(w, c, x);
    var ks := w.kids[c];
    assert x !in ks by {
      assert KidsLinked(w);
    }
    AddItemNames(w, c, x);
    UniqueAppend(w, r, ks, x);
  }

  // --- sequence ids ---

  /** bse_container_get_item_seqid: counts the children visited up to and including the item. */
  function SeqId(ks: seq<ItemId>, x: ItemId): (n: nat)
    requires x in ks
    ensures 1 <= n <= |ks| && ks[n - 1] == x && x !in ks[..n - 1]
  {
    IndexOf(ks, x).value + 1
  }

  /** bse_container_get_item's default path: the seqid-th child, if there are that many; the type is ignored. */
  function GetItem(ks: seq<ItemId>, seqid: UInt32): (r: Option<ItemId>)
    requires seqid > 0
    ensures r.Some? <==> seqid <= |ks|
  {
    if |ks| == 0 then None
    else if seqid <= |ks| then Some(ks[seqid - 1])
    else None
  }

  /** get_item fetches the child a seqid names. */
  lemma GetItemOfSeqId(ks: seq<ItemId>, x: ItemId)
    requires x in ks && |ks| < 0x1_0000_0000
    ensures GetItem(ks, SeqId(ks, x)) == Some(x)
  {
  }

  /** Among distinct children, the seqid of the n-th child is n. */
  lemma SeqIdOfGetItem(ks: seq<ItemId>, n: UInt32)
    requires Distinct(ks) && 1 <= n <= |ks|
    ensures GetItem(ks, n).Some? && SeqId(ks, GetItem(ks, n).value) == n
  {
    var m := SeqId(ks, ks[n - 1]);
    assert ks[m - 1] == ks[n - 1];
  }

  // --- removal ---

  /** Does the item have no children, so that uncrossing takes the quick path? */
  predicate Leaf(w: World, item: ItemId) {
    item !in w.kids || |w.kids[item]| == 0
  }

  /** bse_container_uncross_item(a, item): what is left of a's cross-reference array. */
  function UncrossItem(w: World, a: ItemId, item: ItemId): seq<CrossRef>
    requires a in w.crefs
  {
    UncrossFrom(w.crefs[a], 0, w.parent, a, item, Leaf(w, item)).kept
  }

  /**
   * After uncrossing, no entry of a's array reaches into the item's subtree,
   * and every other entry is kept.
   */
  lemma UncrossItemClears(w: World, a: ItemId, item: ItemId)
    requires Good(w) && a in w.crefs
    ensures forall k :: 0 <= k < |UncrossItem(w, a, item)| ==>
              !InSubtree(w.parent, a, item, UncrossItem(w, a, item)[k])
    ensures multiset(UncrossItem(w, a, item)) == multiset(Untouched(w.crefs[a], w.parent, a, item, false))
  {
    var crefs := w.crefs[a];
    var leaf := Leaf(w, item);
    UncrossSound(crefs, 0, w.parent, a, item, leaf);
    UncrossKeepsOthers(crefs, w.parent, a, item, leaf);
    if leaf {
      forall z | z in w.parent ensures w.parent[z] != item {
      }
      forall e ensures Touches(w.parent, a, item, true, e) == InSubtree(w.parent, a, item, e) {
        LeafTouches(w.parent, a, item, e);
      }
      assert Untouched(crefs, w.parent, a, item, true) == Untouched(crefs, w.parent, a, item, false) by {
        UntouchedAgree(crefs, w.parent, a, item);
      }
    }
  }

  /** The quick test and the tree walk keep the same entries when they agree on every entry. */
  lemma {:induction false} UntouchedAgree(crefs: seq<CrossRef>, parent: map<ItemId, ItemId>, a: ItemId, item: ItemId)
    requires forall e :: Touches(parent, a, item, true, e) == InSubtree(parent, a, item, e)
    ensures Untouched(crefs, parent, a, item, true) == Untouched(crefs, parent, a, item, false)
  {
    if |crefs| > 0 {
      UntouchedAgree(crefs[1..], parent, a, item);
      assert Touches(parent, a, item, true, crefs[0]) == InSubtree(parent, a, item, crefs[0]);
    }
  }

  /**
   * bse_container_remove_item: uncrosses the item in the container and in
   * every container above it, takes it out of the children and clears its
   * parent link.
   */
  function RemoveItem(w: World, c: ItemId, x: ItemId): (r: World)
    requires Good(w) && x in w.parent && w.parent[x] == c
    ensures c in r.kids && |r.kids[c]| == |w.kids[c]| - 1
    ensures x !in r.kids[c] && x !in r.parent
    ensures forall y :: y in w.kids[c] && y != x ==> y in r.kids[c]
    ensures r.crefs.Keys == w.crefs.Keys
    ensures forall a, k :: a in r.crefs && InBranch(w.parent, c, a) && 0 <= k < |r.crefs[a]| ==>
              !InSubtree(w.parent, a, x, r.crefs[a][k])
    ensures forall a :: a in r.crefs && !InBranch(w.parent, c, a) ==> r.crefs[a] == w.crefs[a]
    ensures r.items == w.items && r.next == w.next
    ensures r.kids == w.kids[c := RemoveValue(w.kids[c], x)] && r.parent == w.parent - {x}
    ensures IndexOf(w.kids[c], x).Some? &&
            var i := IndexOf(w.kids[c], x).value; r.kids[c] == w.kids[c][..i] + w.kids[c][i + 1..]
  {
    RemoveDistinct(w.kids[c], x);
    RemoveValueAt(w.kids[c], x, IndexOf(w.kids[c], x).value);
    var crefs := map a | a in w.crefs :: if InBranch(w.parent, c, a) then UncrossItem(w, a, x) else w.crefs[a];
    forall a | a in w.crefs && InBranch(w.parent, c, a) {
      UncrossItemClears(w, a, x);
    }
    w.(kids := w.kids[c := RemoveValue(w.kids[c], x)], parent := w.parent - {x}, crefs := crefs)
  }

  /** Removing keeps the tree invariant. */
  lemma RemoveItemGood(w: World, c: ItemId, x: ItemId)
    requires Good(w) && x in w.parent && w.parent[x] == c
    ensures Good(RemoveItem(w, c, x))
  {
    var r := RemoveItem(w, c, x);
    RemoveDistinct(w.kids[c], x);
    forall d, y | d in r.kids && y in r.kids[d] ensures y in r.items && y in r.parent && r.parent[y] == d {
      assert y in w.kids[d];
      assert y != x;
    }
    forall y | y in r.parent ensures r.parent[y] in r.kids && y in r.kids[r.parent[y]] {
      assert y in w.parent && y != x;
    }
  }

  /** Adding a child and removing it again restores the child count. */
  lemma AddRemoveCount(w: World, c: ItemId, x: ItemId)
    requires Good(w) && c in w.kids && x in w.items && x !in w.parent
    ensures Good(AddItem(w, c, x)) && |RemoveItem(AddItem(w, c, x), c, x).kids[c]| == |w.kids[c]|
  {
    AddItemGood(w, c, x);
  }
}

=== FILE: cstring.dfy ===
/**
 * The C library behaviour the modelled code leans on: fixed-width integer
 * conversions, printing an unsigned number with "%u", and `strtol`.
 */
module CString {

  const LONG_MIN: int := -0x8000_0000_0000_0000
  const LONG_MAX: int := 0x7fff_ffff_ffff_ffff

  /** gint / guint / gulong (LP64) as ranges of mathematical integers. */
  type Int32 = x: int | -0x8000_0000 <= x < 0x8000_0000
  type UInt32 = x: int | 0 <= x < 0x1_0000_0000
  type UInt64 = x: int | 0 <= x < 0x1_0000_0000_0000_0000

  /** A conversion to a 32-bit signed integer: two's complement truncation. */
  function WrapI32(x: int): (r: Int32)
    ensures -0x8000_0000 <= x < 0x8000_0000 ==> r == x
  {
    (x + 0x8000_0000) % 0x1_0000_0000 - 0x8000_0000
  }

  /** A conversion to guint: reduction modulo 2^32. */
  function WrapU32(x: int): (r: UInt32)
    ensures 0 <= x < 0x1_0000_0000 ==> r == x
  {
    x % 0x1_0000_0000
  }

  /** A conversion to gulong: reduction modulo 2^64. */
  function WrapU64(x: int): (r: UInt64)
    ensures 0 <= x < 0x1_0000_0000_0000_0000 ==> r == x
  {
    x % 0x1_0000_0000_0000_0000
  }

  /** isspace() in the C locale. */
  predicate IsSpace(c: char) {
    c == ' ' || c == '\t' || c == '\n' || c == '\U{0B}' || c == '\U{0C}' || c == '\r'
  }

  /** The value of c as a digit in bases up to 36, or 36 when c is no digit at all. */
  function DigitValue(c: char): (d: nat)
    ensures d <= 36
  {
    if '0' <= c <= '9' then c as int - '0' as int
    else if 'a' <= c <= 'z' then c as int - 'a' as int + 10
    else if 'A' <= c <= 'Z' then c as int - 'A' as int + 10
    else 36
  }

  predicate IsDigitIn(c: char, base: nat) {
    DigitValue(c) < base
  }

  /** The number a run of digits denotes, most significant digit first. */
  function DigitsValue(s: string, base: nat): nat {
    if |s| == 0 then 0 else DigitsValue(s[..|s| - 1], base) * base + DigitValue(s[|s| - 1])
  }

  /** The first index at or after i that does not hold a digit of the base. */
  function DigitRun(s: string, i: nat, base: nat): (j: nat)
    requires i <= |s|
    ensures i <= j <= |s|
    ensures forall k :: i <= k < j ==> IsDigitIn(s[k], base)
    ensures j < |s| ==> !IsDigitIn(s[j], base)
    decreases |s| - i
  {
    if i < |s| && IsDigitIn(s[i], base) then DigitRun(s, i + 1, base) else i
  }

  function SkipSpace(s: string, i: nat): (j: nat)
    requires i <= |s|
    ensures i <= j <= |s|
    ensures forall k :: i <= k < j ==> IsSpace(s[k])
    ensures j < |s| ==> !IsSpace(s[j])
    decreases |s| - i
  {
    if i < |s| && IsSpace(s[i]) then SkipSpace(s, i + 1) else i
  }

  /** What strtol returns (value) and where it leaves its end pointer (an index into the string). */
  datatype Conv = Conv(value: int, end: nat)

  /**
   * strtol(s, &end, base) as glibc implements it: leading white space, an
   * optional sign, an optional "0x" in base 16, then the longest run of
   * digits.  Without any digit the value is 0 and the end pointer is the
   * start of the string; an out-of-range value saturates at LONG_MIN/LONG_MAX.
   */
  function StrToL(s: string, base: nat): (r: Conv)
    requires 2 <= base <= 36
    ensures r.end <= |s|
    ensures LONG_MIN <= r.value <= LONG_MAX
    ensures r.end == 0 ==> r.value == 0
    ensures r.end > 0 ==> IsDigitIn(s[r.end - 1], base)
    ensures r.end < |s| && r.end > 0 ==> !IsDigitIn(s[r.end], base)
  {
    var i0 := SkipSpace(s, 0);
    var negative := i0 < |s| && s[i0] == '-';
    var i1 := if i0 < |s| && (s[i0] == '-' || s[i0] == '+') then i0 + 1 else i0;
    var i2 :=
      if base == 16 && i1 + 2 < |s| && s[i1] == '0' && (s[i1 + 1] == 'x' || s[i1 + 1] == 'X')
         && IsDigitIn(s[i1 + 2], 16)
      then i1 + 2 else i1;
    var j := DigitRun(s, i2, base);
    if j == i2 then Conv(0, 0)
    else
      var magnitude: int := DigitsValue(s[i2..j], base);
      if negative then Conv(if -magnitude < LONG_MIN then LONG_MIN else -magnitude, j)
      else Conv(if magnitude > LONG_MAX then LONG_MAX else magnitude, j)
  }

  function DigitChar(d: nat): (c: char)
    requires d < 10
    ensures DigitValue(c) == d
  {
    ['0', '1', '2', '3', '4', '5', '6', '7', '8', '9'][d]
  }

  /** printf("%u", n): the decimal digits of n, without leading zeros. */
  function DecimalString(n: nat): (s: string)
    ensures |s| >= 1
    ensures forall k :: 0 <= k < |s| ==> '0' <= s[k] <= '9'
  {
    if n < 10 then [DigitChar(n)] else DecimalString(n / 10) + [DigitChar(n % 10)]
  }

  lemma {:induction false} DecimalStringValue(n: nat)
    ensures DigitsValue(DecimalString(n), 10) == n
  {
    var s := DecimalString(n);
    if n >= 10 {
      DecimalStringValue(n / 10);
      assert s[..|s| - 1] == DecimalString(n / 10);
    }
  }

  /** Different numbers print differently: the candidates base-1, base-2, ... are distinct. */
  lemma DecimalStringInjective(a: nat, b: nat)
    ensures DecimalString(a) == DecimalString(b) ==> a == b
  {
    DecimalStringValue(a);
    DecimalStringValue(b);
  }

  /** Reading back what "%u" printed gives the number and consumes all of it. */
  lemma DecimalRoundTrip(n: nat)
    requires n <= LONG_MAX
    ensures StrToL(DecimalString(n), 10) == Conv(n, |DecimalString(n)|)
  {
    var s := DecimalString(n);
    assert SkipSpace(s, 0) == 0;
    assert DigitRun(s, 0, 10) == |s|;
    assert s[0..|s|] == s;
    DecimalStringValue(n);
  }

  /** Only 0 is printed with a leading '0'. */
  lemma {:induction false} DecimalLeadingDigit(n: nat)
    requires n >= 1
    ensures DecimalString(n)[0] != '0'
  {
    if n >= 10 {
      DecimalLeadingDigit(n / 10);
    }
  }

  /** A run of digits ends at the first character that is no digit. */
  lemma {:induction false} DigitRunStops(s: string, i: nat, j: nat, base: nat)
    requires i <= j <= |s|
    requires forall k :: i <= k < j ==> IsDigitIn(s[k], base)
    requires j == |s| || !IsDigitIn(s[j], base)
    ensures DigitRun(s, i, base) == j
    decreases j - i
  {
    if i < j {
      DigitRunStops(s, i + 1, j, base);
    }
  }
}

=== FILE: glue_codec.dfy ===
/**
 * The glue codec of gslgluecodec.c: the responder that reads one command
 * and writes its reply, the per-codec registry of signal connections, the
 * events it sends, and the client side that writes requests and reads
 * replies and events back.
 *
 * The glue layer behind the responder (gsl_glue_describe_enum and the rest)
 * is a parameter, a Service.  Text goes over the wire: `render` prints
 * tokens and `lex` is the scanner; the end-to-end lemmas assume the
 * scanner reads back the two texts of the exchange they are about, the
 * request and the payload of its reply.
 */
module GlueCodec {
  import opened Wrappers
  import opened CString
  import opened GlueValue
  import opened GlueParse
  import opened GlueDescribe

  // --- commands ---

  /** GslGlueCodecCommand. */
  datatype Command =
    | DescribeEnum | DescribeIface | DescribeProp | DescribeProc
    | ListProcNames | ListMethodNames | BaseIface | IfaceChildren | ProxyIface
    | ExecProc | SignalConnection | ClientMsg | EventSignal

  /** The command ids, in the order the responder's switch lists them. */
  function CommandId(c: Command): (id: nat)
    ensures 1 <= id <= 13
  {
    match c
    case DescribeEnum => 1
    case DescribeIface => 2
    case DescribeProp => 3
    case DescribeProc => 4
    case ListProcNames => 5
    case ListMethodNames => 6
    case BaseIface => 7
    case IfaceChildren => 8
    case ProxyIface => 9
    case ExecProc => 10
    case SignalConnection => 11
    case ClientMsg => 12
    case EventSignal => 13
  }

  /** The command an id names, if any. */
  function CommandOf(id: nat): (c: Option<Command>)
    ensures c.Some? <==> 1 <= id <= 13
    ensures c.Some? ==> CommandId(c.value) == id
  {
    if id == 1 then Some(DescribeEnum)
    else if id == 2 then Some(DescribeIface)
    else if id == 3 then Some(DescribeProp)
    else if id == 4 then Some(DescribeProc)
    else if id == 5 then Some(ListProcNames)
    else if id == 6 then Some(ListMethodNames)
    else if id == 7 then Some(BaseIface)
    else if id == 8 then Some(IfaceChildren)
    else if id == 9 then Some(ProxyIface)
    else if id == 10 then Some(ExecProc)
    else if id == 11 then Some(SignalConnection)
    else if id == 12 then Some(ClientMsg)
    else if id == 13 then Some(EventSignal)
    else None
  }

  /** Every command is recognised by its own id. */
  lemma CommandIdInverse(c: Command)
    ensures CommandOf(CommandId(c)) == Some(c)
  {
  }

  // --- the glue layer behind the responder ---

  /** The interception handler of a codec: a reply and whether it handled the message. */
  type Intercept = (Option<string>, Value) -> (Option<Value>, bool)

  /** What the responder asks of the glue layer; NULL results are None. */
  datatype Service = Service(
    describeEnum: string -> Option<EnumDesc>,
    describeIface: string -> Option<IfaceDesc>,
    describeProp: (UInt64, string) -> Option<PropDesc>,
    describeProc: string -> Option<ProcDesc>,
    listProcNames: Option<seq<string>>,
    listMethodNames: string -> Option<seq<string>>,
    baseIface: Option<string>,
    ifaceChildren: string -> Option<seq<string>>,
    proxyIface: UInt64 -> Option<string>,
    execProc: (string, seq<Value>) -> Value,
    signalConnect: (string, UInt64) -> UInt32,
    clientMsg: (Option<string>, Value) -> Option<Value>,
    intercept: Option<Intercept>)

  // --- signal registry and events ---

  /** CodecSignal: a connection the codec made on behalf of its client. */
  datatype SignalRec = SignalRec(proxy: UInt64, signal: string, id: nat)

  /** The codec's state: its ring of signal connections, newest first. */
  datatype Codec = Codec(signals: seq<SignalRec>)

  /** An event sent to the client (gstring_add_signal). */
  datatype Event = Event(signal: string, proxy: UInt64, args: seq<Value>, connected: bool)

  /** Connections are known by proxy and signal name, and each one holds a live id. */
  predicate Registry(sigs: seq<SignalRec>) {
    && (forall i :: 0 <= i < |sigs| ==> sigs[i].id != 0 && sigs[i].proxy != 0)
    && (forall i, j :: 0 <= i < j < |sigs| ==> (sigs[i].proxy, sigs[i].signal) != (sigs[j].proxy, sigs[j].signal))
  }

  /** find_signal: the first connection for proxy and signal. */
  function FindSignal(sigs: seq<SignalRec>, proxy: UInt64, signal: string): (r: Option<nat>)
    ensures r.Some? ==> r.value < |sigs| && sigs[r.value].proxy == proxy && sigs[r.value].signal == signal
    ensures r.Some? ==> forall k :: 0 <= k < r.value ==> sigs[k].proxy != proxy || sigs[k].signal != signal
    ensures r.None? ==> forall k :: 0 <= k < |sigs| ==> sigs[k].proxy != proxy || sigs[k].signal != signal
  {
    if |sigs| == 0 then None
    else if sigs[0].proxy == proxy && sigs[0].signal == signal then Some(0)
    else
      var r := FindSignal(sigs[1..], proxy, signal);
      if r.Some? then Some(r.value + 1) else None
  }

  function RemoveAt(sigs: seq<SignalRec>, i: nat): (r: seq<SignalRec>)
    requires i < |sigs|
    ensures |r| == |sigs| - 1
    ensures forall k :: 0 <= k < i ==> r[k] == sigs[k]
    ensures forall k :: i <= k < |r| ==> r[k] == sigs[k + 1]
  {
    sigs[..i] + sigs[i + 1..]
  }

  /** Removing one connection keeps every connection with another key, and adds none. */
  lemma RemoveKeepsOthers(sigs: seq<SignalRec>, i: nat)
    requires i < |sigs|
    ensures forall s: SignalRec :: s.proxy != sigs[i].proxy || s.signal != sigs[i].signal ==> (s in RemoveAt(sigs, i) <==> s in sigs)
  {
    var r := RemoveAt(sigs, i);
    forall s: SignalRec | s.proxy != sigs[i].proxy || s.signal != sigs[i].signal
      ensures s in r <==> s in sigs
    {
      if s in sigs {
        var k :| 0 <= k < |sigs| && sigs[k] == s;
        assert k != i;
        assert r[if k < i then k else k - 1] == s;
      }
      if s in r {
        var k :| 0 <= k < |r| && r[k] == s;
        assert sigs[if k < i then k else k + 1] == s;
      }
    }
  }

  /** In a registry a key names at most one connection: the one FindSignal finds. */
  lemma RegistryKeyUnique(sigs: seq<SignalRec>, proxy: UInt64, signal: string, k: nat)
    requires Registry(sigs)
    requires k < |sigs| && sigs[k].proxy == proxy && sigs[k].signal == signal
    ensures FindSignal(sigs, proxy, signal) == Some(k)
  {
  }

  /**
   * codec_signal_destroy, the destroy notify of a connection: a connection
   * with a live id tells the client it is gone, then it leaves the ring.
   */
  function SignalDestroy(c: Codec, i: nat): (r: (Codec, seq<Event>))
    requires i < |c.signals|
    ensures r.0.signals == RemoveAt(c.signals, i)
    ensures |r.1| == (if c.signals[i].id != 0 then 1 else 0)
    ensures forall e :: e in r.1 ==> !e.connected && e.proxy == c.signals[i].proxy && e.signal == c.signals[i].signal
  {
    var s := c.signals[i];
    var ev := if s.id != 0 then [Event(s.signal, s.proxy, [VProxy(s.proxy)], false)] else [];
    (Codec(RemoveAt(c.signals, i)), ev)
  }

  /** The reply and effects of one signal-connection request. */
  datatype Connection = Connection(connected: bool, codec: Codec, events: seq<Event>)

  /**
   * decode_signal_connection after its arguments are read.  A new
   * connection whose connect fails is destroyed again at once; the id 0
   * it still holds then keeps its destroy notify quiet.
   */
  function Connect(svc: Service, c: Codec, proxy: UInt64, enable: bool, signal: string): (r: Connection)
    ensures Registry(c.signals) ==> Registry(r.codec.signals)
    ensures proxy == 0 ==> r == Connection(false, c, [])
    ensures proxy != 0 && Registry(c.signals) ==> (r.connected <==> FindSignal(r.codec.signals, proxy, signal).Some?)
    ensures !enable ==> !r.connected
    ensures proxy != 0 && enable && FindSignal(c.signals, proxy, signal).Some? ==> r == Connection(true, c, [])
    ensures FindSignal(c.signals, proxy, signal).None? && !enable ==> r == Connection(false, c, [])
    ensures proxy != 0 && enable && FindSignal(c.signals, proxy, signal).None? ==>
              var id := svc.signalConnect(signal, proxy);
              && r.events == []
              && (r.connected <==> id != 0)
              && r.codec.signals == (if id != 0 then [SignalRec(proxy, signal, id)] else []) + c.signals
    ensures forall s: SignalRec :: s.proxy != proxy || s.signal != signal ==> (s in r.codec.signals <==> s in c.signals)
    ensures r.events != [] ==> !enable && r.events == [Event(signal, proxy, [VProxy(proxy)], false)]
  {
    if proxy == 0 then Connection(false, c, [])
    else
      var found := FindSignal(c.signals, proxy, signal);
      if found.None? && !enable then Connection(false, c, [])
      else if found.None? then
        var id := svc.signalConnect(signal, proxy);
        if id != 0 then
          var r := Connection(true, Codec([SignalRec(proxy, signal, id)] + c.signals), []);
          assert FindSignal(r.codec.signals, proxy, signal) == Some(0);
          r
        else Connection(false, c, [])
      else if !enable then
        var (c', ev) := SignalDestroy(c, found.value);
        var r := Connection(false, c', ev);
        assert Registry(c.signals) ==> FindSignal(r.codec.signals, proxy, signal).None? by {
          if Registry(c.signals) {
            var i := found.value;
            assert forall k :: 0 <= k < |c'.signals| ==> c'.signals[k] == c.signals[if k < i then k else k + 1];
          }
        }
        RemoveKeepsOthers(c.signals, found.value);
        r
      else Connection(true, c, [])
  }

  /** Disabling a connection that exists sends exactly one disconnect event for it. */
  lemma DisconnectSendsEvent(svc: Service, c: Codec, proxy: UInt64, signal: string)
    requires Registry(c.signals) && proxy != 0
    requires FindSignal(c.signals, proxy, signal).Some?
    ensures Connect(svc, c, proxy, false, signal).events == [Event(signal, proxy, [VProxy(proxy)], false)]
    ensures |Connect(svc, c, proxy, false, signal).codec.signals| == |c.signals| - 1
  {
  }

  /**
   * Enabling a connection that exists, or whose connect succeeds, answers
   * true; enabling it again answers true, changes nothing and leaves
   * exactly one connection for the key.
   */
  lemma EnableTwice(svc: Service, c: Codec, proxy: UInt64, signal: string)
    requires Registry(c.signals) && proxy != 0
    requires FindSignal(c.signals, proxy, signal).Some? || svc.signalConnect(signal, proxy) != 0
    ensures var r1 := Connect(svc, c, proxy, true, signal);
            var r2 := Connect(svc, r1.codec, proxy, true, signal);
            && r1.connected && r2 == Connection(true, r1.codec, [])
            && forall k :: 0 <= k < |r2.codec.signals| && r2.codec.signals[k].proxy == proxy && r2.codec.signals[k].signal == signal
                 ==> FindSignal(r2.codec.signals, proxy, signal) == Some(k)
  {
    var r1 := Connect(svc, c, proxy, true, signal);
    forall k | 0 <= k < |r1.codec.signals| && r1.codec.signals[k].proxy == proxy && r1.codec.signals[k].signal == signal
      ensures FindSignal(r1.codec.signals, proxy, signal) == Some(k)
    {
      RegistryKeyUnique(r1.codec.signals, proxy, signal, k);
    }
  }

  /**
   * gsl_glue_codec_destroy: each connection's id is cleared before it is
   * disconnected, so tearing a codec down sends no events.
   */
  method Destroy(c: Codec) returns (events: seq<Event>, left: Codec)
    ensures events == [] && left.signals == []
  {
    var cur := c;
    events := [];
    while |cur.signals| > 0
      invariant events == []
      decreases |cur.signals|
    {
      var quiet := Codec([cur.signals[0].(id := 0)] + cur.signals[1..]);
      var (next, ev) := SignalDestroy(quiet, 0);
      events := events + ev;
      cur := next;
    }
    left := cur;
  }

  /** codec_handle_signal: a signal emission on a connection is forwarded with the connection still up. */
  function HandleSignal(s: SignalRec, args: seq<Value>): (e: Event)
    ensures e.connected && e.proxy == s.proxy && e.signal == s.signal && e.args == args
  {
    Event(s.signal, s.proxy, args, true)
  }

  /** gstring_add_signal: "(<event-signal> <signal> <proxy> <args> <connected>)". */
  function EncodeEvent(e: Event): seq<Token> {
    [TLParen, TInt(CommandId(EventSignal)), TStr(e.signal), TInt(e.proxy)]
    + EncodeValue(VSeq(e.args)) + [TInt(if e.connected then 1 else 0), TRParen]
  }

  // --- the responder ---

  /** What a command handler leaves behind. */
  datatype Outcome = Outcome(payload: seq<Token>, rest: seq<Token>, ok: bool, codec: Codec, events: seq<Event>)

  function Fail(c: Codec, toks: seq<Token>): Outcome {
    Outcome([], Tail(toks), false, c, [])
  }

  /** A list written only when the glue layer returned one. */
  function ListReply(l: Option<seq<string>>): seq<Token> {
    if l.Some? then EncodeStringArray(l) else []
  }

  /** The handlers that read one string and describe or list what it names. */
  function HandleByName(svc: Service, c: Codec, cmd: Command, toks: seq<Token>): (o: Outcome)
    requires cmd in {DescribeEnum, DescribeIface, DescribeProc, ListMethodNames, IfaceChildren}
    ensures o.codec == c && o.events == []
    ensures o.ok <==> Peek(toks).TStr?
  {
    if !Peek(toks).TStr? then Fail(c, toks)
    else
      var name := toks[0].s;
      var payload :=
        match cmd
        case DescribeEnum => (var e := svc.describeEnum(name); if e.Some? then EncodeEnum(e.value) else [])
        case DescribeIface => (var f := svc.describeIface(name); if f.Some? then EncodeIface(f.value) else [])
        case DescribeProc => (var p := svc.describeProc(name); if p.Some? then EncodeProc(p.value) else [])
        case ListMethodNames => ListReply(svc.listMethodNames(name))
        case _ => ListReply(svc.ifaceChildren(name));
      Outcome(payload, toks[1..], true, c, [])
  }

  /** decode_describe_prop: a proxy and a property name. */
  function HandleDescribeProp(svc: Service, c: Codec, toks: seq<Token>): (o: Outcome)
    ensures o.codec == c && o.events == []
  {
    if !Peek(toks).TInt? then Fail(c, toks)
    else if !Peek(toks[1..]).TStr? then Fail(c, toks[1..])
    else
      var p := svc.describeProp(WrapU64(toks[0].n), toks[1].s);
      Outcome(if p.Some? then EncodeProp(p.value) else [], toks[2..], true, c, [])
  }

  /** decode_proxy_iface: a proxy; the reply is its interface name or NULL. */
  function HandleProxyIface(svc: Service, c: Codec, toks: seq<Token>): (o: Outcome)
    ensures o.codec == c && o.events == []
    ensures o.ok <==> Peek(toks).TInt?
    ensures Peek(toks).TInt? ==> o.payload == [EscStr(svc.proxyIface(WrapU64(toks[0].n)))]
    ensures Peek(toks).TInt? ==> ParseString(o.payload) == Parsed(svc.proxyIface(WrapU64(toks[0].n)), [], true)
  {
    if !Peek(toks).TInt? then Fail(c, toks)
    else Outcome([EscStr(svc.proxyIface(WrapU64(toks[0].n)))], toks[1..], true, c, [])
  }

  /**
   * decode_exec_proc: a procedure name and its arguments as a sequence
   * value; anything but a sequence is answered with a NONE value.
   */
  function HandleExec(svc: Service, c: Codec, toks: seq<Token>): (o: Outcome)
    ensures o.codec == c && o.events == []
  {
    if !Peek(toks).TStr? then Fail(c, toks)
    else
      var v := ParseValue(toks[1..]);
      var ret := if v.ok && v.value.VSeq? then svc.execProc(toks[0].s, v.value.elements) else VNone;
      Outcome(EncodeValue(ret), v.rest, v.ok, c, [])
  }

  /** decode_signal_connection: proxy, enable flag and signal name, which must close the command. */
  function HandleSignalConnection(svc: Service, c: Codec, toks: seq<Token>): (o: Outcome)
    ensures Registry(c.signals) ==> Registry(o.codec.signals)
    ensures !o.ok ==> o.codec == c && o.events == []
  {
    if !Peek(toks).TInt? then Fail(c, toks)
    else if !Peek(toks[1..]).TInt? then Fail(c, toks[1..])
    else if !Peek(toks[2..]).TStr? then Fail(c, toks[2..])
    else if Peek(toks[3..]) != TRParen then Fail(c, toks[3..])
    else
      var r := Connect(svc, c, WrapU64(toks[0].n), toks[1].n > 0, toks[2].s);
      Outcome([TInt(if r.connected then 1 else 0)], toks[3..], true, r.codec, r.events)
  }

  /**
   * decode_client_msg: a message name and a value.  The codec's
   * interception handler sees it first; when it does not handle it, the
   * glue layer does.  A missing reply is sent as a NONE value.
   */
  function HandleClientMsg(svc: Service, c: Codec, toks: seq<Token>): (o: Outcome)
    ensures o.codec == c && o.events == []
  {
    var msg := ParseString(toks);
    if !msg.ok then Outcome([], msg.rest, false, c, [])
    else
      var v := ParseValue(msg.rest);
      if !v.ok then Outcome([], v.rest, false, c, [])
      else
        var (retv, handled) := if svc.intercept.Some? then svc.intercept.value(msg.value, v.value) else (None, false);
        var reply := if handled then retv else svc.clientMsg(msg.value, v.value);
        Outcome(EncodeValue(reply.GetOr(VNone)), v.rest, true, c, [])
  }

  /** decode_list_proc_names: no arguments; the list, when there is one. */
  function HandleListProcNames(svc: Service, c: Codec, toks: seq<Token>): (o: Outcome)
    ensures o.codec == c && o.events == [] && o.ok && o.rest == toks
    ensures ParseStringArray(o.payload).value == NonEmpty(svc.listProcNames)
  {
    var l := svc.listProcNames;
    assert ParseStringArray(ListReply(l)).value == NonEmpty(l) by {
      if l.Some? {
        assert EncodeStringArray(l) + [] == EncodeStringArray(l);
        StringArrayRoundTrip(l, []);
      }
    }
    Outcome(ListReply(l), toks, true, c, [])
  }

  /** decode_base_iface: no arguments; the base interface name or NULL. */
  function HandleBaseIface(svc: Service, c: Codec, toks: seq<Token>): (o: Outcome)
    ensures o.codec == c && o.events == [] && o.ok && o.rest == toks
    ensures ParseString(o.payload) == Parsed(svc.baseIface, [], true)
  {
    Outcome([EscStr(svc.baseIface)], toks, true, c, [])
  }

  /** A command handler: the glue layer, the codec, and the tokens after the command id. */
  type Handler = (Service, Codec, seq<Token>) -> Outcome

  /** The switch of decode_process_command: the handler of each command the responder serves. */
  function HandlerOf(cmd: Command): Handler
    requires cmd != EventSignal
  {
    match cmd
    case DescribeEnum => (svc, c, toks) => HandleByName(svc, c, DescribeEnum, toks)
    case DescribeIface => (svc, c, toks) => HandleByName(svc, c, DescribeIface, toks)
    case DescribeProc => (svc, c, toks) => HandleByName(svc, c, DescribeProc, toks)
    case ListMethodNames => (svc, c, toks) => HandleByName(svc, c, ListMethodNames, toks)
    case IfaceChildren => (svc, c, toks) => HandleByName(svc, c, IfaceChildren, toks)
    case DescribeProp => HandleDescribeProp
    case ListProcNames => HandleListProcNames
    case BaseIface => HandleBaseIface
    case ProxyIface => HandleProxyIface
    case ExecProc => HandleExec
    case SignalConnection => HandleSignalConnection
    case ClientMsg => HandleClientMsg
  }

  /** Running the handler of a command; only a connection request touches the registry, and it keeps it sound. */
  function Dispatch(svc: Service, c: Codec, cmd: Command, toks: seq<Token>): (o: Outcome)
    requires cmd != EventSignal
    ensures Registry(c.signals) ==> Registry(o.codec.signals)
    ensures cmd != SignalConnection ==> o.codec == c && o.events == []
  {
    HandlerOf(cmd)(svc, c, toks)
  }

  /** Which handler Dispatch runs for the commands the end-to-end lemmas send. */
  lemma DispatchHandles(svc: Service, c: Codec, cmd: Command, toks: seq<Token>)
    requires cmd != EventSignal
    ensures cmd == ExecProc ==> Dispatch(svc, c, cmd, toks) == HandleExec(svc, c, toks)
    ensures cmd == SignalConnection ==> Dispatch(svc, c, cmd, toks) == HandleSignalConnection(svc, c, toks)
    ensures cmd == ClientMsg ==> Dispatch(svc, c, cmd, toks) == HandleClientMsg(svc, c, toks)
    ensures cmd in {DescribeEnum, DescribeIface, DescribeProc, ListMethodNames, IfaceChildren}
            ==> Dispatch(svc, c, cmd, toks) == HandleByName(svc, c, cmd, toks)
  {
  }

  /**
   * decode_process_command: "(" command-id arguments ")".  An unknown id is
   * reported and answered with an empty reply; it is no parse error.
   */
  function ProcessCommand(svc: Service, c: Codec, toks: seq<Token>): (o: Outcome)
    ensures Registry(c.signals) ==> Registry(o.codec.signals)
  {
    if Peek(toks) != TLParen then Fail(c, toks)
    else if !Peek(toks[1..]).TInt? then Fail(c, toks[1..])
    else
      var cmd := CommandOf(toks[1].n);
      if cmd.None? || cmd.value == EventSignal then Outcome([], toks[2..], true, c, [])
      else
        var o := Dispatch(svc, c, cmd.value, toks[2..]);
        if !o.ok then o
        else if Peek(o.rest) == TRParen then o.(rest := o.rest[1..])
        else o.(rest := Tail(o.rest), ok := false)
  }

  /** The two kinds of reply: the return marker followed by the payload, or the parse error marker. */
  datatype Reply = Return(payload: seq<Token>) | ParseError

  /** The result of gsl_glue_codec_process. */
  datatype Processed = Processed(reply: Reply, codec: Codec, events: seq<Event>)

  /**
   * gsl_glue_codec_process: a failed reading turns the whole reply into a
   * parse error.  What the handler did to the registry, and the events it
   * sent, stay.
   */
  function Process(svc: Service, c: Codec, toks: seq<Token>): (r: Processed)
    ensures Registry(c.signals) ==> Registry(r.codec.signals)
    ensures r.reply.ParseError? <==> !ProcessCommand(svc, c, toks).ok
  {
    var o := ProcessCommand(svc, c, toks);
    Processed(if o.ok then Return(o.payload) else ParseError, o.codec, o.events)
  }

  /** A handler that reads its arguments up to the closing parenthesis makes the whole command succeed. */
  lemma ProcessStep(svc: Service, c: Codec, cmd: Command, args: seq<Token>)
    requires cmd != EventSignal
    requires Dispatch(svc, c, cmd, args + [TRParen]).ok && Dispatch(svc, c, cmd, args + [TRParen]).rest == [TRParen]
    ensures var o := Dispatch(svc, c, cmd, args + [TRParen]);
            Process(svc, c, Request(cmd, args)) == Processed(Return(o.payload), o.codec, o.events)
  {
    var toks := Request(cmd, args);
    var o := Dispatch(svc, c, cmd, args + [TRParen]);
    assert Peek(toks) == TLParen && toks[1] == TInt(CommandId(cmd)) && toks[2..] == args + [TRParen] by {
      assert toks == [TLParen, TInt(CommandId(cmd))] + (args + [TRParen]);
    }
    CommandIdInverse(cmd);
    assert ProcessCommand(svc, c, toks) == o.(rest := o.rest[1..]);
  }

  /** An id no handler knows, the event-signal id included, gets an empty reply and changes nothing. */
  lemma UnknownCommand(svc: Service, c: Codec, n: nat, rest: seq<Token>)
    requires CommandOf(n).None? || CommandOf(n) == Some(EventSignal)
    ensures Process(svc, c, [TLParen, TInt(n)] + rest) == Processed(Return([]), c, [])
  {
  }

  // --- the codec scanner's int_2_float switch ---

  /**
   * Whether reading a request leaves the codec scanner's int_2_float switch
   * on: only exec and client messages read values, and a value whose float
   * read failed leaves it on.
   */
  function RequestLeavesFloat(toks: seq<Token>): bool {
    if Peek(toks) != TLParen || !Peek(toks[1..]).TInt? then false
    else
      var cmd := CommandOf(toks[1].n);
      var args := toks[2..];
      if cmd == Some(ExecProc) then Peek(args).TStr? && ValueLeavesFloat(args[1..])
      else if cmd == Some(ClientMsg) then
        var msg := ParseString(args);
        msg.ok && ValueLeavesFloat(msg.rest)
      else false
  }

  /** Only a request that gets the parse error leaves the switch on. */
  lemma FloatModeOnlyAfterError(svc: Service, c: Codec, toks: seq<Token>)
    ensures RequestLeavesFloat(toks) ==> Process(svc, c, toks).reply == ParseError
  {
    if RequestLeavesFloat(toks) {
      var cmd := CommandOf(toks[1].n).value;
      var args := toks[2..];
      DispatchHandles(svc, c, cmd, args);
      if cmd == ExecProc {
        FloatLeftOnlyOnFailure(args[1..]);
      } else {
        FloatLeftOnlyOnFailure(ParseString(args).rest);
      }
    }
  }

  /** The codec together with the switch of its scanner, which one message leaves to the next. */
  datatype ScannerCodec = ScannerCodec(codec: Codec, floatMode: bool)

  /**
   * gsl_glue_codec_process as written.  While the switch is on, the command
   * id is scanned as a float, so parse_or_return (scanner, G_TOKEN_INT)
   * fails and the message gets the parse error.  Otherwise the message is
   * processed, and the switch stays as the reading left it.
   */
  function ProcessAsWritten(svc: Service, s: ScannerCodec, toks: seq<Token>): (r: (Processed, ScannerCodec))
    ensures r.1.codec == r.0.codec
    ensures r.1.floatMode ==> r.0.reply == ParseError
    ensures s.floatMode ==> r == (Processed(ParseError, s.codec, []), s)
    ensures !s.floatMode ==> r.0 == Process(svc, s.codec, toks) && r.1.floatMode == RequestLeavesFloat(toks)
  {
    if s.floatMode then (Processed(ParseError, s.codec, []), s)
    else
      var p := Process(svc, s.codec, toks);
      FloatModeOnlyAfterError(svc, s.codec, toks);
      (p, ScannerCodec(p.codec, RequestLeavesFloat(toks)))
  }

  /** An exec request the client writes for well-formed parameters leaves the switch off. */
  lemma ExecKeepsMode(name: Option<string>, params: seq<Value>)
    requires forall k :: 0 <= k < |params| ==> WellFormed(params[k])
    ensures !RequestLeavesFloat(Request(ExecProc, [EscStr(name)] + EncodeValue(VSeq(params))))
  {
    var args := [EscStr(name)] + EncodeValue(VSeq(params)) + [TRParen];
    assert Request(ExecProc, [EscStr(name)] + EncodeValue(VSeq(params))) == [TLParen, TInt(CommandId(ExecProc))] + args;
    assert args[1..] == EncodeValue(VSeq(params)) + [TRParen];
    CommandIdInverse(ExecProc);
    WrittenValueKeepsMode(VSeq(params), [TRParen]);
  }

  /** So does a client message with a well-formed value. */
  lemma ClientMsgKeepsMode(msg: Option<string>, value: Value)
    requires WellFormed(value)
    ensures !RequestLeavesFloat(Request(ClientMsg, [EscStr(msg)] + EncodeValue(value)))
  {
    var args := [EscStr(msg)] + EncodeValue(value) + [TRParen];
    assert Request(ClientMsg, [EscStr(msg)] + EncodeValue(value)) == [TLParen, TInt(CommandId(ClientMsg))] + args;
    assert ParseString(args).rest == EncodeValue(value) + [TRParen];
    CommandIdInverse(ClientMsg);
    WrittenValueKeepsMode(value, [TRParen]);
  }

  /** An exec request whose argument is a float value holding a string. */
  function BadFloatExec(name: string, s: string): seq<Token> {
    Request(ExecProc, [TStr(name), TLParen, TInt(TYPE_FRANGE), TStr(s), TRParen])
  }

  /**
   * As written, one exec request with a bad float leaves the switch on, and
   * then any message gets the parse error, although a fresh scanner answers
   * it as Process does.
   */
  lemma BadFloatBlocksNext(svc: Service, c: Codec, name: string, s: string, next: seq<Token>)
    ensures var r1 := ProcessAsWritten(svc, ScannerCodec(c, false), BadFloatExec(name, s));
            r1.0.reply == ParseError && r1.1 == ScannerCodec(c, true)
    ensures ProcessAsWritten(svc, ScannerCodec(c, true), next).0.reply == ParseError
    ensures ProcessAsWritten(svc, ScannerCodec(c, false), next).0 == Process(svc, c, next)
  {
    BadFloatRead(svc, c, name, s);
  }

  /** The bad exec request: the switch is left on and the reply is the parse error, with the codec unchanged. */
  lemma BadFloatRead(svc: Service, c: Codec, name: string, s: string)
    ensures RequestLeavesFloat(BadFloatExec(name, s))
    ensures Process(svc, c, BadFloatExec(name, s)) == Processed(ParseError, c, [])
  {
    var toks := BadFloatExec(name, s);
    var args := [TStr(name), TLParen, TInt(TYPE_FRANGE), TStr(s), TRParen] + [TRParen];
    assert toks == [TLParen, TInt(CommandId(ExecProc))] + args;
    assert toks[2..] == args && args[1..] == [TLParen, TInt(TYPE_FRANGE), TStr(s)] + [TRParen, TRParen];
    CommandIdInverse(ExecProc);
    BadFloatLeavesMode(s, [TRParen, TRParen]);
    DispatchHandles(svc, c, ExecProc, args);
    FloatModeOnlyAfterError(svc, c, toks);
  }

  /**
   * Corrected: the switch is put back on every path, which is what Process
   * models, so after the bad exec request the next message is answered
   * exactly as by a fresh codec.
   */
  lemma BadFloatForgotten(svc: Service, c: Codec, name: string, s: string, next: seq<Token>)
    ensures var p1 := Process(svc, c, BadFloatExec(name, s));
            p1.reply == ParseError && Process(svc, p1.codec, next) == Process(svc, c, next)
  {
    BadFloatRead(svc, c, name, s);
  }

  // --- reply text ---

  const RETURN_MARKER: string := ";gsl-glue-return\n"
  const PARSE_ERROR_TEXT: string := ";gsl-glue-parse-error"

  /** The reply text gsl_glue_codec_process hands back. */
  function ReplyText(r: Reply, render: seq<Token> -> string): string {
    match r
    case Return(p) => RETURN_MARKER + render(p)
    case ParseError => PARSE_ERROR_TEXT
  }

  /**
   * encoder_process_request: a reply that does not start with the return
   * marker is rejected (NULL); an accepted one loses its marker.
   */
  function CheckReply(response: Option<string>): (r: Option<string>)
    ensures r.Some? ==> response.Some? && response.value == RETURN_MARKER + r.value
    ensures response.Some? && |response.value| >= 17 && response.value[..17] == RETURN_MARKER ==> r.Some?
  {
    if response.Some? && |response.value| >= 17 && response.value[..17] == RETURN_MARKER
    then (assert response.value == RETURN_MARKER + response.value[17..]; Some(response.value[17..]))
    else None
  }

  /** A return reply passes the check with its payload intact; a parse error is rejected. */
  lemma ReplyCheck(r: Reply, render: seq<Token> -> string)
    ensures r.Return? ==> CheckReply(Some(ReplyText(r, render))) == Some(render(r.payload))
    ensures r.ParseError? ==> CheckReply(Some(ReplyText(r, render))) == None
  {
    if r.Return? {
      var t := ReplyText(r, render);
      assert t[..17] == RETURN_MARKER;
      assert t[17..] == render(r.payload);
    } else {
      assert PARSE_ERROR_TEXT[..17] != RETURN_MARKER by {
        assert PARSE_ERROR_TEXT[11] != RETURN_MARKER[11];
      }
    }
  }

  // --- the client side ---

  /** How text travels: the printer, the scanner, and the transport that carries a request to the responder. */
  datatype Wire = Wire(render: seq<Token> -> string, lex: string -> seq<Token>, io: string -> Option<string>)

  /** The scanner reads back what was printed. */
  ghost predicate ReadsBack(w: Wire, t: seq<Token>) {
    w.lex(w.render(t)) == t
  }

  /** The scanner reads back both texts of one exchange: the request and the payload of its reply. */
  ghost predicate Carries(w: Wire, request: seq<Token>, payload: seq<Token>) {
    ReadsBack(w, request) && ReadsBack(w, payload)
  }

  /** What the scanner of the client side is started on. */
  datatype Scan = Tokens(toks: seq<Token>) | NullDeref

  /** encoder_setup_scanner as written: strlen of a rejected (NULL) reply. */
  function SetupScannerAsWritten(w: Wire, input: Option<string>): (s: Scan)
    ensures s.NullDeref? <==> input.None?
  {
    match input
    case None => NullDeref
    case Some(text) => Tokens(w.lex(text))
  }

  /** The scanner started on a rejected reply as on an empty one, as the readers after it expect. */
  function SetupScanner(w: Wire, input: Option<string>): (toks: seq<Token>)
    ensures input.None? ==> toks == []
    ensures input.Some? ==> SetupScannerAsWritten(w, input) == Tokens(toks)
  {
    match input
    case None => []
    case Some(text) => w.lex(text)
  }

  /** Any reply that is rejected leaves the client's scanner started on a NULL input. */
  lemma RejectedReplyDereferencesNull(w: Wire, response: Option<string>)
    requires response.Some? ==> |response.value| < 17 || response.value[..17] != RETURN_MARKER
    ensures SetupScannerAsWritten(w, CheckReply(response)) == NullDeref
  {
  }

  /** A parse error reply is one of them. */
  lemma ParseErrorDereferencesNull(w: Wire)
    ensures SetupScannerAsWritten(w, CheckReply(Some(PARSE_ERROR_TEXT))) == NullDeref
  {
    ReplyCheck(ParseError, w.render);
  }

  /** Sending a request and starting the scanner on the reply. */
  function Exchange(w: Wire, request: seq<Token>): seq<Token> {
    SetupScanner(w, CheckReply(w.io(w.render(request))))
  }

  /** With the corrected scanner set-up, a rejected reply makes a value request come back as NONE. */
  lemma RejectedValueRequest(w: Wire, request: seq<Token>)
    requires CheckReply(w.io(w.render(request))).None?
    ensures ParseValue(Exchange(w, request)) == Parsed(VNone, [], false)
  {
  }

  /** The text of a request: "(" command-id arguments ")". */
  function Request(cmd: Command, args: seq<Token>): seq<Token> {
    [TLParen, TInt(CommandId(cmd))] + args + [TRParen]
  }

  /** encode_exec_proc. */
  function ClientExec(w: Wire, procName: Option<string>, params: seq<Value>): Value {
    ParseValue(Exchange(w, Request(ExecProc, [EscStr(procName)] + EncodeValue(VSeq(params))))).value
  }

  /** encode_signal_connection: connected when the reply is a positive number. */
  function ClientSignalConnection(w: Wire, signal: Option<string>, proxy: UInt64, enable: bool): bool {
    var toks := Exchange(w, Request(SignalConnection, [TInt(proxy), TInt(if enable then 1 else 0), EscStr(signal)]));
    Peek(toks).TInt? && toks[0].n > 0
  }

  /** encode_describe_enum. */
  function ClientDescribeEnum(w: Wire, name: Option<string>): Option<EnumDesc> {
    ParseEnum(Exchange(w, Request(DescribeEnum, [EscStr(name)]))).value
  }

  /** encode_describe_iface. */
  function ClientDescribeIface(w: Wire, name: Option<string>): Option<IfaceDesc> {
    ParseIface(Exchange(w, Request(DescribeIface, [EscStr(name)]))).value
  }

  /** encode_describe_prop: an empty reply is the valid answer "no such property". */
  function ClientDescribeProp(w: Wire, proxy: UInt64, name: Option<string>): Option<PropDesc> {
    var toks := Exchange(w, Request(DescribeProp, [TInt(proxy), EscStr(name)]));
    if Peek(toks) == TLParen then Some(ParseProp(toks).value) else None
  }

  /** encode_describe_proc. */
  function ClientDescribeProc(w: Wire, name: Option<string>): ProcDesc {
    ParseProc(Exchange(w, Request(DescribeProc, [EscStr(name)]))).value
  }

  /** encode_list_proc_names. */
  function ClientListProcNames(w: Wire): Option<seq<string>> {
    ParseStringArray(Exchange(w, Request(ListProcNames, []))).value
  }

  /** encode_list_method_names and encode_iface_children. */
  function ClientListByName(w: Wire, cmd: Command, name: Option<string>): Option<seq<string>> {
    ParseStringArray(Exchange(w, Request(cmd, [EscStr(name)]))).value
  }

  /** encode_base_iface. */
  function ClientBaseIface(w: Wire): Option<string> {
    ParseString(Exchange(w, Request(BaseIface, []))).value
  }

  /** encode_proxy_iface. */
  function ClientProxyIface(w: Wire, proxy: UInt64): Option<string> {
    ParseString(Exchange(w, Request(ProxyIface, [TInt(proxy)]))).value
  }

  /** encode_client_msg. */
  function ClientMessage(w: Wire, msg: Option<string>, value: Value): Value {
    ParseValue(Exchange(w, Request(ClientMsg, [EscStr(msg)] + EncodeValue(value)))).value
  }

  // --- end to end ---

  /** The transport hands a request text to a responder with the given glue layer and registry. */
  ghost predicate Answers(w: Wire, svc: Service, c: Codec, text: string) {
    w.io(text) == Some(ReplyText(Process(svc, c, w.lex(text)).reply, w.render))
  }

  /** A transport that hands every request to that responder. */
  ghost predicate Loopback(w: Wire, svc: Service, c: Codec) {
    forall text :: Answers(w, svc, c, text)
  }

  /**
   * For any glue layer, registry, request and payload there is a wire
   * that hands the request to that responder and reads both texts back,
   * so the premises of the lemmas below can be met together.
   */
  lemma WireExists(svc: Service, c: Codec, request: seq<Token>, payload: seq<Token>)
    ensures exists w :: Loopback(w, svc, c) && Carries(w, request, payload)
  {
    var render := (t: seq<Token>) => if t == request then "q" else "p";
    var lex := (text: string) => if text == "q" then request else payload;
    var w := ToResponder(svc, c, render, lex);
    ResponderLoops(svc, c, render, lex);
    assert Carries(w, request, payload) by {
      assert w.lex == lex && w.render == render;
    }
  }

  /** A wire whose transport hands every request text to the responder. */
  function ToResponder(svc: Service, c: Codec, render: seq<Token> -> string, lex: string -> seq<Token>): Wire {
    Wire(render, lex, text => Some(ReplyText(Process(svc, c, lex(text)).reply, render)))
  }

  lemma ResponderLoops(svc: Service, c: Codec, render: seq<Token> -> string, lex: string -> seq<Token>)
    ensures Loopback(ToResponder(svc, c, render, lex), svc, c)
  {
    var w := ToResponder(svc, c, render, lex);
    forall text ensures Answers(w, svc, c, text) {
    }
  }

  /** What the responder's reply to a request scans into on the client side. */
  lemma LoopbackExchange(w: Wire, svc: Service, c: Codec, request: seq<Token>)
    requires Loopback(w, svc, c) && ReadsBack(w, request)
    requires Process(svc, c, request).reply.Return? ==> ReadsBack(w, Process(svc, c, request).reply.payload)
    ensures Process(svc, c, request).reply.Return? ==> Exchange(w, request) == Process(svc, c, request).reply.payload
    ensures Process(svc, c, request).reply.ParseError? ==> Exchange(w, request) == []
  {
    var r := Process(svc, c, request).reply;
    assert Answers(w, svc, c, w.render(request));
    ReplyCheck(r, w.render);
  }

  /** A command whose handler reads exactly its arguments reaches the client as the handler's payload. */
  lemma ClientSees(w: Wire, svc: Service, c: Codec, cmd: Command, args: seq<Token>, payload: seq<Token>)
    requires cmd != EventSignal
    requires var o := Dispatch(svc, c, cmd, args + [TRParen]); o.ok && o.rest == [TRParen] && o.payload == payload
    requires Loopback(w, svc, c) && Carries(w, Request(cmd, args), payload)
    ensures Exchange(w, Request(cmd, args)) == payload
  {
    ProcessStep(svc, c, cmd, args);
    LoopbackExchange(w, svc, c, Request(cmd, args));
  }

  /** decode_exec_proc on a well-formed request calls the procedure with the arguments sent. */
  lemma ExecHandled(svc: Service, c: Codec, name: string, params: seq<Value>)
    requires forall k :: 0 <= k < |params| ==> WellFormed(params[k])
    ensures HandleExec(svc, c, [TStr(name)] + EncodeValue(VSeq(params)) + [TRParen])
         == Outcome(EncodeValue(svc.execProc(name, params)), [TRParen], true, c, [])
  {
    var toks := [TStr(name)] + EncodeValue(VSeq(params)) + [TRParen];
    assert toks[1..] == EncodeValue(VSeq(params)) + [TRParen];
    ValueRoundTrip(VSeq(params), [TRParen]);
  }

  /** An argument that is no sequence makes no call; the reply is the NONE value. */
  lemma ExecNonSequence(svc: Service, c: Codec, name: string, v: Value, rest: seq<Token>)
    requires WellFormed(v) && !v.VSeq?
    ensures HandleExec(svc, c, [TStr(name)] + EncodeValue(v) + rest) == Outcome(EncodeValue(VNone), rest, true, c, [])
  {
    var toks := [TStr(name)] + EncodeValue(v) + rest;
    assert toks[1..] == EncodeValue(v) + rest;
    ValueRoundTrip(v, rest);
  }

  /** The responder runs decode_exec_proc for an exec request. */
  lemma ExecDispatched(svc: Service, c: Codec, name: string, params: seq<Value>)
    requires forall k :: 0 <= k < |params| ==> WellFormed(params[k])
    ensures Dispatch(svc, c, ExecProc, [TStr(name)] + EncodeValue(VSeq(params)) + [TRParen])
         == Outcome(EncodeValue(svc.execProc(name, params)), [TRParen], true, c, [])
  {
    DispatchHandles(svc, c, ExecProc, [TStr(name)] + EncodeValue(VSeq(params)) + [TRParen]);
    ExecHandled(svc, c, name, params);
  }

  /** Executing a procedure through the codec returns what the glue layer's call returned. */
  lemma ExecEndToEnd(w: Wire, svc: Service, c: Codec, name: string, params: seq<Value>)
    requires forall k :: 0 <= k < |params| ==> WellFormed(params[k])
    requires WellFormed(svc.execProc(name, params))
    requires Loopback(w, svc, c)
    requires Carries(w, Request(ExecProc, [TStr(name)] + EncodeValue(VSeq(params))), EncodeValue(svc.execProc(name, params)))
    ensures ClientExec(w, Some(name), params) == svc.execProc(name, params)
  {
    var ret := svc.execProc(name, params);
    var args := [TStr(name)] + EncodeValue(VSeq(params));
    ExecDispatched(svc, c, name, params);
    assert Exchange(w, Request(ExecProc, args)) == EncodeValue(ret) by {
      ClientSees(w, svc, c, ExecProc, args, EncodeValue(ret));
    }
    assert ParseValue(EncodeValue(ret)).value == ret by {
      ValueReadsBack(ret);
    }
  }

  /** decode_signal_connection on a well-formed request answers with the outcome of Connect. */
  lemma SignalHandled(svc: Service, c: Codec, signal: string, proxy: UInt64, enable: bool)
    ensures var r := Connect(svc, c, proxy, enable, signal);
            HandleSignalConnection(svc, c, [TInt(proxy), TInt(if enable then 1 else 0), TStr(signal)] + [TRParen])
            == Outcome([TInt(if r.connected then 1 else 0)], [TRParen], true, r.codec, r.events)
  {
    var toks := [TInt(proxy), TInt(if enable then 1 else 0), TStr(signal)] + [TRParen];
    assert toks[1..][0] == toks[1] && toks[2..][0] == toks[2] && toks[3..] == [TRParen];
  }

  /** The client's answer to a connection request is the reply of Connect: for a live proxy, the registry's state after it. */
  lemma SignalConnectionEndToEnd(w: Wire, svc: Service, c: Codec, signal: string, proxy: UInt64, enable: bool)
    requires Loopback(w, svc, c)
    requires Carries(w, Request(SignalConnection, [TInt(proxy), TInt(if enable then 1 else 0), TStr(signal)]),
                     [TInt(if Connect(svc, c, proxy, enable, signal).connected then 1 else 0)])
    ensures ClientSignalConnection(w, Some(signal), proxy, enable) == Connect(svc, c, proxy, enable, signal).connected
    ensures Registry(c.signals) && proxy != 0 ==>
            (ClientSignalConnection(w, Some(signal), proxy, enable)
             <==> FindSignal(Connect(svc, c, proxy, enable, signal).codec.signals, proxy, signal).Some?)
  {
    var args := [TInt(proxy), TInt(if enable then 1 else 0), TStr(signal)];
    var r := Connect(svc, c, proxy, enable, signal);
    var answer := [TInt(if r.connected then 1 else 0)];
    var o := Dispatch(svc, c, SignalConnection, args + [TRParen]);
    assert o.ok && o.rest == [TRParen] && o.payload == answer by {
      DispatchHandles(svc, c, SignalConnection, args + [TRParen]);
      SignalHandled(svc, c, signal, proxy, enable);
    }
    assert Exchange(w, Request(SignalConnection, args)) == answer by {
      ClientSees(w, svc, c, SignalConnection, args, answer);
    }
  }

  /** Describing a procedure through the codec yields its canonical description. */
  lemma DescribeProcEndToEnd(w: Wire, svc: Service, c: Codec, name: string)
    requires svc.describeProc(name).Some?
    requires var p := svc.describeProc(name).value;
             p.procName.Some? && p.retParam.Some? && Transmissible(p.retParam.value, false)
             && AllTransmissible(p.params) && |p.params| < 0x1_0000_0000
    requires Loopback(w, svc, c) && Carries(w, Request(DescribeProc, [TStr(name)]), EncodeProc(svc.describeProc(name).value))
    ensures var p := svc.describeProc(name).value;
            ClientDescribeProc(w, Some(name)) == ProcDesc(p.procName, Some(Canonical(p.retParam.value)), CanonicalAll(p.params))
  {
    var p := svc.describeProc(name).value;
    var o := Dispatch(svc, c, DescribeProc, [TStr(name)] + [TRParen]);
    assert o.ok && o.rest == [TRParen] && o.payload == EncodeProc(p) by {
      DispatchHandles(svc, c, DescribeProc, [TStr(name)] + [TRParen]);
      assert ([TStr(name)] + [TRParen])[1..] == [TRParen];
    }
    assert Exchange(w, Request(DescribeProc, [TStr(name)])) == EncodeProc(p) by {
      ClientSees(w, svc, c, DescribeProc, [TStr(name)], EncodeProc(p));
    }
    assert ParseProc(EncodeProc(p)).value == ProcDesc(p.procName, Some(Canonical(p.retParam.value)), CanonicalAll(p.params)) by {
      assert EncodeProc(p) + [] == EncodeProc(p);
      ProcRoundTrip(p, []);
    }
  }

  /** Listing methods or children through the codec: the glue layer's list, an empty one read as NULL. */
  lemma ListEndToEnd(w: Wire, svc: Service, c: Codec, cmd: Command, name: string)
    requires cmd == ListMethodNames || cmd == IfaceChildren
    requires Loopback(w, svc, c)
    requires Carries(w, Request(cmd, [TStr(name)]),
                     ListReply(if cmd == ListMethodNames then svc.listMethodNames(name) else svc.ifaceChildren(name)))
    ensures ClientListByName(w, cmd, Some(name))
         == NonEmpty(if cmd == ListMethodNames then svc.listMethodNames(name) else svc.ifaceChildren(name))
  {
    var l := if cmd == ListMethodNames then svc.listMethodNames(name) else svc.ifaceChildren(name);
    var o := Dispatch(svc, c, cmd, [TStr(name)] + [TRParen]);
    assert o.ok && o.rest == [TRParen] && o.payload == ListReply(l) by {
      DispatchHandles(svc, c, cmd, [TStr(name)] + [TRParen]);
      assert ([TStr(name)] + [TRParen])[1..] == [TRParen];
    }
    assert Exchange(w, Request(cmd, [TStr(name)])) == ListReply(l) by {
      ClientSees(w, svc, c, cmd, [TStr(name)], ListReply(l));
    }
    assert ParseStringArray(ListReply(l)).value == NonEmpty(l) by {
      if l.Some? {
        assert EncodeStringArray(l) + [] == EncodeStringArray(l);
        StringArrayRoundTrip(l, []);
      }
    }
  }

  /** Listing the procedures through the codec: the glue layer's list, an empty one read as NULL. */
  lemma ListProcNamesEndToEnd(w: Wire, svc: Service, c: Codec)
    requires Loopback(w, svc, c) && Carries(w, Request(ListProcNames, []), ListReply(svc.listProcNames))
    ensures ClientListProcNames(w) == NonEmpty(svc.listProcNames)
  {
    ClientSees(w, svc, c, ListProcNames, [], ListReply(svc.listProcNames));
  }

  /** Asking for the base interface through the codec yields the glue layer's answer, NULL included. */
  lemma BaseIfaceEndToEnd(w: Wire, svc: Service, c: Codec)
    requires Loopback(w, svc, c) && Carries(w, Request(BaseIface, []), [EscStr(svc.baseIface)])
    ensures ClientBaseIface(w) == svc.baseIface
  {
    ClientSees(w, svc, c, BaseIface, [], [EscStr(svc.baseIface)]);
  }

  /** Asking for a proxy's interface through the codec yields the glue layer's answer for that proxy. */
  lemma ProxyIfaceEndToEnd(w: Wire, svc: Service, c: Codec, proxy: UInt64)
    requires Loopback(w, svc, c) && Carries(w, Request(ProxyIface, [TInt(proxy)]), [EscStr(svc.proxyIface(proxy))])
    ensures ClientProxyIface(w, proxy) == svc.proxyIface(proxy)
  {
    assert ([TInt(proxy)] + [TRParen])[1..] == [TRParen];
    ClientSees(w, svc, c, ProxyIface, [TInt(proxy)], [EscStr(svc.proxyIface(proxy))]);
  }

  /** decode_client_msg on a well-formed message, with no interception handler, answers with the glue layer's reply. */
  lemma MessageHandled(svc: Service, c: Codec, msg: Option<string>, value: Value)
    requires svc.intercept.None? && WellFormed(value)
    ensures HandleClientMsg(svc, c, [EscStr(msg)] + EncodeValue(value) + [TRParen])
         == Outcome(EncodeValue(svc.clientMsg(msg, value).GetOr(VNone)), [TRParen], true, c, [])
  {
    var toks := [EscStr(msg)] + EncodeValue(value) + [TRParen];
    assert toks[1..] == EncodeValue(value) + [TRParen];
    ValueRoundTrip(value, [TRParen]);
  }

  /** The responder runs decode_client_msg for a client message. */
  lemma MessageDispatched(svc: Service, c: Codec, msg: Option<string>, value: Value)
    requires svc.intercept.None? && WellFormed(value)
    ensures Dispatch(svc, c, ClientMsg, [EscStr(msg)] + EncodeValue(value) + [TRParen])
         == Outcome(EncodeValue(svc.clientMsg(msg, value).GetOr(VNone)), [TRParen], true, c, [])
  {
    DispatchHandles(svc, c, ClientMsg, [EscStr(msg)] + EncodeValue(value) + [TRParen]);
    MessageHandled(svc, c, msg, value);
  }

  /** A client message without an interception handler gets the glue layer's reply, NULL read as NONE. */
  lemma ClientMessageEndToEnd(w: Wire, svc: Service, c: Codec, msg: Option<string>, value: Value)
    requires svc.intercept.None?
    requires WellFormed(value) && WellFormed(svc.clientMsg(msg, value).GetOr(VNone))
    requires Loopback(w, svc, c)
    requires Carries(w, Request(ClientMsg, [EscStr(msg)] + EncodeValue(value)), EncodeValue(svc.clientMsg(msg, value).GetOr(VNone)))
    ensures ClientMessage(w, msg, value) == svc.clientMsg(msg, value).GetOr(VNone)
  {
    var ret := svc.clientMsg(msg, value).GetOr(VNone);
    var args := [EscStr(msg)] + EncodeValue(value);
    MessageDispatched(svc, c, msg, value);
    assert Exchange(w, Request(ClientMsg, args)) == EncodeValue(ret) by {
      ClientSees(w, svc, c, ClientMsg, args, EncodeValue(ret));
    }
    assert ParseValue(EncodeValue(ret)).value == ret by {
      ValueReadsBack(ret);
    }
  }

  // --- events on the client side ---

  /** What gsl_glue_enqueue_signal_event receives: the signal, its arguments, and whether the connection finished. */
  datatype Queued = Queued(signal: string, args: seq<Value>, finished: bool)

  /** The result of gsl_glue_codec_enqueue_event: whether the message was an event, and what was queued. */
  datatype EventReading = EventReading(seen: bool, queued: Option<Queued>)

  /**
   * decode_event and gsl_glue_codec_enqueue_event.  A message that is an
   * event counts as seen even when it is malformed; only a complete one
   * with a non-zero proxy is queued.  The connected flag is a gboolean.
   */
  function EnqueueEvent(toks: seq<Token>): (r: EventReading)
    ensures r.queued.Some? ==> r.seen
  {
    if Peek(toks) != TLParen || !Peek(toks[1..]).TInt? || toks[1].n != CommandId(EventSignal) then EventReading(false, None)
    else if !Peek(toks[2..]).TStr? || !Peek(toks[3..]).TInt? then EventReading(true, None)
    else
      var signal := toks[2].s;
      var proxy := WrapU64(toks[3].n);
      var v := ParseValue(toks[4..]);
      if !v.ok || !v.value.VSeq? || !Peek(v.rest).TInt? then EventReading(true, None)
      else
        var connected := WrapI32(v.rest[0].n) != 0;
        if Peek(v.rest[1..]) != TRParen || proxy == 0 then EventReading(true, None)
        else EventReading(true, Some(Queued(signal, v.value.elements, !connected)))
  }

  /** Every event the codec sends for a live proxy is queued on the client side as sent. */
  lemma EventRoundTrip(e: Event, rest: seq<Token>)
    requires e.proxy != 0
    requires forall k :: 0 <= k < |e.args| ==> WellFormed(e.args[k])
    ensures EnqueueEvent(EncodeEvent(e) + rest) == EventReading(true, Some(Queued(e.signal, e.args, !e.connected)))
  {
    var toks := EncodeEvent(e) + rest;
    var after := [TInt(if e.connected then 1 else 0), TRParen] + rest;
    assert toks[4..] == EncodeValue(VSeq(e.args)) + after;
    ValueRoundTrip(VSeq(e.args), after);
    assert after[1..] == [TRParen] + rest;
  }

  /** Disabling a connection ends the client's connection: its event is queued as finished. */
  lemma DisconnectEventFinishes(svc: Service, c: Codec, proxy: UInt64, signal: string)
    requires Registry(c.signals) && proxy != 0
    requires FindSignal(c.signals, proxy, signal).Some?
    ensures var ev := Connect(svc, c, proxy, false, signal).events;
            |ev| == 1 && EnqueueEvent(EncodeEvent(ev[0])) == EventReading(true, Some(Queued(signal, [VProxy(proxy)], true)))
  {
    DisconnectSendsEvent(svc, c, proxy, signal);
    var e := Event(signal, proxy, [VProxy(proxy)], false);
    assert EncodeEvent(e) + [] == EncodeEvent(e);
    EventRoundTrip(e, []);
  }

  /** A signal emission on a live connection reaches the client's queue as a running connection with the emission's arguments. */
  lemma SignalEventQueued(s: SignalRec, args: seq<Value>)
    requires s.proxy != 0
    requires forall k :: 0 <= k < |args| ==> WellFormed(args[k])
    ensures EnqueueEvent(EncodeEvent(HandleSignal(s, args))) == EventReading(true, Some(Queued(s.signal, args, false)))
  {
    var e := HandleSignal(s, args);
    assert EncodeEvent(e) + [] == EncodeEvent(e);
    EventRoundTrip(e, []);
  }

  /** A reply or any other command is not an event. */
  lemma NotAnEvent(n: nat, rest: seq<Token>)
    requires n != CommandId(EventSignal)
    ensures EnqueueEvent([TLParen, TInt(n)] + rest) == EventReading(false, None)
  {
  }
}

=== FILE: glue_describe.dfy ===
/**
 * The readers of parameter descriptions, string lists and the enum,
 * interface, property and procedure descriptors, with their round trips.
 *
 * Unlike parse_value, the descriptor readers hand back what they had read
 * so far when the scanner fails, and the client side returns that to its
 * caller; the partial results are modelled as they are.
 */
module GlueDescribe {
  import opened Wrappers
  import opened CString
  import opened GlueValue
  import opened GlueParse

  /** glib's MAX. */
  function Max(a: int, b: int): (r: int)
    ensures (r == a || r == b) && r >= a && r >= b
  {
    if a > b then a else b
  }

  /** glib's CLAMP: the high bound wins when the bounds cross. */
  function Clamp(x: int, lo: int, hi: int): (r: int)
    ensures r == x || r == lo || r == hi
    ensures lo <= hi ==> lo <= r <= hi
    ensures lo <= x <= hi ==> r == x
  {
    if x > hi then hi else if x < lo then lo else x
  }

  function MaxR(a: real, b: real): (r: real)
    ensures (r == a || r == b) && r >= a && r >= b
  {
    if a > b then a else b
  }

  function ClampR(x: real, lo: real, hi: real): (r: real)
    ensures lo <= hi ==> lo <= r <= hi
    ensures lo <= x <= hi ==> r == x
  {
    if x > hi then hi else if x < lo then lo else x
  }

  // --- parameters ---

  /** The name of a parameter: a string, or NULL where no name is needed (a return value). */
  function ParseParamName(toks: seq<Token>, needName: bool): (r: Parsed<Option<string>>)
    ensures r.ok <==> (!needName && Peek(toks) == TNull) || Peek(toks).TStr?
    ensures r.ok ==> r.rest == toks[1..]
    ensures |r.rest| <= |toks|
  {
    if !needName && Peek(toks) == TNull then Parsed(None, toks[1..], true)
    else if Peek(toks).TStr? then Parsed(Some(toks[0].s), toks[1..], true)
    else Parsed(None, Tail(toks), false)
  }

  /** Default, minimum, maximum and stepping of an integer range; the maximum is raised to the minimum and the default clamped. */
  function ParseIRange(toks: seq<Token>): (r: Parsed<ParamKind>)
    ensures |r.rest| <= |toks|
    ensures r.ok ==> r.value.PIRange? && InRange(r.value)
  {
    var xs := ParseSignedInts(toks, 4);
    if !xs.ok then Parsed(PNone, xs.rest, false)
    else
      var lo := xs.value[1];
      var hi := Max(lo, xs.value[2]);
      Parsed(PIRange(Clamp(xs.value[0], lo, hi), lo, hi, xs.value[3]), xs.rest, true)
  }

  /** Default, minimum, maximum and stepping of a float range, validated like an integer range. */
  function ParseFRange(toks: seq<Token>): (r: Parsed<ParamKind>)
    ensures |r.rest| <= |toks|
    ensures r.ok ==> r.value.PFRange? && InRange(r.value)
  {
    var xs := ParseSignedReals(toks, 4);
    if !xs.ok then Parsed(PNone, xs.rest, false)
    else
      var lo := xs.value[1];
      var hi := MaxR(lo, xs.value[2]);
      Parsed(PFRange(ClampR(xs.value[0], lo, hi), lo, hi, xs.value[3]), xs.rest, true)
  }

  /** The type-specific fields of a parameter whose type id is known and is not a sequence or record. */
  function ParseKind(id: nat, toks: seq<Token>): (r: Parsed<ParamKind>)
    requires id <= TYPE_PROXY
    ensures |r.rest| <= |toks|
    ensures r.ok ==> KindId(r.value) == id
  {
    if id == TYPE_NONE then Parsed(PNone, toks, true)
    else if id == TYPE_BOOL then
      if Peek(toks).TInt? then Parsed(PBool(toks[0].n != 0), toks[1..], true) else Parsed(PNone, Tail(toks), false)
    else if id == TYPE_IRANGE then ParseIRange(toks)
    else if id == TYPE_FRANGE then ParseFRange(toks)
    else if id == TYPE_STRING then
      var s := ParseString(toks);
      Parsed(if s.ok then PString(s.value) else PNone, s.rest, s.ok)
    else if id == TYPE_ENUM then
      if !Peek(toks).TStr? then Parsed(PNone, Tail(toks), false)
      else if !Peek(toks[1..]).TInt? then Parsed(PNone, Tail(toks[1..]), false)
      else Parsed(PEnum(Some(toks[0].s), WrapU32(toks[1].n)), toks[2..], true)
    else
      if Peek(toks).TStr? then Parsed(PProxy(Some(toks[0].s)), toks[1..], true) else Parsed(PNone, Tail(toks), false)
  }

  /**
   * parse_param.  Sequence and record parameters and unknown type ids are
   * reported and read as no parameter, with the scanner left in good state
   * right after the name.  A NONE parameter loses its name.
   */
  function ParseParam(toks: seq<Token>, needName: bool): (r: Parsed<Option<Param>>)
    ensures |r.rest| <= |toks| && (r.ok ==> |r.rest| < |toks|)
    ensures !r.ok ==> r.value == None
    ensures r.value.Some? ==> InRange(r.value.value.kind) && !r.value.value.kind.PSeq? && !r.value.value.kind.PRec?
  {
    if Peek(toks) != TLParen then Parsed(None, Tail(toks), false)
    else if !Peek(toks[1..]).TInt? then Parsed(None, Tail(toks[1..]), false)
    else
      var id := WrapU32(toks[1].n);
      var nm := ParseParamName(toks[2..], needName);
      if !nm.ok then Parsed(None, nm.rest, false)
      else if id > TYPE_PROXY then Parsed(None, nm.rest, true)
      else
        var k := ParseKind(id, nm.rest);
        if !k.ok then Parsed(None, k.rest, false)
        else if Peek(k.rest) != TRParen then Parsed(None, Tail(k.rest), false)
        else
          var p := if id == TYPE_NONE then Param(None, PNone) else Param(nm.value, k.value);
          Parsed(Some(p), k.rest[1..], true)
  }

  /** A range whose default lies between its bounds. */
  predicate InRange(k: ParamKind) {
    match k
    case PIRange(d, lo, hi, _) => lo <= d <= hi
    case PFRange(d, lo, hi, _) => lo <= d <= hi
    case _ => true
  }

  /** The parameter a reader makes of a written one: ranges validated, a NONE parameter's name dropped. */
  function Canonical(p: Param): (q: Param)
    ensures InRange(q.kind) && KindId(q.kind) == KindId(p.kind)
    ensures InRange(p.kind) && (p.kind.PNone? ==> p.name.None?) ==> q == p
  {
    match p.kind
    case PNone => Param(None, PNone)
    case PIRange(d, lo, hi, st) =>
      var hi' := Max(lo, hi);
      Param(p.name, PIRange(Clamp(d, lo, hi'), lo, hi', st))
    case PFRange(d, lo, hi, st) =>
      var hi' := MaxR(lo, hi);
      Param(p.name, PFRange(ClampR(d, lo, hi'), lo, hi', st))
    case _ => p
  }

  /** Reading is a normalisation: reading what was read changes nothing. */
  lemma CanonicalIdempotent(p: Param)
    ensures Canonical(Canonical(p)) == Canonical(p)
  {
  }

  /**
   * The parameters the reader can take back: no sequence or record, a
   * string where a name or a type name is required.
   */
  predicate Transmissible(p: Param, needName: bool) {
    && !p.kind.PSeq? && !p.kind.PRec?
    && (needName ==> p.name.Some?)
    && (p.kind.PEnum? ==> p.kind.enumName.Some?)
    && (p.kind.PProxy? ==> p.kind.ifaceName.Some?)
  }

  /** The type-specific fields of a parameter are read back in their canonical form. */
  lemma KindRoundTrip(k: ParamKind, rest: seq<Token>)
    requires Transmissible(Param(Some([]), k), false)
    ensures ParseKind(KindId(k), EncodeParamFields(k) + rest) == Parsed(Canonical(Param(None, k)).kind, rest, true)
  {
    var toks := EncodeParamFields(k) + rest;
    match k {
      case PIRange(d, lo, hi, st) => SignedIntsRoundTrip([d, lo, hi, st], rest);
      case PFRange(d, lo, hi, st) => SignedRealsRoundTrip([d, lo, hi, st], rest);
      case PEnum(name, d) => assert toks[1..] == [TInt(d)] + rest;
      case _ =>
    }
  }

  /** A written parameter is read back in its canonical form, and the reader stops right after it. */
  lemma ParamRoundTrip(p: Param, needName: bool, rest: seq<Token>)
    requires Transmissible(p, needName)
    ensures ParseParam(EncodeParam(p) + rest, needName) == Parsed(Some(Canonical(p)), rest, true)
  {
    var toks := EncodeParam(p) + rest;
    var after := EncodeParamFields(p.kind) + ([TRParen] + rest);
    assert toks[2..] == [EscStr(p.name)] + after by {
      DropTwoOfThree(TLParen, TInt(KindId(p.kind)), EscStr(p.name), EncodeParamFields(p.kind), TRParen, rest);
    }
    assert ParseParamName(toks[2..], needName) == Parsed(p.name, after, true);
    KindRoundTrip(p.kind, [TRParen] + rest);
  }

  /** A sequence or record parameter is reported and skipped up to its closing parenthesis, which stays unread. */
  lemma ParamRejected(p: Param, needName: bool, rest: seq<Token>)
    requires p.kind.PSeq? || p.kind.PRec?
    requires needName ==> p.name.Some?
    ensures ParseParam(EncodeParam(p) + rest, needName) == Parsed(None, [TRParen] + rest, true)
  {
    var toks := EncodeParam(p) + rest;
    assert toks[2..] == [EscStr(p.name)] + ([TRParen] + rest);
  }

  // --- string lists ---

  /** The strings at the front of the tokens. */
  function LeadingStrings(toks: seq<Token>): (xs: seq<string>)
    ensures |xs| <= |toks|
    ensures forall k :: 0 <= k < |xs| ==> toks[k] == TStr(xs[k])
    ensures |xs| < |toks| ==> !toks[|xs|].TStr?
  {
    if |toks| == 0 || !toks[0].TStr? then [] else [toks[0].s] + LeadingStrings(toks[1..])
  }

  /** gsl_strringtakev: an empty list becomes NULL. */
  function NonEmpty(l: Option<seq<string>>): (r: Option<seq<string>>)
    ensures r.Some? <==> l.Some? && |l.value| > 0
    ensures r.Some? ==> r == l
  {
    if l.Some? && |l.value| > 0 then l else None
  }

  /** parse_string_array: "(" strings ")"; no string at all reads as NULL. */
  function ParseStringArray(toks: seq<Token>): (r: Parsed<Option<seq<string>>>)
    ensures |r.rest| <= |toks| && (r.ok ==> |r.rest| + 2 <= |toks|)
    ensures r.value.Some? ==> |r.value.value| > 0
  {
    if Peek(toks) != TLParen then Parsed(None, Tail(toks), false)
    else
      var xs := LeadingStrings(toks[1..]);
      var t := toks[1 + |xs|..];
      var l := if |xs| == 0 then None else Some(xs);
      if Peek(t) == TRParen then Parsed(l, t[1..], true) else Parsed(l, Tail(t), false)
  }

  lemma {:induction false} LeadingQuoted(xs: seq<string>, rest: seq<Token>)
    requires !Peek(rest).TStr?
    ensures LeadingStrings(Quoted(xs) + rest) == xs
  {
    if |xs| > 0 {
      assert (Quoted(xs) + rest)[1..] == Quoted(xs[1..]) + rest;
      LeadingQuoted(xs[1..], rest);
      assert [xs[0]] + xs[1..] == xs;
    } else {
      assert Quoted(xs) + rest == rest;
    }
  }

  /** A written list reads back as itself, except that an empty or missing list reads as NULL. */
  lemma StringArrayRoundTrip(l: Option<seq<string>>, rest: seq<Token>)
    ensures ParseStringArray(EncodeStringArray(l) + rest) == Parsed(NonEmpty(l), rest, true)
  {
    var xs := l.GetOr([]);
    var toks := EncodeStringArray(l) + rest;
    assert toks[1..] == Quoted(xs) + ([TRParen] + rest);
    LeadingQuoted(xs, [TRParen] + rest);
    assert toks[1 + |xs|..] == [TRParen] + rest;
  }

  // --- enums and interfaces ---

  /** parse_enum; the count check between values and blurbs only reports. */
  function ParseEnum(toks: seq<Token>): (r: Parsed<Option<EnumDesc>>)
    ensures r.ok ==> r.value.Some? && r.value.value.enumName.Some?
  {
    if Peek(toks) != TLParen then Parsed(None, Tail(toks), false)
    else if !Peek(toks[1..]).TStr? then Parsed(None, Tail(toks[1..]), false)
    else
      var e0 := EnumDesc(Some(toks[1].s), None, None);
      var vs := ParseStringArray(toks[2..]);
      var e1 := e0.(values := vs.value);
      if !vs.ok then Parsed(Some(e1), vs.rest, false)
      else
        var bs := ParseStringArray(vs.rest);
        var e2 := e1.(blurbs := bs.value);
        if !bs.ok then Parsed(Some(e2), bs.rest, false)
        else if Peek(bs.rest) == TRParen then Parsed(Some(e2), bs.rest[1..], true)
        else Parsed(Some(e2), Tail(bs.rest), false)
  }

  /** The enum reader over a name and two lists that each read back. */
  lemma EnumFromParts(n: string, l1: seq<Token>, l2: seq<Token>, rest: seq<Token>,
                      vs: Option<seq<string>>, bs: Option<seq<string>>)
    requires ParseStringArray(l1 + (l2 + ([TRParen] + rest))) == Parsed(vs, l2 + ([TRParen] + rest), true)
    requires ParseStringArray(l2 + ([TRParen] + rest)) == Parsed(bs, [TRParen] + rest, true)
    ensures ParseEnum([TLParen] + [TStr(n)] + (l1 + (l2 + ([TRParen] + rest)))) == Parsed(Some(EnumDesc(Some(n), vs, bs)), rest, true)
  {
    var toks := [TLParen] + [TStr(n)] + (l1 + (l2 + ([TRParen] + rest)));
    assert toks[1..][0] == TStr(n);
    assert toks[2..] == l1 + (l2 + ([TRParen] + rest));
  }

  /** A described enum with a name and both lists is read back, its empty lists as NULL. */
  lemma EnumRoundTrip(e: EnumDesc, rest: seq<Token>)
    requires e.enumName.Some? && e.values.Some? && e.blurbs.Some?
    ensures ParseEnum(EncodeEnum(e) + rest)
         == Parsed(Some(EnumDesc(e.enumName, NonEmpty(e.values), NonEmpty(e.blurbs))), rest, true)
  {
    var l1 := EncodeStringArray(e.values);
    var l2 := EncodeStringArray(e.blurbs);
    assert EncodeEnum(e) == [TLParen] + [TStr(e.enumName.value)] + l1 + l2 + [TRParen];
    Regroup5([TLParen] + [TStr(e.enumName.value)], l1, l2, [TRParen], rest);
    StringArrayRoundTrip(e.values, l2 + ([TRParen] + rest));
    StringArrayRoundTrip(e.blurbs, [TRParen] + rest);
    EnumFromParts(e.enumName.value, l1, l2, rest, NonEmpty(e.values), NonEmpty(e.blurbs));
  }

  /**
   * parse_iface.  An empty ancestry is reported and ends the reading in
   * good state, with the property and signal lists still unread.
   */
  function ParseIface(toks: seq<Token>): (r: Parsed<Option<IfaceDesc>>)
    ensures r.ok ==> r.value.Some? && r.value.value.typeName.Some?
    ensures r.ok && r.value.value.ifaces.None? ==> r.value.value.props.None? && r.value.value.signals.None?
  {
    if Peek(toks) != TLParen then Parsed(None, Tail(toks), false)
    else if !Peek(toks[1..]).TStr? then Parsed(None, Tail(toks[1..]), false)
    else
      var f0 := IfaceDesc(Some(toks[1].s), None, None, None);
      var ifs := ParseStringArray(toks[2..]);
      var f1 := f0.(ifaces := ifs.value);
      if !ifs.ok then Parsed(Some(f1), ifs.rest, false)
      else if ifs.value.None? then Parsed(Some(f1), ifs.rest, true)
      else
        var ps := ParseStringArray(ifs.rest);
        var f2 := f1.(props := ps.value);
        if !ps.ok then Parsed(Some(f2), ps.rest, false)
        else
          var ss := ParseStringArray(ps.rest);
          var f3 := f2.(signals := ss.value);
          if !ss.ok then Parsed(Some(f3), ss.rest, false)
          else if Peek(ss.rest) == TRParen then Parsed(Some(f3), ss.rest[1..], true)
          else Parsed(Some(f3), Tail(ss.rest), false)
  }

  /** The interface reader over a name and three lists that each read back, the first one non-empty. */
  lemma IfaceFromParts(n: string, l1: seq<Token>, l2: seq<Token>, l3: seq<Token>, rest: seq<Token>,
                       fs: Option<seq<string>>, ps: Option<seq<string>>, ss: Option<seq<string>>)
    requires fs.Some?
    requires ParseStringArray(l1 + (l2 + (l3 + ([TRParen] + rest)))) == Parsed(fs, l2 + (l3 + ([TRParen] + rest)), true)
    requires ParseStringArray(l2 + (l3 + ([TRParen] + rest))) == Parsed(ps, l3 + ([TRParen] + rest), true)
    requires ParseStringArray(l3 + ([TRParen] + rest)) == Parsed(ss, [TRParen] + rest, true)
    ensures ParseIface([TLParen] + [TStr(n)] + (l1 + (l2 + (l3 + ([TRParen] + rest)))))
         == Parsed(Some(IfaceDesc(Some(n), fs, ps, ss)), rest, true)
  {
    var toks := [TLParen] + [TStr(n)] + (l1 + (l2 + (l3 + ([TRParen] + rest))));
    assert toks[1..][0] == TStr(n);
    assert toks[2..] == l1 + (l2 + (l3 + ([TRParen] + rest)));
  }

  /** An interface with a name, a non-empty ancestry and both other lists is read back. */
  lemma IfaceRoundTrip(f: IfaceDesc, rest: seq<Token>)
    requires f.typeName.Some? && f.ifaces.Some? && |f.ifaces.value| > 0
    requires f.props.Some? && f.signals.Some?
    ensures ParseIface(EncodeIface(f) + rest)
         == Parsed(Some(IfaceDesc(f.typeName, f.ifaces, NonEmpty(f.props), NonEmpty(f.signals))), rest, true)
  {
    var l1 := EncodeStringArray(f.ifaces);
    var l2 := EncodeStringArray(f.props);
    var l3 := EncodeStringArray(f.signals);
    assert EncodeIface(f) == [TLParen] + [TStr(f.typeName.value)] + l1 + l2 + l3 + [TRParen];
    Regroup([TLParen] + [TStr(f.typeName.value)], l1, l2, l3, [TRParen], rest);
    StringArrayRoundTrip(f.ifaces, l2 + (l3 + ([TRParen] + rest)));
    StringArrayRoundTrip(f.props, l3 + ([TRParen] + rest));
    StringArrayRoundTrip(f.signals, [TRParen] + rest);
    IfaceFromParts(f.typeName.value, l1, l2, l3, rest, f.ifaces, NonEmpty(f.props), NonEmpty(f.signals));
  }

  /** The interface reader stops in good state after an empty ancestry. */
  lemma IfaceStopsEarly(n: string, l1: seq<Token>, after: seq<Token>)
    requires ParseStringArray(l1 + after) == Parsed(None, after, true)
    ensures ParseIface([TLParen] + [TStr(n)] + (l1 + after)) == Parsed(Some(IfaceDesc(Some(n), None, None, None)), after, true)
  {
    var toks := [TLParen] + [TStr(n)] + (l1 + after);
    assert toks[1..][0] == TStr(n);
    assert toks[2..] == l1 + after;
  }

  /** An interface without ancestry is read as its name alone, and the rest of the reply stays unread. */
  lemma IfaceWithoutAncestry(f: IfaceDesc, rest: seq<Token>)
    requires f.typeName.Some? && f.ifaces == Some([])
    ensures ParseIface(EncodeIface(f) + rest)
         == Parsed(Some(IfaceDesc(f.typeName, None, None, None)),
                   EncodeListIfSet(f.props) + EncodeListIfSet(f.signals) + [TRParen] + rest, true)
  {
    var l1 := EncodeStringArray(f.ifaces);
    var a := EncodeListIfSet(f.props);
    var b := EncodeListIfSet(f.signals);
    var after := a + b + [TRParen] + rest;
    assert EncodeIface(f) == [TLParen] + [TStr(f.typeName.value)] + l1 + a + b + [TRParen];
    Regroup([TLParen] + [TStr(f.typeName.value)], l1, a, b, [TRParen], rest);
    StringArrayRoundTrip(f.ifaces, after);
    IfaceStopsEarly(f.typeName.value, l1, after);
  }

  // --- properties ---

  /** parse_prop: the property record exists from the start and is filled in as far as the reading got. */
  function ParseProp(toks: seq<Token>): (r: Parsed<PropDesc>)
    ensures r.ok ==> r.value.param.Some? ==> InRange(r.value.param.value.kind)
  {
    var p0 := PropDesc(None, None, None, None, 0);
    if Peek(toks) != TLParen then Parsed(p0, Tail(toks), false)
    else
      var q := ParseParam(toks[1..], true);
      var p1 := p0.(param := q.value);
      if !q.ok then Parsed(p1, q.rest, false) else ParsePropStrings(p1, q.rest)
  }

  /** The group, nick and blurb of a property, then its flags. */
  function ParsePropStrings(p: PropDesc, toks: seq<Token>): (r: Parsed<PropDesc>)
    ensures r.value.param == p.param
  {
    var g := ParseString(toks);
    var p2 := p.(group := g.value);
    if !g.ok then Parsed(p2, g.rest, false)
    else
      var n := ParseString(g.rest);
      var p3 := p2.(prettyName := n.value);
      if !n.ok then Parsed(p3, n.rest, false)
      else
        var b := ParseString(n.rest);
        var p4 := p3.(blurb := b.value);
        if !b.ok then Parsed(p4, b.rest, false) else ParsePropFlags(p4, b.rest)
  }

  /** The flags of a property (a guint) and the closing parenthesis. */
  function ParsePropFlags(p: PropDesc, toks: seq<Token>): (r: Parsed<PropDesc>)
    ensures r.value.(flags := p.flags) == p
  {
    if !Peek(toks).TInt? then Parsed(p, Tail(toks), false)
    else
      var p5 := p.(flags := WrapU32(toks[0].n));
      var t := toks[1..];
      if Peek(t) == TRParen then Parsed(p5, t[1..], true) else Parsed(p5, Tail(t), false)
  }

  lemma PropStringsRoundTrip(p: PropDesc, q: PropDesc, rest: seq<Token>)
    ensures ParsePropStrings(q, [EscStr(p.group), EscStr(p.prettyName), EscStr(p.blurb), TInt(p.flags), TRParen] + rest)
         == Parsed(q.(group := p.group, prettyName := p.prettyName, blurb := p.blurb, flags := p.flags), rest, true)
  {
    var a3 := [TInt(p.flags), TRParen] + rest;
    var a2 := [EscStr(p.blurb)] + a3;
    var a1 := [EscStr(p.prettyName)] + a2;
    var a0 := [EscStr(p.group)] + a1;
    assert [EscStr(p.group), EscStr(p.prettyName), EscStr(p.blurb), TInt(p.flags), TRParen] + rest == a0;
    assert ParseString(a0) == Parsed(p.group, a1, true);
    assert ParseString(a1) == Parsed(p.prettyName, a2, true);
    assert ParseString(a2) == Parsed(p.blurb, a3, true);
    var q3 := q.(group := p.group, prettyName := p.prettyName, blurb := p.blurb);
    assert ParsePropFlags(q3, a3) == Parsed(q3.(flags := p.flags), rest, true) by {
      FlagsRoundTrip(q3, p.flags, rest);
    }
  }

  lemma FlagsRoundTrip(p: PropDesc, flags: UInt32, rest: seq<Token>)
    ensures ParsePropFlags(p, [TInt(flags), TRParen] + rest) == Parsed(p.(flags := flags), rest, true)
  {
    assert ([TInt(flags), TRParen] + rest)[1..] == [TRParen] + rest;
  }

  /** A described property whose parameter the reader can take back is read back with that parameter canonical. */
  lemma PropRoundTrip(p: PropDesc, rest: seq<Token>)
    requires p.param.Some? && Transmissible(p.param.value, true)
    ensures ParseProp(EncodeProp(p) + rest) == Parsed(p.(param := Some(Canonical(p.param.value))), rest, true)
  {
    var toks := EncodeProp(p) + rest;
    var after := [EscStr(p.group), EscStr(p.prettyName), EscStr(p.blurb), TInt(p.flags), TRParen] + rest;
    assert toks[1..] == EncodeParam(p.param.value) + after;
    ParamRoundTrip(p.param.value, true, after);
    PropStringsRoundTrip(p, PropDesc(Some(Canonical(p.param.value)), None, None, None, 0), rest);
  }

  // --- procedures ---

  /** The n named parameters of a procedure; a failed one still takes its (empty) slot. */
  function ParseParamList(toks: seq<Token>, n: nat): (r: Parsed<seq<Option<Param>>>)
    ensures |r.rest| <= |toks|
    ensures r.ok ==> |r.value| == n
    decreases n
  {
    if n == 0 then Parsed([], toks, true)
    else
      var q := ParseParam(toks, true);
      if !q.ok then Parsed([q.value], q.rest, false)
      else
        var more := ParseParamList(q.rest, n - 1);
        Parsed([q.value] + more.value, more.rest, more.ok)
  }

  /** parse_proc: the procedure record exists from the start and is filled in as far as the reading got. */
  function ParseProc(toks: seq<Token>): (r: Parsed<ProcDesc>)
    ensures r.ok ==> r.value.procName.Some?
  {
    var p0 := ProcDesc(None, None, []);
    if Peek(toks) != TLParen then Parsed(p0, Tail(toks), false)
    else if !Peek(toks[1..]).TStr? then Parsed(p0, Tail(toks[1..]), false)
    else
      var p1 := p0.(procName := Some(toks[1].s));
      var ret := ParseParam(toks[2..], false);
      if !ret.ok then Parsed(p1, ret.rest, false)
      else ParseProcParams(p1.(retParam := ret.value), ret.rest)
  }

  /** The parameter count (a guint), the parameters and the closing parenthesis of a procedure. */
  function ParseProcParams(p: ProcDesc, toks: seq<Token>): (r: Parsed<ProcDesc>)
    ensures r.value.procName == p.procName && r.value.retParam == p.retParam
  {
    if !Peek(toks).TInt? then Parsed(p, Tail(toks), false)
    else
      var ps := ParseParamList(toks[1..], WrapU32(toks[0].n));
      var p3 := p.(params := ps.value);
      if !ps.ok then Parsed(p3, ps.rest, false)
      else if Peek(ps.rest) == TRParen then Parsed(p3, ps.rest[1..], true)
      else Parsed(p3, Tail(ps.rest), false)
  }

  /** Parameters after reading. */
  function CanonicalAll(ps: seq<Option<Param>>): (r: seq<Option<Param>>)
    ensures |r| == |ps|
    ensures forall k :: 0 <= k < |ps| ==> r[k] == (if ps[k].Some? then Some(Canonical(ps[k].value)) else None)
  {
    if |ps| == 0 then [] else [if ps[0].Some? then Some(Canonical(ps[0].value)) else None] + CanonicalAll(ps[1..])
  }

  /** Every slot holds a named parameter the reader can take back. */
  predicate AllTransmissible(ps: seq<Option<Param>>) {
    forall k :: 0 <= k < |ps| ==> ps[k].Some? && Transmissible(ps[k].value, true)
  }

  /** One parameter read, then the others. */
  lemma ParamListStep(toks: seq<Token>, n: nat, q: Option<Param>, after: seq<Token>,
                      more: seq<Option<Param>>, rest: seq<Token>)
    requires n > 0
    requires ParseParam(toks, true) == Parsed(q, after, true)
    requires ParseParamList(after, n - 1) == Parsed(more, rest, true)
    ensures ParseParamList(toks, n) == Parsed([q] + more, rest, true)
  {
  }

  lemma {:induction false} ParamListRoundTrip(ps: seq<Option<Param>>, rest: seq<Token>)
    requires AllTransmissible(ps)
    ensures ParseParamList(EncodeParams(ps) + rest, |ps|) == Parsed(CanonicalAll(ps), rest, true)
  {
    if |ps| > 0 {
      var tail := EncodeParams(ps[1..]) + rest;
      var q := Some(Canonical(ps[0].value));
      ParamsCons(ps, rest);
      ParamRoundTrip(ps[0].value, true, tail);
      ParamListRoundTrip(ps[1..], rest);
      ParamListStep(EncodeParams(ps) + rest, |ps|, q, tail, CanonicalAll(ps[1..]), rest);
    }
  }

  /** The first written parameter, then the rest, each of them one the reader takes back. */
  lemma ParamsCons(ps: seq<Option<Param>>, rest: seq<Token>)
    requires |ps| > 0 && AllTransmissible(ps)
    ensures ps[0].Some? && Transmissible(ps[0].value, true) && AllTransmissible(ps[1..])
    ensures EncodeParams(ps) + rest == EncodeParam(ps[0].value) + (EncodeParams(ps[1..]) + rest)
    ensures CanonicalAll(ps) == [Some(Canonical(ps[0].value))] + CanonicalAll(ps[1..])
  {
    TransmissibleCons(ps);
    EncodeParamsCons(ps, rest);
    CanonicalAllCons(ps);
  }

  lemma TransmissibleCons(ps: seq<Option<Param>>)
    requires |ps| > 0 && AllTransmissible(ps)
    ensures ps[0].Some? && Transmissible(ps[0].value, true) && AllTransmissible(ps[1..])
  {
    assert forall k :: 0 <= k < |ps| - 1 ==> ps[1..][k] == ps[k + 1];
  }

  lemma EncodeParamsCons(ps: seq<Option<Param>>, rest: seq<Token>)
    requires |ps| > 0 && ps[0].Some?
    ensures EncodeParams(ps) + rest == EncodeParam(ps[0].value) + (EncodeParams(ps[1..]) + rest)
  {
    var a, b := EncodeParam(ps[0].value), EncodeParams(ps[1..]);
    assert EncodeParams(ps) == a + b;
    Regroup3(a, b, rest);
  }

  lemma CanonicalAllCons(ps: seq<Option<Param>>)
    requires |ps| > 0 && ps[0].Some?
    ensures CanonicalAll(ps) == [Some(Canonical(ps[0].value))] + CanonicalAll(ps[1..])
  {
  }

  lemma ProcParamsStep(q: ProcDesc, n: nat, tail: seq<Token>, ps: seq<Option<Param>>, rest: seq<Token>)
    requires n < 0x1_0000_0000
    requires ParseParamList(tail, n) == Parsed(ps, [TRParen] + rest, true)
    ensures ParseProcParams(q, [TInt(n)] + tail) == Parsed(q.(params := ps), rest, true)
  {
    assert ([TInt(n)] + tail)[1..] == tail;
  }

  lemma ProcParamsRoundTrip(p: ProcDesc, q: ProcDesc, rest: seq<Token>)
    requires AllTransmissible(p.params)
    requires |p.params| < 0x1_0000_0000
    ensures ParseProcParams(q, [TInt(|p.params|)] + EncodeParams(p.params) + [TRParen] + rest)
         == Parsed(q.(params := CanonicalAll(p.params)), rest, true)
  {
    var tail := EncodeParams(p.params) + ([TRParen] + rest);
    assert [TInt(|p.params|)] + EncodeParams(p.params) + [TRParen] + rest == [TInt(|p.params|)] + tail;
    ParamListRoundTrip(p.params, [TRParen] + rest);
    ProcParamsStep(q, |p.params|, tail, CanonicalAll(p.params), rest);
  }

  lemma ProcStep(name: string, tail: seq<Token>, ret: Option<Param>, after: seq<Token>)
    requires ParseParam(tail, false) == Parsed(ret, after, true)
    ensures ParseProc([TLParen, TStr(name)] + tail) == ParseProcParams(ProcDesc(Some(name), ret, []), after)
  {
    var toks := [TLParen, TStr(name)] + tail;
    assert toks[1..][0] == TStr(name);
    assert toks[2..] == tail;
  }

  /** What follows the return parameter in a written procedure. */
  function ProcTail(p: ProcDesc, rest: seq<Token>): seq<Token> {
    [TInt(|p.params|)] + EncodeParams(p.params) + [TRParen] + rest
  }

  lemma ProcShape(p: ProcDesc, rest: seq<Token>)
    requires p.procName.Some? && p.retParam.Some?
    ensures EncodeProc(p) + rest == [TLParen, TStr(p.procName.value)] + (EncodeParam(p.retParam.value) + ProcTail(p, rest))
  {
    var h := [TLParen, TStr(p.procName.value)];
    assert EncodeProc(p) == h + EncodeParam(p.retParam.value) + [TInt(|p.params|)] + EncodeParams(p.params) + [TRParen];
    Regroup(h, EncodeParam(p.retParam.value), [TInt(|p.params|)], EncodeParams(p.params), [TRParen], rest);
  }

  lemma ProcHead(name: string, ret: Param, tail: seq<Token>)
    requires Transmissible(ret, false)
    ensures ParseProc([TLParen, TStr(name)] + (EncodeParam(ret) + tail))
         == ParseProcParams(ProcDesc(Some(name), Some(Canonical(ret)), []), tail)
  {
    ParamRoundTrip(ret, false, tail);
    ProcStep(name, EncodeParam(ret) + tail, Some(Canonical(ret)), tail);
  }

  /** A named procedure whose parameters the reader can take back is read back with them canonical. */
  lemma ProcRoundTrip(p: ProcDesc, rest: seq<Token>)
    requires p.procName.Some? && p.retParam.Some? && Transmissible(p.retParam.value, false)
    requires AllTransmissible(p.params)
    requires |p.params| < 0x1_0000_0000
    ensures ParseProc(EncodeProc(p) + rest)
         == Parsed(ProcDesc(p.procName, Some(Canonical(p.retParam.value)), CanonicalAll(p.params)), rest, true)
  {
    ProcShape(p, rest);
    ProcHead(p.procName.value, p.retParam.value, ProcTail(p, rest));
    ProcParamsRoundTrip(p, ProcDesc(p.procName, Some(Canonical(p.retParam.value)), []), rest);
  }
}

=== FILE: glue_parse.dfy ===
/**
 * The readers of gslgluecodec.c over the scanner's tokens, and the round
 * trips that connect them to the writers of GlueValue.
 *
 * Every reader starts with the scanner in good state.  A failed
 * parse_or_return consumes the offending token and puts the scanner into
 * its failed state; `ok` is false from then on and the caller gives up.
 * scanner_error only reports a message and leaves `ok` alone.
 */
module GlueParse {
  import opened Wrappers
  import opened CString
  import opened GlueValue

  /** A reader's result: what it read, the tokens it left, and whether the scanner is still in good state. */
  datatype Parsed<T> = Parsed(value: T, rest: seq<Token>, ok: bool)

  /** g_scanner_peek_next_token. */
  function Peek(toks: seq<Token>): Token {
    if |toks| == 0 then TEof else toks[0]
  }

  /** The tokens after the next one (the scanner stays at the end once it got there). */
  function Tail(toks: seq<Token>): (r: seq<Token>)
    ensures |r| <= |toks| && (|toks| > 0 ==> |r| < |toks|)
  {
    if |toks| == 0 then [] else toks[1..]
  }

  /** Concatenation regrouped to the right, as the readers consume it. */
  lemma Regroup<T>(h: seq<T>, a: seq<T>, b: seq<T>, c: seq<T>, d: seq<T>, e: seq<T>)
    ensures h + a + b + c + d + e == h + (a + (b + (c + (d + e))))
    ensures h + a + b + c + d + e == h + (a + (b + c + d + e))
  {
  }

  lemma Regroup3<T>(a: seq<T>, b: seq<T>, c: seq<T>)
    ensures a + b + c == a + (b + c)
  {
  }

  lemma Regroup5<T>(h: seq<T>, a: seq<T>, b: seq<T>, c: seq<T>, d: seq<T>)
    ensures h + a + b + c + d == h + (a + (b + (c + d)))
  {
  }

  // --- scalars ---

  /** parse_string: the identifier NULL, or a string. */
  function ParseString(toks: seq<Token>): (r: Parsed<Option<string>>)
    ensures r.ok <==> Peek(toks) == TNull || Peek(toks).TStr?
    ensures r.ok ==> r.rest == toks[1..] && r.value == (if toks[0] == TNull then None else Some(toks[0].s))
    ensures !r.ok ==> r.value == None && |r.rest| <= |toks|
  {
    if Peek(toks) == TNull then Parsed(None, toks[1..], true)
    else if Peek(toks).TStr? then Parsed(Some(toks[0].s), toks[1..], true)
    else Parsed(None, Tail(toks), false)
  }

  /**
   * scanner_check_negate followed by an integer that is stored in a gint:
   * the scanner's number is truncated to 32 bits and then negated in gint.
   */
  function ParseSignedInt(toks: seq<Token>): (r: Parsed<Int32>)
    ensures |r.rest| <= |toks| && (r.ok ==> |r.rest| < |toks|)
  {
    var neg := Peek(toks) == TMinus;
    var t := if neg then toks[1..] else toks;
    if !Peek(t).TInt? then Parsed(0, Tail(t), false)
    else
      var x := WrapI32(t[0].n);
      Parsed(if neg then WrapI32(-(x as int)) else x, t[1..], true)
  }

  /** scanner_check_negate followed by a float; int_2_float makes an integer literal count as a float. */
  function ParseSignedReal(toks: seq<Token>): (r: Parsed<real>)
    ensures |r.rest| <= |toks| && (r.ok ==> |r.rest| < |toks|)
  {
    var neg := Peek(toks) == TMinus;
    var t := if neg then toks[1..] else toks;
    if Peek(t).TFloat? then Parsed(if neg then -t[0].f else t[0].f, t[1..], true)
    else if Peek(t).TInt? then Parsed(if neg then -(t[0].n as real) else t[0].n as real, t[1..], true)
    else Parsed(0.0, Tail(t), false)
  }

  /** `count` signed integers in a row, as the four fields of an integer range. */
  function ParseSignedInts(toks: seq<Token>, count: nat): (r: Parsed<seq<Int32>>)
    ensures |r.rest| <= |toks|
    ensures r.ok ==> |r.value| == count
    decreases count
  {
    if count == 0 then Parsed([], toks, true)
    else
      var x := ParseSignedInt(toks);
      if !x.ok then Parsed([], x.rest, false)
      else
        var more := ParseSignedInts(x.rest, count - 1);
        Parsed([x.value] + more.value, more.rest, more.ok)
  }

  /** `count` signed floats in a row, as the four fields of a float range. */
  function ParseSignedReals(toks: seq<Token>, count: nat): (r: Parsed<seq<real>>)
    ensures |r.rest| <= |toks|
    ensures r.ok ==> |r.value| == count
    decreases count
  {
    if count == 0 then Parsed([], toks, true)
    else
      var x := ParseSignedReal(toks);
      if !x.ok then Parsed([], x.rest, false)
      else
        var more := ParseSignedReals(x.rest, count - 1);
        Parsed([x.value] + more.value, more.rest, more.ok)
  }

  lemma SignedIntRoundTrip(i: Int32, rest: seq<Token>)
    ensures ParseSignedInt(EncodeInt(i) + rest) == Parsed(i, rest, true)
  {
    var toks := EncodeInt(i) + rest;
    if i < 0 {
      assert toks[1..] == [TInt(-(i as int))] + rest;
      assert toks[2..] == rest;
    } else {
      assert toks[1..] == rest;
    }
  }

  lemma SignedRealRoundTrip(f: real, rest: seq<Token>)
    ensures ParseSignedReal(EncodeReal(f) + rest) == Parsed(f, rest, true)
  {
    var toks := EncodeReal(f) + rest;
    if f < 0.0 {
      assert toks[1..] == [TFloat(-f)] + rest;
      assert toks[2..] == rest;
    } else {
      assert toks[1..] == rest;
    }
  }

  lemma {:induction false} SignedIntsRoundTrip(xs: seq<Int32>, rest: seq<Token>)
    ensures ParseSignedInts(EncodeInts(xs) + rest, |xs|) == Parsed(xs, rest, true)
  {
    if |xs| > 0 {
      var tail := EncodeInts(xs[1..]) + rest;
      assert EncodeInts(xs) + rest == EncodeInt(xs[0]) + tail;
      SignedIntRoundTrip(xs[0], tail);
      SignedIntsRoundTrip(xs[1..], rest);
      assert [xs[0]] + xs[1..] == xs;
    }
  }

  lemma {:induction false} SignedRealsRoundTrip(xs: seq<real>, rest: seq<Token>)
    ensures ParseSignedReals(EncodeReals(xs) + rest, |xs|) == Parsed(xs, rest, true)
  {
    if |xs| > 0 {
      var tail := EncodeReals(xs[1..]) + rest;
      assert EncodeReals(xs) + rest == EncodeReal(xs[0]) + tail;
      SignedRealRoundTrip(xs[0], tail);
      SignedRealsRoundTrip(xs[1..], rest);
      assert [xs[0]] + xs[1..] == xs;
    }
  }

  // --- records ---

  /** The value stored under a field name. */
  function Lookup(fs: seq<Field>, name: string): (r: Option<Value>)
    ensures r.Some? <==> exists k :: 0 <= k < |fs| && fs[k].name == name
  {
    if |fs| == 0 then None
    else if fs[0].name == name then Some(fs[0].value)
    else
      var r := Lookup(fs[1..], name);
      assert r.Some? ==> exists k :: 0 <= k < |fs| && fs[k].name == name by {
        if r.Some? {
          var k :| 0 <= k < |fs| - 1 && fs[1..][k].name == name;
          assert fs[k + 1].name == name;
        }
      }
      r
  }

  /**
   * gsl_glue_rec_set: a field of the same name gets the new value in place,
   * otherwise the field is appended.
   */
  function RecSet(fs: seq<Field>, name: string, v: Value): (r: seq<Field>)
    ensures |r| == |fs| || |r| == |fs| + 1
  {
    if |fs| == 0 then [Field(name, v)]
    else if fs[0].name == name then [Field(name, v)] + fs[1..]
    else [fs[0]] + RecSet(fs[1..], name, v)
  }

  /** After storing, the name holds the new value and every other name what it held before. */
  lemma {:induction false} RecSetLookup(fs: seq<Field>, name: string, v: Value)
    ensures Lookup(RecSet(fs, name, v), name) == Some(v)
    ensures forall m :: m != name ==> Lookup(RecSet(fs, name, v), m) == Lookup(fs, m)
  {
    if |fs| > 0 {
      var r := RecSet(fs, name, v);
      if fs[0].name == name {
        assert r[1..] == fs[1..];
      } else {
        RecSetLookup(fs[1..], name, v);
        assert r[1..] == RecSet(fs[1..], name, v);
      }
    }
  }

  /** A name not yet in the record is appended at the end. */
  lemma {:induction false} RecSetFresh(fs: seq<Field>, name: string, v: Value)
    requires forall k :: 0 <= k < |fs| ==> fs[k].name != name
    ensures RecSet(fs, name, v) == fs + [Field(name, v)]
  {
    if |fs| > 0 {
      assert forall k :: 0 <= k < |fs| - 1 ==> fs[1..][k] == fs[k + 1];
      RecSetFresh(fs[1..], name, v);
      assert fs + [Field(name, v)] == [fs[0]] + (fs[1..] + [Field(name, v)]);
    }
  }

  /** A record with unique names: its first name is not among the rest, and the rest is unique too. */
  lemma UniqueTail(fs: seq<Field>)
    requires |fs| > 0 && UniqueNames(fs)
    ensures UniqueNames(fs[1..]) && Lookup(fs[1..], fs[0].name) == None
  {
    assert forall k :: 0 <= k < |fs| - 1 ==> fs[1..][k] == fs[k + 1];
  }

  /** A field whose name the rest does not hold extends a record with unique names. */
  lemma UniqueCons(f: Field, tail: seq<Field>)
    requires UniqueNames(tail) && Lookup(tail, f.name) == None
    ensures UniqueNames([f] + tail)
  {
    var r := [f] + tail;
    assert forall j :: 0 < j < |r| ==> r[j] == tail[j - 1];
  }

  /** Storing keeps the field names of a record unique. */
  lemma {:induction false} RecSetUnique(fs: seq<Field>, name: string, v: Value)
    requires UniqueNames(fs)
    ensures UniqueNames(RecSet(fs, name, v))
  {
    if |fs| > 0 {
      if fs[0].name == name {
        var r := RecSet(fs, name, v);
        assert forall k :: 0 <= k < |fs| ==> r[k].name == fs[k].name;
      } else {
        UniqueTail(fs);
        RecSetUnique(fs[1..], name, v);
        RecSetLookup(fs[1..], name, v);
        UniqueCons(fs[0], RecSet(fs[1..], name, v));
      }
    }
  }

  // --- values ---

  /** The closing parenthesis of a value; bad_parse (VNone) otherwise. */
  function CloseValue(v: Value, toks: seq<Token>): (r: Parsed<Value>)
    ensures |r.rest| <= |toks| && (r.ok ==> |r.rest| < |toks|)
    ensures !r.ok ==> r.value == VNone
  {
    if Peek(toks) == TRParen then Parsed(v, toks[1..], true) else Parsed(VNone, Tail(toks), false)
  }

  /** The payload of a value of one of the types that have no nested values. */
  function ParseScalar(id: nat, toks: seq<Token>): (r: Parsed<Value>)
    requires id <= TYPE_PROXY
    ensures |r.rest| <= |toks|
    ensures !r.ok ==> r.value == VNone
  {
    if id == TYPE_NONE then Parsed(VNone, toks, true)
    else if id == TYPE_BOOL then
      if Peek(toks).TInt? then Parsed(VBool(toks[0].n != 0), toks[1..], true) else Parsed(VNone, Tail(toks), false)
    else if id == TYPE_IRANGE then
      var x := ParseSignedInt(toks);
      Parsed(if x.ok then VInt(x.value) else VNone, x.rest, x.ok)
    else if id == TYPE_FRANGE then
      var x := ParseSignedReal(toks);
      Parsed(if x.ok then VFloat(x.value) else VNone, x.rest, x.ok)
    else if id == TYPE_STRING then
      var s := ParseString(toks);
      Parsed(if s.ok then VString(s.value) else VNone, s.rest, s.ok)
    else if id == TYPE_ENUM then
      var s := ParseString(toks);
      if !s.ok then Parsed(VNone, s.rest, false)
      else if Peek(s.rest).TInt? then Parsed(VEnum(s.value, WrapU32(s.rest[0].n)), s.rest[1..], true)
      else Parsed(VNone, Tail(s.rest), false)
    else
      if Peek(toks).TInt? then Parsed(VProxy(WrapU64(toks[0].n)), toks[1..], true) else Parsed(VNone, Tail(toks), false)
  }

  /**
   * parse_value.  A type id the codec does not know is reported, yields
   * VNone and leaves the scanner in good state right after the id.  Every
   * failure hands back VNone, from however deep inside it comes.
   */
  function ParseValue(toks: seq<Token>): (r: Parsed<Value>)
    ensures |r.rest| <= |toks| && (r.ok ==> |r.rest| + 2 <= |toks|)
    ensures !r.ok ==> r.value == VNone
    decreases |toks|, 0
  {
    if Peek(toks) != TLParen then Parsed(VNone, Tail(toks), false)
    else if !Peek(toks[1..]).TInt? then Parsed(VNone, Tail(toks[1..]), false)
    else
      var id := WrapU32(toks[1].n);
      var t := toks[2..];
      if id > TYPE_LAST then Parsed(VNone, t, true)
      else
        var p := ParsePayload(id, t);
        if !p.ok then p else CloseValue(p.value, p.rest)
  }

  /** What follows the type id of a value, up to its closing parenthesis. */
  function ParsePayload(id: nat, toks: seq<Token>): (r: Parsed<Value>)
    requires id <= TYPE_LAST
    ensures |r.rest| <= |toks|
    ensures !r.ok ==> r.value == VNone
    decreases |toks|, 2
  {
    if id == TYPE_SEQ then
      var e := ParseElems(toks);
      if !e.ok then Parsed(VNone, e.rest, false) else Parsed(VSeq(e.value), e.rest, true)
    else if id == TYPE_REC then
      var f := ParseFields(toks, []);
      if !f.ok then Parsed(VNone, f.rest, false) else Parsed(VRec(f.value), f.rest, true)
    else ParseScalar(id, toks)
  }

  /** The elements of a sequence value: values up to the closing parenthesis, which is left in place. */
  function ParseElems(toks: seq<Token>): (r: Parsed<seq<Value>>)
    ensures |r.rest| <= |toks|
    ensures r.ok ==> Peek(r.rest) == TRParen
    decreases |toks|, 1
  {
    if Peek(toks) == TRParen then Parsed([], toks, true)
    else
      var v := ParseValue(toks);
      if !v.ok then Parsed([], v.rest, false)
      else
        var more := ParseElems(v.rest);
        Parsed([v.value] + more.value, more.rest, more.ok)
  }

  /** The fields of a record value, each stored with RecSet into what was read so far. */
  function ParseFields(toks: seq<Token>, acc: seq<Field>): (r: Parsed<seq<Field>>)
    ensures |r.rest| <= |toks|
    ensures r.ok ==> Peek(r.rest) == TRParen
    decreases |toks|, 1
  {
    if Peek(toks) == TRParen then Parsed(acc, toks, true)
    else if !Peek(toks).TStr? then Parsed([], Tail(toks), false)
    else
      var v := ParseValue(toks[1..]);
      if !v.ok then Parsed([], v.rest, false)
      else ParseFields(v.rest, RecSet(acc, toks[0].s, v.value))
  }

  /** A type id beyond the last glue type is reported and read as VNone; the scanner stays in good state. */
  lemma UnknownValueType(n: nat, rest: seq<Token>)
    requires WrapU32(n) > TYPE_LAST
    ensures ParseValue([TLParen, TInt(n)] + rest) == Parsed(VNone, rest, true)
  {
    assert ([TLParen, TInt(n)] + rest)[2..] == rest;
  }

  /** A value whose payload reader stops at the closing parenthesis is read whole. */
  lemma ValueStep(v: Value, rest: seq<Token>)
    requires ParsePayload(TypeId(v), EncodePayload(v) + ([TRParen] + rest)) == Parsed(v, [TRParen] + rest, true)
    ensures ParseValue(EncodeValue(v) + rest) == Parsed(v, rest, true)
  {
    var p := EncodePayload(v);
    assert EncodeValue(v) == [TLParen, TInt(TypeId(v))] + p + [TRParen];
    DropTwo(TLParen, TInt(TypeId(v)), p, TRParen, rest);
  }

  lemma DropTwoOfThree<T>(a: T, b: T, c: T, p: seq<T>, d: T, rest: seq<T>)
    ensures ([a, b, c] + p + [d] + rest)[2..] == [c] + (p + ([d] + rest))
  {
    assert [a, b, c] + p + [d] + rest == [a, b] + ([c] + (p + ([d] + rest)));
  }

  lemma DropTwo<T>(a: T, b: T, p: seq<T>, c: T, rest: seq<T>)
    ensures ([a, b] + p + [c] + rest)[2..] == p + ([c] + rest)
    ensures ([a, b] + p + [c] + rest)[..2] == [a, b]
  {
  }

  /** The payload of every value of a type without nested values is read back. */
  lemma ScalarRoundTrip(v: Value, rest: seq<Token>)
    requires TypeId(v) <= TYPE_PROXY
    ensures ParseScalar(TypeId(v), EncodePayload(v) + rest) == Parsed(v, rest, true)
  {
    match v {
      case VNone =>
      case VBool(b) => assert EncodePayload(v) + rest == [TInt(if b then 1 else 0)] + rest;
      case VInt(i) => SignedIntRoundTrip(i, rest);
      case VFloat(f) => SignedRealRoundTrip(f, rest);
      case VString(str) => assert EncodePayload(v) + rest == [EscStr(str)] + rest;
      case VEnum(name, index) => EnumPayload(name, index, rest);
      case VProxy(p) => assert EncodePayload(v) + rest == [TInt(p)] + rest;
    }
  }

  lemma EnumPayload(name: Option<string>, index: nat, rest: seq<Token>)
    requires index < 0x1_0000_0000
    ensures ParseScalar(TYPE_ENUM, [EscStr(name), TInt(index)] + rest) == Parsed(VEnum(name, index), rest, true)
  {
    assert ([EscStr(name), TInt(index)] + rest)[1..] == [TInt(index)] + rest;
  }

  /** Every value the writer prints is read back as itself, and the reader stops right after it. */
  lemma {:induction false} ValueRoundTrip(v: Value, rest: seq<Token>)
    requires WellFormed(v)
    ensures ParseValue(EncodeValue(v) + rest) == Parsed(v, rest, true)
    decreases v
  {
    match v {
      case VSeq(es) => ElemsRoundTrip(es, [TRParen] + rest);
      case VRec(fs) =>
        assert [] + fs == fs;
        FieldsRoundTrip(fs, [], [TRParen] + rest);
      case _ => ScalarRoundTrip(v, [TRParen] + rest);
    }
    ValueStep(v, rest);
  }

  /** A value printed on its own reads back as itself and uses up the input. */
  lemma ValueReadsBack(v: Value)
    requires WellFormed(v)
    ensures ParseValue(EncodeValue(v)) == Parsed(v, [], true)
  {
    assert EncodeValue(v) + [] == EncodeValue(v);
    ValueRoundTrip(v, []);
  }

  // --- the scanner's int_2_float switch ---

  /**
   * Does parse_value leave the scanner's int_2_float switch on?  A float
   * payload switches it on and puts it back only after the float was read,
   * so a float read that fails leaves it on, however deep inside a sequence
   * or record the value sits.
   */
  function ValueLeavesFloat(toks: seq<Token>): bool
    decreases |toks|, 0
  {
    if Peek(toks) != TLParen || !Peek(toks[1..]).TInt? then false
    else
      var id := WrapU32(toks[1].n);
      id <= TYPE_LAST && PayloadLeavesFloat(id, toks[2..])
  }

  function PayloadLeavesFloat(id: nat, toks: seq<Token>): bool
    requires id <= TYPE_LAST
    decreases |toks|, 2
  {
    if id == TYPE_SEQ then ElemsLeaveFloat(toks)
    else if id == TYPE_REC then FieldsLeaveFloat(toks)
    else id == TYPE_FRANGE && !ParseSignedReal(toks).ok
  }

  function ElemsLeaveFloat(toks: seq<Token>): bool
    decreases |toks|, 1
  {
    if Peek(toks) == TRParen then false
    else
      var v := ParseValue(toks);
      if v.ok then ElemsLeaveFloat(v.rest) else ValueLeavesFloat(toks)
  }

  function FieldsLeaveFloat(toks: seq<Token>): bool
    decreases |toks|, 1
  {
    if Peek(toks) == TRParen || !Peek(toks).TStr? then false
    else
      var v := ParseValue(toks[1..]);
      if v.ok then FieldsLeaveFloat(v.rest) else ValueLeavesFloat(toks[1..])
  }

  /** The switch is left on only by a reading that fails. */
  lemma {:induction false} FloatLeftOnlyOnFailure(toks: seq<Token>)
    ensures ValueLeavesFloat(toks) ==> !ParseValue(toks).ok
    decreases |toks|, 0
  {
    if Peek(toks) == TLParen && Peek(toks[1..]).TInt? {
      var id := WrapU32(toks[1].n);
      if id <= TYPE_LAST {
        PayloadFloatFails(id, toks[2..]);
      }
    }
  }

  lemma {:induction false} PayloadFloatFails(id: nat, toks: seq<Token>)
    requires id <= TYPE_LAST
    ensures PayloadLeavesFloat(id, toks) ==> !ParsePayload(id, toks).ok
    decreases |toks|, 2
  {
    if id == TYPE_SEQ {
      ElemsFloatFails(toks);
    } else if id == TYPE_REC {
      FieldsFloatFails(toks, []);
    }
  }

  lemma {:induction false} ElemsFloatFails(toks: seq<Token>)
    ensures ElemsLeaveFloat(toks) ==> !ParseElems(toks).ok
    decreases |toks|, 1
  {
    if Peek(toks) != TRParen {
      var v := ParseValue(toks);
      if v.ok {
        ElemsFloatFails(v.rest);
      }
    }
  }

  lemma {:induction false} FieldsFloatFails(toks: seq<Token>, acc: seq<Field>)
    ensures FieldsLeaveFloat(toks) ==> !ParseFields(toks, acc).ok
    decreases |toks|, 1
  {
    if Peek(toks) != TRParen && Peek(toks).TStr? {
      var v := ParseValue(toks[1..]);
      if v.ok {
        FieldsFloatFails(v.rest, RecSet(acc, toks[0].s, v.value));
      }
    }
  }

  /** Reading back a written value never leaves the switch on. */
  lemma WrittenValueKeepsMode(v: Value, rest: seq<Token>)
    requires WellFormed(v)
    ensures !ValueLeavesFloat(EncodeValue(v) + rest)
  {
    ValueRoundTrip(v, rest);
    FloatLeftOnlyOnFailure(EncodeValue(v) + rest);
  }

  /** A float value that holds a string instead of a number leaves the switch on. */
  lemma BadFloatLeavesMode(s: string, rest: seq<Token>)
    ensures ValueLeavesFloat([TLParen, TInt(TYPE_FRANGE), TStr(s)] + rest)
    ensures !ParseValue([TLParen, TInt(TYPE_FRANGE), TStr(s)] + rest).ok
  {
    var toks := [TLParen, TInt(TYPE_FRANGE), TStr(s)] + rest;
    assert toks[1..][0] == TInt(TYPE_FRANGE) && toks[2..] == [TStr(s)] + rest;
    FloatLeftOnlyOnFailure(toks);
  }

  lemma {:induction false} ElemsRoundTrip(es: seq<Value>, rest: seq<Token>)
    requires forall k :: 0 <= k < |es| ==> WellFormed(es[k])
    requires Peek(rest) == TRParen
    ensures ParseElems(EncodeElems(es) + rest) == Parsed(es, rest, true)
    decreases es
  {
    if |es| > 0 {
      var tail := EncodeElems(es[1..]) + rest;
      ElemsCons(es, rest);
      ValueRoundTrip(es[0], tail);
      ElemsRoundTrip(es[1..], rest);
      ElemsStep(EncodeElems(es) + rest, es[0], tail, es[1..], rest);
    }
  }

  /** The first written element, then the others. */
  lemma ElemsCons(es: seq<Value>, rest: seq<Token>)
    requires |es| > 0
    requires forall k :: 0 <= k < |es| ==> WellFormed(es[k])
    ensures WellFormed(es[0]) && forall k :: 0 <= k < |es[1..]| ==> WellFormed(es[1..][k])
    ensures EncodeElems(es) + rest == EncodeValue(es[0]) + (EncodeElems(es[1..]) + rest)
    ensures es == [es[0]] + es[1..]
  {
    WellFormedTail(es);
    assert EncodeElems(es) + rest == EncodeValue(es[0]) + (EncodeElems(es[1..]) + rest) by {
      var a, b := EncodeValue(es[0]), EncodeElems(es[1..]);
      assert EncodeElems(es) == a + b;
      Regroup3(a, b, rest);
    }
  }

  lemma WellFormedTail(es: seq<Value>)
    requires |es| > 0
    requires forall k :: 0 <= k < |es| ==> WellFormed(es[k])
    ensures WellFormed(es[0]) && forall k :: 0 <= k < |es[1..]| ==> WellFormed(es[1..][k])
  {
    assert forall k :: 0 <= k < |es[1..]| ==> es[1..][k] == es[k + 1];
  }

  /** One element read, then the others. */
  lemma ElemsStep(toks: seq<Token>, v: Value, tail: seq<Token>, more: seq<Value>, rest: seq<Token>)
    requires ParseValue(toks) == Parsed(v, tail, true) && Peek(toks) == TLParen
    requires ParseElems(tail) == Parsed(more, rest, true)
    ensures ParseElems(toks) == Parsed([v] + more, rest, true)
  {
  }

  /** One field of a record: its name, then its value, then the fields after it. */
  lemma FieldStep(acc: seq<Field>, f: Field, tail: seq<Token>)
    requires WellFormed(f.value)
    ensures ParseFields([TStr(f.name)] + EncodeValue(f.value) + tail, acc)
         == ParseFields(tail, RecSet(acc, f.name, f.value))
    decreases f
  {
    var toks := [TStr(f.name)] + EncodeValue(f.value) + tail;
    assert toks[1..] == EncodeValue(f.value) + tail;
    ValueRoundTrip(f.value, tail);
  }

  /** Reading the first field of a record with unique names appends it to what was read before. */
  lemma FreshField(acc: seq<Field>, fs: seq<Field>)
    requires |fs| > 0 && UniqueNames(acc + fs)
    ensures RecSet(acc, fs[0].name, fs[0].value) == acc + [fs[0]]
    ensures (acc + [fs[0]]) + fs[1..] == acc + fs
  {
    assert forall k :: 0 <= k < |acc| ==> (acc + fs)[k] == acc[k];
    assert (acc + fs)[|acc|] == fs[0];
    RecSetFresh(acc, fs[0].name, fs[0].value);
    assert (acc + [fs[0]]) + fs[1..] == acc + fs;
  }

  lemma {:induction false} FieldsRoundTrip(fs: seq<Field>, acc: seq<Field>, rest: seq<Token>)
    requires UniqueNames(acc + fs)
    requires forall k :: 0 <= k < |fs| ==> WellFormed(fs[k].value)
    requires Peek(rest) == TRParen
    ensures ParseFields(EncodeFields(fs) + rest, acc) == Parsed(acc + fs, rest, true)
    decreases fs
  {
    if |fs| == 0 {
      assert acc + fs == acc;
    } else {
      var tail := EncodeFields(fs[1..]) + rest;
      FieldsCons(fs, rest);
      assert forall k :: 0 <= k < |fs[1..]| ==> WellFormed(fs[1..][k].value) by {
        assert forall k :: 0 <= k < |fs| - 1 ==> fs[1..][k] == fs[k + 1];
      }
      assert WellFormed(fs[0].value);
      FieldStep(acc, fs[0], tail);
      FreshField(acc, fs);
      FieldsRoundTrip(fs[1..], acc + [fs[0]], rest);
    }
  }

  /** The first written field, then the others. */
  lemma FieldsCons(fs: seq<Field>, rest: seq<Token>)
    requires |fs| > 0
    ensures EncodeFields(fs) + rest == [TStr(fs[0].name)] + EncodeValue(fs[0].value) + (EncodeFields(fs[1..]) + rest)
  {
    var a, b := [TStr(fs[0].name)] + EncodeValue(fs[0].value), EncodeFields(fs[1..]);
    assert EncodeFields(fs) == a + b;
    Regroup3(a, b, rest);
  }
}

=== FILE: glue_value.dfy ===
/**
 * The glue value model of gslgluecodec.c and its writers.
 *
 * The codec talks through GLib's GScanner, whose tokenizer is not part of
 * this model.  Messages are therefore modelled as the token sequences the
 * scanner delivers: the writers below produce the tokens that the text
 * they print scans back into.  A string is carried by its token unescaped,
 * so g_strescape followed by the scanner's unescaping is the identity here.
 */
module GlueValue {
  import opened Wrappers
  import opened CString

  /** What the scanner hands to the parsers; TEof is what it reports once the input is used up. */
  datatype Token =
    | TInt(n: nat)        // G_TOKEN_INT (decimal, octal or hex literal)
    | TFloat(f: real)     // G_TOKEN_FLOAT
    | TStr(s: string)     // G_TOKEN_STRING, already unescaped
    | TNull               // G_TOKEN_IDENTIFIER_NULL, the identifier NULL
    | TLParen             // '('
    | TRParen             // ')'
    | TMinus              // '-'
    | TOther              // any other identifier or character
    | TEof                // G_TOKEN_EOF

  /** GslGlueType ids. */
  const TYPE_NONE: nat := 0
  const TYPE_BOOL: nat := 1
  const TYPE_IRANGE: nat := 2
  const TYPE_FRANGE: nat := 3
  const TYPE_STRING: nat := 4
  const TYPE_ENUM: nat := 5
  const TYPE_PROXY: nat := 6
  const TYPE_SEQ: nat := 7
  const TYPE_REC: nat := 8
  const TYPE_LAST: nat := TYPE_REC

  /** GslGlueValue; doubles are modelled as reals. */
  datatype Value =
    | VNone
    | VBool(b: bool)
    | VInt(i: Int32)
    | VFloat(f: real)
    | VString(s: Option<string>)
    | VEnum(enumName: Option<string>, index: UInt32)
    | VProxy(proxy: UInt64)
    | VSeq(elements: seq<Value>)
    | VRec(fields: seq<Field>)

  /** One named field of a record. */
  datatype Field = Field(name: string, value: Value)

  function TypeId(v: Value): (id: nat)
    ensures id <= TYPE_LAST
  {
    match v
    case VNone => TYPE_NONE
    case VBool(_) => TYPE_BOOL
    case VInt(_) => TYPE_IRANGE
    case VFloat(_) => TYPE_FRANGE
    case VString(_) => TYPE_STRING
    case VEnum(_, _) => TYPE_ENUM
    case VProxy(_) => TYPE_PROXY
    case VSeq(_) => TYPE_SEQ
    case VRec(_) => TYPE_REC
  }

  /** g_string_add_escstr: a quoted string, or the identifier NULL. */
  function EscStr(s: Option<string>): Token {
    match s
    case None => TNull
    case Some(x) => TStr(x)
  }

  /** printf("%d"): a negative number prints as '-' followed by its magnitude. */
  function EncodeInt(i: int): seq<Token> {
    if i < 0 then [TMinus, TInt(-i)] else [TInt(i)]
  }

  /** Several "%d " fields one after the other. */
  function EncodeInts(xs: seq<int>): seq<Token> {
    if |xs| == 0 then [] else EncodeInt(xs[0]) + EncodeInts(xs[1..])
  }

  /** printf("%.30g") with the precision of the printout left out. */
  function EncodeReal(f: real): seq<Token> {
    if f < 0.0 then [TMinus, TFloat(-f)] else [TFloat(f)]
  }

  /** Several "%.30g " fields one after the other. */
  function EncodeReals(xs: seq<real>): seq<Token> {
    if |xs| == 0 then [] else EncodeReal(xs[0]) + EncodeReals(xs[1..])
  }

  /** g_string_add_value: "(<type-id> <payload>)". */
  function EncodeValue(v: Value): (r: seq<Token>)
    ensures |r| >= 3 && r[0] == TLParen && r[1] == TInt(TypeId(v)) && r[|r| - 1] == TRParen
    decreases v, 1
  {
    [TLParen, TInt(TypeId(v))] + EncodePayload(v) + [TRParen]
  }

  function EncodePayload(v: Value): seq<Token>
    decreases v, 0
  {
    match v
    case VNone => []
    case VBool(b) => [TInt(if b then 1 else 0)]
    case VInt(i) => EncodeInt(i)
    case VFloat(f) => EncodeReal(f)
    case VString(s) => [EscStr(s)]
    case VEnum(name, index) => [EscStr(name), TInt(index)]
    case VProxy(p) => [TInt(p)]
    case VSeq(es) => EncodeElems(es)
    case VRec(fs) => EncodeFields(fs)
  }

  /** The elements of a sequence, one value after the other, without a count. */
  function EncodeElems(es: seq<Value>): (r: seq<Token>)
    ensures |es| > 0 ==> |r| > 0 && r[0] == TLParen
    decreases es
  {
    if |es| == 0 then [] else EncodeValue(es[0]) + EncodeElems(es[1..])
  }

  /** The fields of a record as (name, value) pairs. */
  function EncodeFields(fs: seq<Field>): (r: seq<Token>)
    ensures |fs| > 0 ==> |r| > 0 && r[0] == TStr(fs[0].name)
    decreases fs
  {
    if |fs| == 0 then [] else [TStr(fs[0].name)] + EncodeValue(fs[0].value) + EncodeFields(fs[1..])
  }

  /** No two fields of a record carry the same name. */
  predicate UniqueNames(fs: seq<Field>) {
    forall i, j :: 0 <= i < j < |fs| ==> fs[i].name != fs[j].name
  }

  /** Values the reader gives back unchanged: record field names are unique at every level. */
  predicate WellFormed(v: Value)
    decreases v
  {
    match v
    case VSeq(es) => forall k :: 0 <= k < |es| ==> WellFormed(es[k])
    case VRec(fs) => UniqueNames(fs) && forall k :: 0 <= k < |fs| ==> WellFormed(fs[k].value)
    case _ => true
  }

  // --- parameter descriptors ---

  /** The type-specific part of a GslGlueParam. */
  datatype ParamKind =
    | PNone
    | PBool(dflt: bool)
    | PIRange(idflt: Int32, imin: Int32, imax: Int32, istep: Int32)
    | PFRange(fdflt: real, fmin: real, fmax: real, fstep: real)
    | PString(sdflt: Option<string>)
    | PEnum(enumName: Option<string>, edflt: UInt32)
    | PProxy(ifaceName: Option<string>)
    | PSeq
    | PRec

  /** GslGlueParam: a name (NULL for a return value) and the type-specific part. */
  datatype Param = Param(name: Option<string>, kind: ParamKind)

  function KindId(k: ParamKind): (id: nat)
    ensures id <= TYPE_LAST
  {
    match k
    case PNone => TYPE_NONE
    case PBool(_) => TYPE_BOOL
    case PIRange(_, _, _, _) => TYPE_IRANGE
    case PFRange(_, _, _, _) => TYPE_FRANGE
    case PString(_) => TYPE_STRING
    case PEnum(_, _) => TYPE_ENUM
    case PProxy(_) => TYPE_PROXY
    case PSeq => TYPE_SEQ
    case PRec => TYPE_REC
  }

  /** g_string_add_param: "(<type-id> <name> <fields>)"; sequence and record fields are not written. */
  function EncodeParam(p: Param): (r: seq<Token>)
    ensures |r| >= 4 && r[0] == TLParen && r[1] == TInt(KindId(p.kind)) && r[2] == EscStr(p.name)
    ensures r[|r| - 1] == TRParen
  {
    [TLParen, TInt(KindId(p.kind)), EscStr(p.name)] + EncodeParamFields(p.kind) + [TRParen]
  }

  function EncodeParamFields(k: ParamKind): seq<Token> {
    match k
    case PNone => []
    case PBool(d) => [TInt(if d then 1 else 0)]
    case PIRange(d, lo, hi, st) => EncodeInts([d, lo, hi, st])
    case PFRange(d, lo, hi, st) => EncodeReals([d, lo, hi, st])
    case PString(d) => [EscStr(d)]
    case PEnum(name, d) => [EscStr(name), TInt(d)]
    case PProxy(iface) => [EscStr(iface)]
    case PSeq => []
    case PRec => []
  }

  /**
   * A parameter slot of a descriptor.  The source dereferences the pointer
   * unconditionally; a missing parameter is written as nothing here.
   */
  function EncodeParamOpt(p: Option<Param>): seq<Token> {
    match p
    case None => []
    case Some(q) => EncodeParam(q)
  }

  // --- string lists and descriptors ---

  /** g_string_add_string_array: "( <string>* )"; a NULL list prints as "()" too. */
  function EncodeStringArray(l: Option<seq<string>>): (r: seq<Token>)
    ensures |r| >= 2 && r[0] == TLParen && r[|r| - 1] == TRParen
  {
    [TLParen] + Quoted(l.GetOr([])) + [TRParen]
  }

  function Quoted(xs: seq<string>): (r: seq<Token>)
    ensures |r| == |xs| && forall k :: 0 <= k < |xs| ==> r[k] == TStr(xs[k])
  {
    if |xs| == 0 then [] else [TStr(xs[0])] + Quoted(xs[1..])
  }

  /** GslGlueEnum. */
  datatype EnumDesc = EnumDesc(enumName: Option<string>, values: Option<seq<string>>, blurbs: Option<seq<string>>)

  /** GslGlueIFace: ancestry (the type itself first), property names, signal names. */
  datatype IfaceDesc = IfaceDesc(typeName: Option<string>, ifaces: Option<seq<string>>,
                                 props: Option<seq<string>>, signals: Option<seq<string>>)

  /** GslGlueProp. */
  datatype PropDesc = PropDesc(param: Option<Param>, group: Option<string>, prettyName: Option<string>,
                               blurb: Option<string>, flags: UInt32)

  /** GslGlueProc. */
  datatype ProcDesc = ProcDesc(procName: Option<string>, retParam: Option<Param>, params: seq<Option<Param>>)

  /** A list written only when the pointer is set, as decode_describe_enum/iface do. */
  function EncodeListIfSet(l: Option<seq<string>>): seq<Token> {
    if l.Some? then EncodeStringArray(l) else []
  }

  /** The reply payload of decode_describe_enum. */
  function EncodeEnum(e: EnumDesc): seq<Token> {
    [TLParen] + (if e.enumName.Some? then [EscStr(e.enumName)] else [])
    + EncodeListIfSet(e.values) + EncodeListIfSet(e.blurbs) + [TRParen]
  }

  /** The reply payload of decode_describe_iface. */
  function EncodeIface(f: IfaceDesc): seq<Token> {
    [TLParen] + (if f.typeName.Some? then [EscStr(f.typeName)] else [])
    + EncodeListIfSet(f.ifaces) + EncodeListIfSet(f.props) + EncodeListIfSet(f.signals) + [TRParen]
  }

  /** The reply payload of decode_describe_prop. */
  function EncodeProp(p: PropDesc): seq<Token> {
    [TLParen] + EncodeParamOpt(p.param)
    + [EscStr(p.group), EscStr(p.prettyName), EscStr(p.blurb), TInt(p.flags), TRParen]
  }

  /** The reply payload of decode_describe_proc; a nameless procedure prints as "()". */
  function EncodeProc(p: ProcDesc): seq<Token> {
    if p.procName.None? then [TLParen, TRParen]
    else [TLParen, EscStr(p.procName)] + EncodeParamOpt(p.retParam) + [TInt(|p.params|)]
         + EncodeParams(p.params) + [TRParen]
  }

  function EncodeParams(ps: seq<Option<Param>>): seq<Token> {
    if |ps| == 0 then [] else EncodeParamOpt(ps[0]) + EncodeParams(ps[1..])
  }
}

=== FILE: magic_match.dfy ===
/**
 * Matching files against magic rules (bsemagic.c: magic_read_data,
 * magic_check_data, magic_match_file, bse_magic_new,
 * bse_magic_match_file, bse_magic_list_match_file).
 *
 * A file is its size and a read function from an offset and a count to the
 * bytes there; opening the file and looking up an extension's quark are
 * parameters.
 */
module MagicMatch {
  import opened Wrappers
  import opened CString
  import opened Seqs
  import opened MagicParse

  /** An open file: its size (guint) and what reading n bytes at an offset yields. */
  datatype File = File(size: UInt32, read: (UInt32, nat) -> Option<seq<Byte>>)

  /** bfile_read: n bytes at the offset, or a failure; a read that yields another count fails too. */
  function Read(f: File, offset: UInt32, n: nat): (r: Option<seq<Byte>>)
    ensures r.Some? ==> |r.value| == n
  {
    var got := f.read(offset, n);
    if got.Some? && |got.value| == n then got else None
  }

  /** What a rule reads: a 32-bit value or the bytes of a string. */
  datatype Data = Number(bits: UInt32) | Text(bytes: seq<Byte>)

  /** Four bytes as a 32-bit value, least significant first when `little`. */
  function Word(bs: seq<Byte>, little: bool): UInt32
    requires |bs| == 4
  {
    var b0: int, b1: int, b2: int, b3: int := bs[0], bs[1], bs[2], bs[3];
    if little then b0 + 0x100 * b1 + 0x1_0000 * b2 + 0x100_0000 * b3
    else b3 + 0x100 * b2 + 0x1_0000 * b1 + 0x100_0000 * b0
  }

  /** Two bytes as a 16-bit value. */
  function Half(bs: seq<Byte>, little: bool): UInt32
    requires |bs| == 2
  {
    var b0: int, b1: int := bs[0], bs[1];
    if little then b0 + 0x100 * b1 else b1 + 0x100 * b0
  }

  /** How many bytes the rule reads: the decoded length for strings, else the type's size. */
  function DataSize(m: Magic): nat {
    if m.test.StrTest? then m.test.size else m.typ.dataSize
  }

  /**
   * magic_read_data.  The file size comes first; a string reads its decoded
   * length, or up to MAX_MAGIC_STRING bytes left in the file when that
   * length is 0; numbers read 4, 2 or 1 bytes in host order.  A byte swap
   * (GUINT32_SWAP_LE_BE) is the same as reading the four bytes in reverse;
   * on a 16-bit value it leaves nothing in the low half, so it gives 0.
   * bfile_read takes a guint offset.
   */
  function ReadData(f: File, m: Magic, hostLittle: bool): (r: Option<Data>)
    ensures r.Some? && m.typ.readSize ==> r.value == Number(f.size)
    ensures r.Some? && !m.typ.readSize ==> r.value.Text? == m.typ.readString
  {
    var offset := WrapU32(m.offset);
    if m.typ.readSize then Some(Number(f.size))
    else if m.typ.readString then
      var size := DataSize(m);
      var l := if size < 1 || size > MAX_MAGIC_STRING then Min(MAX_MAGIC_STRING, WrapU64(f.size - m.offset))
               else size;
      match Read(f, offset, l)
      case None => None
      case Some(bs) => Some(Text(bs))
    else if DataSize(m) == 4 then
      match Read(f, offset, 4)
      case None => None
      case Some(bs) => Some(Number(Word(if m.typ.needSwap then Reverse(bs) else bs, hostLittle)))
    else if DataSize(m) == 2 then
      match Read(f, offset, 2)
      case None => None
      case Some(bs) => Some(Number(if m.typ.needSwap then 0 else Half(bs, hostLittle)))
    else
      match Read(f, offset, 1)
      case None => None
      case Some(bs) => Some(Number(bs[0]))
  }

  /** Reversing the bytes is reading them in the other byte order. */
  lemma WordSwap(bs: seq<Byte>, little: bool)
    requires |bs| == 4
    ensures Word(Reverse(bs), little) == Word(bs, !little)
  {
  }

  /**
   * A four-byte number is read in the keyword's own order: "lelong" and
   * "leshort" little-endian and "belong" and "beshort" big-endian on either
   * host, "long" and "short" in host order.
   */
  lemma ByteOrderRead(f: File, m: Magic, hostLittle: bool, i: nat, u: bool, bs: seq<Byte>)
    requires 1 <= i <= 6
    requires Some(m.typ) == ParseType(KEYWORDS[i].word + (if u then "u" else ""), hostLittle)
    requires m.test.NumTest?
    requires Read(f, WrapU32(m.offset), 4) == Some(bs)
    ensures ReadData(f, m, hostLittle)
            == Some(Number(Word(bs, match KEYWORDS[i].order
                                    case HostOrder => hostLittle
                                    case LittleEndian => true
                                    case BigEndian => false)))
  {
    var k := KEYWORDS[i];
    KeywordTypes(i, u, hostLittle);
    NumberKeyword(i);
    var little := match k.order
                  case HostOrder => hostLittle
                  case LittleEndian => true
                  case BigEndian => false;
    assert m.typ.needSwap <==> little != hostLittle;
    ReadWord(f, m, hostLittle, bs);
    if m.typ.needSwap {
      WordSwap(bs, hostLittle);
    }
  }

  lemma NumberKeyword(i: nat)
    requires 1 <= i <= 6
    ensures KEYWORDS[i].size == 4 && !KEYWORDS[i].readString && !KEYWORDS[i].readSize
  {
    assert KEYWORDS[1].size == 4 && KEYWORDS[2].size == 4 && KEYWORDS[3].size == 4;
  }

  lemma ReadWord(f: File, m: Magic, hostLittle: bool, bs: seq<Byte>)
    requires !m.typ.readSize && !m.typ.readString && m.typ.dataSize == 4 && m.test.NumTest?
    requires Read(f, WrapU32(m.offset), 4) == Some(bs)
    ensures ReadData(f, m, hostLittle) == Some(Number(Word(if m.typ.needSwap then Reverse(bs) else bs, hostLittle)))
  {
  }

  function Pow2(n: nat): (r: nat)
    ensures r >= 1
  {
    if n == 0 then 1 else 2 * Pow2(n - 1)
  }

  lemma {:induction false} Pow2Add(a: nat, b: nat)
    ensures Pow2(a + b) == Pow2(a) * Pow2(b)
  {
    if b > 0 {
      Pow2Add(a, b - 1);
    }
  }

  lemma Pow2Of32()
    ensures Pow2(32) == 0x1_0000_0000
  {
    assert Pow2(4) == 16;
    Pow2Add(4, 4);
    Pow2Add(8, 8);
    Pow2Add(16, 16);
  }

  /** The bitwise and of the low n bits of a and b, lowest bit last. */
  function AndBits(a: nat, b: nat, n: nat): (r: nat)
    ensures r < Pow2(n)
  {
    if n == 0 then 0
    else 2 * AndBits(a / 2, b / 2, n - 1) + (if a % 2 == 1 && b % 2 == 1 then 1 else 0)
  }

  /** The bitwise and of two 32-bit values. */
  function And(a: UInt32, b: UInt32): UInt32 {
    Pow2Of32();
    AndBits(a, b, 32)
  }

  /** A 32-bit pattern read as gint32. */
  function Signed(x: UInt32): Int32 {
    if x < 0x8000_0000 then x else x - 0x1_0000_0000
  }

  /** A gint32 value read as guint32. */
  function Unsigned(v: Int32): UInt32 {
    WrapU32(v)
  }

  /** byte i of a NUL-terminated buffer: NUL past the end. */
  function At(s: seq<Byte>, i: nat): Byte {
    if i < |s| then s[i] else 0
  }

  function Tail(s: seq<Byte>): seq<Byte> {
    if |s| > 0 then s[1..] else s
  }

  /** strncmp: the difference of the first differing bytes within l, stopping at a NUL. */
  function StrNCmp(a: seq<Byte>, b: seq<Byte>, l: nat): int
    decreases l
  {
    if l == 0 then 0
    else if At(a, 0) != At(b, 0) then At(a, 0) - At(b, 0)
    else if At(a, 0) == 0 then 0
    else StrNCmp(Tail(a), Tail(b), l - 1)
  }

  /** At most the first l elements. */
  function Prefix(s: seq<Byte>, l: nat): seq<Byte> {
    if l <= |s| then s[..l] else s
  }

  /** strncmp finds no difference exactly when the C strings agree on their first l bytes. */
  lemma {:induction false} StrNCmpEqual(a: seq<Byte>, b: seq<Byte>, l: nat)
    ensures StrNCmp(a, b, l) == 0 <==> Prefix(CStr(a), l) == Prefix(CStr(b), l)
    decreases l
  {
    if l == 0 {
      assert Prefix(CStr(a), l) == [] == Prefix(CStr(b), l);
    } else if At(a, 0) != 0 && At(a, 0) == At(b, 0) {
      StrNCmpEqual(Tail(a), Tail(b), l - 1);
      StrNCmpStep(a, b, l);
    } else if At(a, 0) != At(b, 0) {
      StrNCmpDiffer(a, b, l);
      StrNCmpDiffer(b, a, l);
    } else {
      StrNCmpBothEnd(a, b, l);
    }
  }

  /** Both strings end at once: no difference, and both C strings are empty. */
  lemma StrNCmpBothEnd(a: seq<Byte>, b: seq<Byte>, l: nat)
    requires At(a, 0) == 0 && At(b, 0) == 0
    ensures StrNCmp(a, b, l) == 0
    ensures Prefix(CStr(a), l) == [] == Prefix(CStr(b), l)
  {
    assert CStr(a) == [] && CStr(b) == [];
  }

  /** Equal non-NUL first bytes: both sides move on by one. */
  lemma StrNCmpStep(a: seq<Byte>, b: seq<Byte>, l: nat)
    requires l > 0 && At(a, 0) != 0 && At(a, 0) == At(b, 0)
    ensures StrNCmp(a, b, l) == StrNCmp(Tail(a), Tail(b), l - 1)
    ensures Prefix(CStr(a), l) == Prefix(CStr(b), l)
            <==> Prefix(CStr(Tail(a)), l - 1) == Prefix(CStr(Tail(b)), l - 1)
  {
    CStrCons(a);
    CStrCons(b);
    PrefixCons(a[0], CStr(a[1..]), l);
    PrefixCons(b[0], CStr(b[1..]), l);
    var p, q := Prefix(CStr(a[1..]), l - 1), Prefix(CStr(b[1..]), l - 1);
    assert ([a[0]] + p)[1..] == p && ([a[0]] + q)[1..] == q;
  }

  /** Different first bytes: the prefixes differ (the NUL one is empty). */
  lemma StrNCmpDiffer(a: seq<Byte>, b: seq<Byte>, l: nat)
    requires l > 0 && At(a, 0) != At(b, 0)
    ensures StrNCmp(a, b, l) != 0
    ensures At(a, 0) != 0 ==> Prefix(CStr(a), l) != Prefix(CStr(b), l)
  {
    if At(a, 0) != 0 {
      CStrCons(a);
      assert Prefix(CStr(a), l)[0] == a[0];
      if At(b, 0) != 0 {
        CStrCons(b);
        assert Prefix(CStr(b), l)[0] == b[0];
      } else {
        assert CStr(b) == [];
      }
    }
  }

  /** A C string that does not start with NUL is its first byte followed by the C string after it. */
  lemma CStrCons(s: seq<Byte>)
    requires At(s, 0) != 0
    ensures CStr(s) == [s[0]] + CStr(s[1..])
  {
  }

  lemma PrefixCons(x: Byte, s: seq<Byte>, l: nat)
    requires l > 0
    ensures Prefix([x] + s, l) == [x] + Prefix(s, l - 1)
  {
    if l - 1 <= |s| {
      assert ([x] + s)[..l] == [x] + s[..l - 1];
    }
  }

  /** The C string of a C string is itself. */
  lemma CStrIdempotent(s: seq<Byte>)
    ensures CStr(CStr(s)) == CStr(s)
  {
    var c := CStr(s);
    if |c| > 0 {
      assert At(c, 0) != 0;
      CStrCons(c);
      assert c[1..] == CStr(s[1..]);
      CStrIdempotent(s[1..]);
    }
  }

  /** magic_check_data on a number: masked, then compared signed or unsigned, or tested bit by bit. */
  function CheckNumber(check: Check, value: Int32, mask: UInt32, data: UInt32): bool {
    var d := And(data, mask);
    match check
    case Any => true
    case IntEqual => Signed(d) == value
    case IntGreater => Signed(d) > value
    case IntSmaller => Signed(d) < value
    case UIntGreater => d > Unsigned(value)
    case UIntSmaller => d < Unsigned(value)
    case UIntZeros => And(d, Unsigned(value)) == 0
    case UIntOnes => And(d, Unsigned(value)) == Unsigned(value)
    case _ => false
  }

  /** Without a mask, an equality test holds exactly for the value's own bit pattern. */
  lemma EqualNumber(value: Int32, data: UInt32)
    ensures CheckNumber(IntEqual, value, 0xffff_ffff, data) <==> data == Unsigned(value)
  {
    AndAllOnes(data);
    SignedUnsigned(value, And(data, 0xffff_ffff));
  }

  /** Masking with all ones changes nothing. */
  lemma AndAllOnes(x: UInt32)
    ensures And(x, 0xffff_ffff) == x
  {
    Pow2Of32();
    AndBitsOnes(x, 32);
  }

  /** Anding the low n bits with n one bits keeps every one of them. */
  lemma {:induction false} AndBitsOnes(x: nat, n: nat)
    requires x < Pow2(n)
    ensures AndBits(x, Pow2(n) - 1, n) == x
  {
    if n > 0 {
      AndBitsOnes(x / 2, n - 1);
    }
  }

  /** Signed and Unsigned are inverse views of one bit pattern. */
  lemma SignedUnsigned(v: Int32, d: UInt32)
    ensures Signed(d) == v <==> d == Unsigned(v)
  {
  }

  /**
   * magic_check_data on a string: strncmp over the decoded length, or over
   * the length of what was read when the test decoded to nothing.
   */
  function CheckText(check: Check, value: seq<Byte>, size: nat, data: seq<Byte>): bool {
    var l := if size < 1 then |CStr(data)| else size;
    var cmp := StrNCmp(data, value, l);
    match check
    case StringEqual => cmp == 0
    case StringGreater => cmp > 0
    case StringSmaller => cmp < 0
    case _ => false
  }

  /** Does what was read satisfy the rule's test? */
  function CheckData(m: Magic, d: Data): bool {
    match (m.test, d)
    case (NumTest(check, value), Number(bits)) => CheckNumber(check, value, m.typ.mask, bits)
    case (StrTest(check, value, size), Text(bytes)) => CheckText(check, value, size, bytes)
    case _ => false
  }

  /** One rule: read, then check. */
  predicate MatchRule(f: File, m: Magic, hostLittle: bool) {
    match ReadData(f, m, hostLittle)
    case None => false
    case Some(d) => CheckData(m, d)
  }

  /** The do-while loop of magic_match_file over a rule list that is not empty. */
  predicate MatchFrom(f: File, ms: seq<Magic>, hostLittle: bool)
    requires |ms| > 0
    decreases |ms|
  {
    MatchRule(f, ms[0], hostLittle) && (|ms| == 1 || MatchFrom(f, ms[1..], hostLittle))
  }

  /** magic_match_file: an empty list is refused; otherwise every rule must hold. */
  predicate MatchFile(f: File, ms: seq<Magic>, hostLittle: bool) {
    |ms| > 0 && MatchFrom(f, ms, hostLittle)
  }

  /** A file matches a rule list exactly when the list has a rule and every rule holds. */
  lemma {:induction false} MatchFileAll(f: File, ms: seq<Magic>, hostLittle: bool)
    ensures MatchFile(f, ms, hostLittle)
            <==> |ms| > 0 && forall k :: 0 <= k < |ms| ==> MatchRule(f, ms[k], hostLittle)
    decreases |ms|
  {
    if |ms| > 1 {
      MatchFileAll(f, ms[1..], hostLittle);
      if MatchFile(f, ms, hostLittle) {
        forall k | 0 <= k < |ms| ensures MatchRule(f, ms[k], hostLittle) {
          if k > 0 {
            assert ms[1..][k - 1] == ms[k];
          }
        }
      }
      if forall k :: 0 <= k < |ms| ==> MatchRule(f, ms[k], hostLittle) {
        forall k | 0 <= k < |ms[1..]| ensures MatchRule(f, ms[1..][k], hostLittle) {
          assert ms[1..][k] == ms[k + 1];
        }
      }
    }
  }

  /**
   * A rule read from "offset string =<escaped bytes>" matches a file that
   * holds those bytes at the offset.
   */
  lemma StringRuleMatches(f: File, m: Magic, bs: seq<Byte>, hostLittle: bool)
    requires 1 <= |bs| <= MAX_MAGIC_STRING
    requires !m.typ.readSize && m.typ.readString
    requires m.test == StringTest("=" + EscapeBytes(bs))
    requires Read(f, WrapU32(m.offset), |bs|) == Some(bs)
    ensures MatchRule(f, m, hostLittle)
  {
    StringTestRoundTrip(bs, "");
    assert "=" + EscapeBytes(bs) + "" == "=" + EscapeBytes(bs);
    ReadText(f, m, hostLittle, bs);
    TextMatches(bs);
  }

  lemma ReadText(f: File, m: Magic, hostLittle: bool, bs: seq<Byte>)
    requires !m.typ.readSize && m.typ.readString
    requires m.test.StrTest? && m.test.size == |bs| && 1 <= |bs| <= MAX_MAGIC_STRING
    requires Read(f, WrapU32(m.offset), |bs|) == Some(bs)
    ensures ReadData(f, m, hostLittle) == Some(Text(bs))
  {
  }

  lemma TextMatches(bs: seq<Byte>)
    ensures CheckText(StringEqual, CStr(bs), |bs|, bs) || |bs| == 0
  {
    StrNCmpEqual(bs, CStr(bs), |bs|);
    CStrIdempotent(bs);
  }

  // --- lists of magics ---

  /** A registered magic: the procedure it selects, the extension quark it is tied to (0 for none), its rules. */
  datatype BseMagic = BseMagic(procType: nat, qextension: nat, rules: seq<Magic>)

  /** bse_magic_new: no magic for a specification that fails or holds no rule. */
  function MagicNew(procType: nat, qextension: nat, spec: string, hostLittle: bool): (r: Option<BseMagic>)
    ensures r.Some? ==> |r.value.rules| > 0 && r.value.qextension == qextension
    ensures r.Some? <==> MagicCreate(spec, hostLittle).Some? && |MagicCreate(spec, hostLittle).value| > 0
  {
    match MagicCreate(spec, hostLittle)
    case None => None
    case Some(ms) => if |ms| == 0 then None else Some(BseMagic(procType, qextension, ms))
  }

  /** The first magic of the list whose rules the file matches. */
  function FirstMatch(list: seq<BseMagic>, f: File, hostLittle: bool): (r: Option<BseMagic>)
    ensures r.Some? ==> r.value in list && MatchFile(f, r.value.rules, hostLittle)
    ensures r.None? <==> forall k :: 0 <= k < |list| ==> !MatchFile(f, list[k].rules, hostLittle)
  {
    if |list| == 0 then None
    else if MatchFile(f, list[0].rules, hostLittle) then Some(list[0])
    else
      var r := FirstMatch(list[1..], f, hostLittle);
      assert forall k :: 1 <= k < |list| ==> list[k] == list[1..][k - 1];
      r
  }

  lemma {:induction false} FirstMatchAppend(xs: seq<BseMagic>, ys: seq<BseMagic>, f: File, hostLittle: bool)
    ensures FirstMatch(xs + ys, f, hostLittle)
            == if FirstMatch(xs, f, hostLittle).Some? then FirstMatch(xs, f, hostLittle) else FirstMatch(ys, f, hostLittle)
  {
    if |xs| > 0 {
      assert (xs + ys)[0] == xs[0] && (xs + ys)[1..] == xs[1..] + ys;
      FirstMatchAppend(xs[1..], ys, f, hostLittle);
    } else {
      assert xs + ys == ys;
    }
  }

  /** The magics whose extension is (same) or is not (!same) q, in list order. */
  function WithExt(list: seq<BseMagic>, q: nat, same: bool): (r: seq<BseMagic>)
    ensures forall m :: m in r <==> m in list && (m.qextension == q) == same
  {
    if |list| == 0 then []
    else
      var last := list[|list| - 1];
      assert list == list[..|list| - 1] + [last];
      WithExt(list[..|list| - 1], q, same) + (if (last.qextension == q) == same then [last] else [])
  }

  lemma {:induction false} WithExtAppend(xs: seq<BseMagic>, ys: seq<BseMagic>, q: nat, same: bool)
    ensures WithExt(xs + ys, q, same) == WithExt(xs, q, same) + WithExt(ys, q, same)
    decreases |ys|
  {
    if |ys| == 0 {
      assert xs + ys == xs;
    } else {
      var init := ys[..|ys| - 1];
      assert (xs + ys)[..|xs + ys| - 1] == xs + init;
      WithExtAppend(xs, init, q, same);
    }
  }

  /**
   * The order bse_magic_list_match_file tries magics in: with a known
   * extension, first those registered for it, then all others; without
   * one, only magics registered for some extension (those registered for
   * none are skipped).
   */
  function Candidates(list: seq<BseMagic>, qext: nat): seq<BseMagic> {
    if qext != 0 then WithExt(list, qext, true) + WithExt(list, qext, false)
    else WithExt(list, 0, false)
  }

  /** The quark of the file name's extension (from its last '.'), or 0. */
  function ExtensionQuark(fileName: string, quarkOf: string -> nat): nat {
    var rev := Reverse(fileName);
    match IndexOf(rev, '.')
    case None => 0
    case Some(i) => quarkOf(fileName[|fileName| - 1 - i..])
  }

  /** One scan of the list, keeping magics whose extension test is `same`. */
  method Scan(list: seq<BseMagic>, q: nat, same: bool, f: File, hostLittle: bool) returns (r: Option<BseMagic>)
    ensures r == FirstMatch(WithExt(list, q, same), f, hostLittle)
  {
    var i := 0;
    while i < |list|
      invariant 0 <= i <= |list|
      invariant FirstMatch(WithExt(list[..i], q, same), f, hostLittle) == None
    {
      var m := list[i];
      if (m.qextension == q) == same && MatchFile(f, m.rules, hostLittle) {
        ScanFound(list, i, q, same, f, hostLittle);
        return Some(m);
      }
      ScanPasses(list, i, q, same, f, hostLittle);
      i := i + 1;
    }
    assert list[..i] == list;
    return None;
  }

  /** The selection of a prefix grows by the next magic when that one is selected. */
  lemma ScanStep(list: seq<BseMagic>, i: nat, q: nat, same: bool)
    requires i < |list|
    ensures WithExt(list[..i + 1], q, same)
            == WithExt(list[..i], q, same) + (if (list[i].qextension == q) == same then [list[i]] else [])
  {
    assert list[..i + 1][..i] == list[..i];
  }

  /** A magic that is selected but does not match, or is not selected, leaves no match in the prefix. */
  lemma ScanPasses(list: seq<BseMagic>, i: nat, q: nat, same: bool, f: File, hostLittle: bool)
    requires i < |list|
    requires FirstMatch(WithExt(list[..i], q, same), f, hostLittle) == None
    requires !((list[i].qextension == q) == same && MatchFile(f, list[i].rules, hostLittle))
    ensures FirstMatch(WithExt(list[..i + 1], q, same), f, hostLittle) == None
  {
    var tail := if (list[i].qextension == q) == same then [list[i]] else [];
    ScanStep(list, i, q, same);
    FirstMatchAppend(WithExt(list[..i], q, same), tail, f, hostLittle);
    assert FirstMatch(tail, f, hostLittle) == None;
  }

  /** The first selected magic that matches is the first match of the whole selection. */
  lemma ScanFound(list: seq<BseMagic>, i: nat, q: nat, same: bool, f: File, hostLittle: bool)
    requires i < |list|
    requires FirstMatch(WithExt(list[..i], q, same), f, hostLittle) == None
    requires (list[i].qextension == q) == same && MatchFile(f, list[i].rules, hostLittle)
    ensures FirstMatch(WithExt(list, q, same), f, hostLittle) == Some(list[i])
  {
    var head := WithExt(list[..i + 1], q, same);
    assert FirstMatch(head, f, hostLittle) == Some(list[i]) by {
      ScanStep(list, i, q, same);
      MatchAfterNone(WithExt(list[..i], q, same), list[i], f, hostLittle);
    }
    assert WithExt(list, q, same) == head + WithExt(list[i + 1..], q, same) by {
      WithExtSplit(list, i + 1, q, same);
    }
    FirstMatchAppend(head, WithExt(list[i + 1..], q, same), f, hostLittle);
  }

  lemma MatchAfterNone(xs: seq<BseMagic>, m: BseMagic, f: File, hostLittle: bool)
    requires FirstMatch(xs, f, hostLittle) == None && MatchFile(f, m.rules, hostLittle)
    ensures FirstMatch(xs + [m], f, hostLittle) == Some(m)
  {
    FirstMatchAppend(xs, [m], f, hostLittle);
    assert FirstMatch([m], f, hostLittle) == Some(m);
  }

  lemma WithExtSplit(list: seq<BseMagic>, j: nat, q: nat, same: bool)
    requires j <= |list|
    ensures WithExt(list, q, same) == WithExt(list[..j], q, same) + WithExt(list[j..], q, same)
  {
    assert list == list[..j] + list[j..];
    WithExtAppend(list[..j], list[j..], q, same);
  }

  /**
   * bse_magic_list_match_file: the first magic, in candidate order, whose
   * rules the file matches; nothing when the file cannot be opened.
   */
  method ListMatchFile(list: seq<BseMagic>, fileName: string, quarkOf: string -> nat, file: Option<File>,
                       hostLittle: bool)
    returns (r: Option<BseMagic>)
    ensures file.None? ==> r.None?
    ensures file.Some? ==> r == FirstMatch(Candidates(list, ExtensionQuark(fileName, quarkOf)), file.value, hostLittle)
  {
    if file.None? {
      return None;
    }
    var f := file.value;
    var qext := ExtensionQuark(fileName, quarkOf);
    if qext != 0 {
      FirstMatchAppend(WithExt(list, qext, true), WithExt(list, qext, false), f, hostLittle);
      r := Scan(list, qext, true, f, hostLittle);
      if r.None? {
        r := Scan(list, qext, false, f, hostLittle);
      }
    } else {
      r := Scan(list, qext, false, f, hostLittle);
    }
  }

  /** A magic registered for the file's extension wins over any other that also matches. */
  lemma ExtensionFirst(list: seq<BseMagic>, qext: nat, f: File, hostLittle: bool, m: BseMagic)
    requires qext != 0
    requires m in list && m.qextension == qext && MatchFile(f, m.rules, hostLittle)
    ensures var r := FirstMatch(Candidates(list, qext), f, hostLittle);
      r.Some? && r.value.qextension == qext
  {
    var a := WithExt(list, qext, true);
    FirstMatchAppend(a, WithExt(list, qext, false), f, hostLittle);
    var k :| 0 <= k < |a| && a[k] == m;
    assert FirstMatch(a, f, hostLittle).Some?;
  }

  /** Without a known extension, a magic registered for no extension is never chosen. */
  lemma NoExtensionSkipped(list: seq<BseMagic>, f: File, hostLittle: bool)
    ensures var r := FirstMatch(Candidates(list, 0), f, hostLittle);
      r.Some? ==> r.value.qextension != 0
  {
  }

  /** No non-NULL entry before position i matches the file. */
  predicate NoneMatchBefore(list: seq<Option<BseMagic>>, i: nat, f: File, hostLittle: bool) {
    forall k :: 0 <= k < i && k < |list| && list[k].Some? ==> !MatchFile(f, list[k].value.rules, hostLittle)
  }

  /** Prepending an entry that does not match moves the unmatched prefix by one. */
  lemma NoneMatchShift(list: seq<Option<BseMagic>>, j: nat, f: File, hostLittle: bool)
    requires |list| > 0 && (list[0].Some? ==> !MatchFile(f, list[0].value.rules, hostLittle))
    requires NoneMatchBefore(list[1..], j, f, hostLittle)
    ensures NoneMatchBefore(list, j + 1, f, hostLittle)
  {
    forall k | 0 < k <= j && k < |list| && list[k].Some? ensures !MatchFile(f, list[k].value.rules, hostLittle) {
      assert list[k] == list[1..][k - 1];
    }
  }

  /**
   * bse_magic_match_file: the first magic in the given list that the file
   * matches; missing entries are passed over (with a warning in the C code).
   */
  function MatchInList(list: seq<Option<BseMagic>>, file: Option<File>, hostLittle: bool): (r: Option<BseMagic>)
    ensures r.Some? ==> file.Some? && Some(r.value) in list && MatchFile(file.value, r.value.rules, hostLittle)
    ensures r.Some? ==> exists i :: 0 <= i < |list| && list[i] == r && NoneMatchBefore(list, i, file.value, hostLittle)
    ensures r.None? && file.Some? ==>
      forall k :: 0 <= k < |list| && list[k].Some? ==> !MatchFile(file.value, list[k].value.rules, hostLittle)
  {
    if file.None? || |list| == 0 then None
    else if list[0].Some? && MatchFile(file.value, list[0].value.rules, hostLittle) then list[0]
    else
      var r := MatchInList(list[1..], file, hostLittle);
      assert forall k :: 1 <= k < |list| ==> list[k] == list[1..][k - 1];
      assert r.Some? ==> exists i :: 0 <= i < |list| && list[i] == r && NoneMatchBefore(list, i, file.value, hostLittle) by {
        if r.Some? {
          var j :| 0 <= j < |list[1..]| && list[1..][j] == r && NoneMatchBefore(list[1..], j, file.value, hostLittle);
          NoneMatchShift(list, j, file.value, hostLittle);
        }
      }
      r
  }
}

=== FILE: magic_parse.dfy ===
/**
 * Reading a magic specification (bsemagic.c: magic_parse_offset,
 * magic_parse_type, magic_parse_test, magic_create).
 *
 * A specification is text, one rule per line: an offset, a type and a test,
 * separated by runs of ' ', '\t' or ','.  Lines starting with '#' and empty
 * lines are skipped.  The specification is a C string, so it holds no NUL
 * character.  The host byte order is a parameter.
 */
module MagicParse {
  import opened Wrappers
  import opened CString
  import opened Seqs

  /** The longest string test; longer ones are cut. */
  const MAX_MAGIC_STRING: nat := 256

  type Byte = x: int | 0 <= x < 256

  /** A character of the specification as the byte C stores for it. */
  function CharByte(c: char): Byte {
    (c as int) % 256
  }

  /** How a rule compares what it read with its value (MagicCheckType). */
  datatype Check =
    | Any
    | IntEqual | IntGreater | IntSmaller
    | UIntGreater | UIntSmaller | UIntZeros | UIntOnes
    | StringEqual | StringGreater | StringSmaller

  /** What the type field sets up: how many bytes to read and how to interpret them. */
  datatype TypeInfo = TypeInfo(dataSize: nat, readString: bool, readSize: bool, needSwap: bool,
                               cmpUnsigned: bool, mask: UInt32)

  /** The test field: a number, or the bytes of a string and how many were decoded (data_size). */
  datatype Test =
    | NumTest(check: Check, value: Int32)
    | StrTest(check: Check, bytes: seq<Byte>, size: nat)

  /** One rule of a specification. */
  datatype Magic = Magic(offset: UInt64, typ: TypeInfo, test: Test)

  /** string[0] of a C string: NUL past the end. */
  function Peek(s: string): char {
    if |s| > 0 then s[0] else '\0'
  }

  /** The base strtol is called with: 16 after "0x", 8 after another leading '0', 10 otherwise. */
  function NumberBase(s: string): (b: nat)
    ensures b == 8 || b == 10 || b == 16
  {
    if Peek(s) == '0' then (if |s| > 1 && s[1] == 'x' then 16 else 8) else 10
  }

  // --- the offset field ---

  /** magic_parse_offset: a decimal number with nothing after it; an empty field reads as 0. */
  function ParseOffset(s: string): (r: Option<UInt64>)
    ensures r.Some? <==> StrToL(s, 10).end == |s|
  {
    var conv := StrToL(s, 10);
    if conv.end == |s| then Some(WrapU64(conv.value)) else None
  }

  /** A printed offset reads back; one more character after it is refused. */
  lemma OffsetRoundTrip(n: nat, c: char)
    requires n <= LONG_MAX
    requires !('0' <= c <= '9')
    ensures ParseOffset(DecimalString(n)) == Some(WrapU64(n))
    ensures ParseOffset(DecimalString(n) + [c]) == None
  {
    DecimalRoundTrip(n);
    var d := DecimalString(n);
    var s := d + [c];
    assert SkipSpace(s, 0) == 0;
    DigitRunStops(s, 0, |d|, 10);
  }

  // --- the type field ---

  /** Byte order of a keyword: the host's, or fixed. */
  datatype ByteOrder = HostOrder | LittleEndian | BigEndian

  /** One entry of the keyword chain in magic_parse_type. */
  datatype Keyword = Keyword(word: string, size: nat, order: ByteOrder, readSize: bool, readString: bool)

  /** The keywords, in the order they are tried; "short" reads four bytes like "long". */
  const KEYWORDS: seq<Keyword> := [
    Keyword("byte", 1, HostOrder, false, false),
    Keyword("short", 4, HostOrder, false, false),
    Keyword("leshort", 4, LittleEndian, false, false),
    Keyword("beshort", 4, BigEndian, false, false),
    Keyword("long", 4, HostOrder, false, false),
    Keyword("lelong", 4, LittleEndian, false, false),
    Keyword("belong", 4, BigEndian, false, false),
    Keyword("size", 4, HostOrder, true, false),
    Keyword("string", 0, HostOrder, false, true)
  ]

  predicate HasPrefix(s: string, p: string) {
    |p| <= |s| && s[..|p|] == p
  }

  /** The first keyword that begins s (strncmp over the keyword's length). */
  function FirstKeyword(s: string, ks: seq<Keyword>): (r: Option<nat>)
    ensures r.Some? ==> r.value < |ks| && HasPrefix(s, ks[r.value].word)
    ensures r.Some? ==> forall k :: 0 <= k < r.value ==> !HasPrefix(s, ks[k].word)
    ensures r.None? <==> forall k :: 0 <= k < |ks| ==> !HasPrefix(s, ks[k].word)
  {
    if |ks| == 0 then None
    else if HasPrefix(s, ks[0].word) then Some(0)
    else
      match FirstKeyword(s, ks[1..])
      case None => None
      case Some(i) => Some(i + 1)
  }

  /** The type field after its keyword and an optional 'u'. */
  function TypeRest(s: string): string {
    var t := match FirstKeyword(s, KEYWORDS)
             case None => s
             case Some(i) => s[|KEYWORDS[i].word|..];
    if Peek(t) == 'u' then t[1..] else t
  }

  /** Does the type field carry the 'u' suffix? */
  predicate Unsigned(s: string) {
    var t := match FirstKeyword(s, KEYWORDS)
             case None => s
             case Some(i) => s[|KEYWORDS[i].word|..];
    Peek(t) == 'u'
  }

  /** What a keyword sets up, before the mask is looked at. */
  function KeywordInfo(k: Option<Keyword>, unsigned: bool, hostLittle: bool): TypeInfo {
    match k
    case None => TypeInfo(0, false, false, false, unsigned, 0xffff_ffff)
    case Some(kw) =>
      var needSwap := match kw.order
                      case HostOrder => false
                      case LittleEndian => !hostLittle
                      case BigEndian => hostLittle;
      TypeInfo(kw.size, kw.readString, kw.readSize, needSwap, kw.readSize || unsigned, 0xffff_ffff)
  }

  /**
   * magic_parse_type.  After "&" the mask is read with strtol, but the
   * field is then required to end right after the '&', so the only mask
   * that is ever accepted is the empty one, which reads as 0.
   */
  function ParseType(s: string, hostLittle: bool): (r: Option<TypeInfo>)
    ensures r.Some? <==> TypeRest(s) == "" || TypeRest(s) == "&"
    ensures r.Some? ==> r.value.mask == if TypeRest(s) == "" then 0xffff_ffff else 0
  {
    var kw := match FirstKeyword(s, KEYWORDS)
              case None => None
              case Some(i) => Some(KEYWORDS[i]);
    var info := KeywordInfo(kw, Unsigned(s), hostLittle);
    var t := TypeRest(s);
    if Peek(t) == '&' then
      var m := t[1..];
      var conv := StrToL(m, NumberBase(m));
      if conv.end != |m| then None
      else if |m| == 0 then Some(info.(mask := WrapU32(conv.value)))
      else None
    else if |t| == 0 then Some(info)
    else None
  }

  /** Each keyword, with or without 'u', sets up the size, byte order and flags its table entry names. */
  lemma KeywordTypes(i: nat, u: bool, hostLittle: bool)
    requires i < |KEYWORDS|
    ensures var k := KEYWORDS[i];
      ParseType(k.word + (if u then "u" else ""), hostLittle)
      == Some(TypeInfo(k.size, k.readString, k.readSize,
                       (k.order == LittleEndian && !hostLittle) || (k.order == BigEndian && hostLittle),
                       k.readSize || u, 0xffff_ffff))
  {
    var s := KEYWORDS[i].word + (if u then "u" else "");
    KeywordFound(i, if u then "u" else "");
    assert TypeRest(s) == "" && Unsigned(s) == u by {
      assert s[|KEYWORDS[i].word|..] == (if u then "u" else "");
    }
  }

  /** A keyword followed by the 'u' suffix, or by nothing, is found as itself. */
  lemma {:induction false} KeywordFound(i: nat, suffix: string)
    requires i < |KEYWORDS|
    requires suffix == "" || suffix == "u"
    ensures FirstKeyword(KEYWORDS[i].word + suffix, KEYWORDS) == Some(i)
  {
    var s := KEYWORDS[i].word + suffix;
    assert s[..|KEYWORDS[i].word|] == KEYWORDS[i].word;
    forall k | 0 <= k < i ensures !HasPrefix(s, KEYWORDS[k].word) {
      var w := KEYWORDS[k].word;
      if |w| <= |s| {
        var d :| 0 <= d < |w| && d < |KEYWORDS[i].word| && w[d] != KEYWORDS[i].word[d] by {
          KeywordsDiffer(k, i);
        }
        assert s[d] == KEYWORDS[i].word[d];
      }
    }
    FirstKeywordIs(s, KEYWORDS, i);
  }

  /** An earlier keyword differs from a later one somewhere within both. */
  lemma KeywordsDiffer(k: nat, i: nat)
    requires k < i < |KEYWORDS|
    ensures exists d :: 0 <= d < |KEYWORDS[k].word| && d < |KEYWORDS[i].word|
                        && KEYWORDS[k].word[d] != KEYWORDS[i].word[d]
  {
    var a := KEYWORDS[k].word;
    var b := KEYWORDS[i].word;
    if a[0] != b[0] {
      assert a[0] != b[0];
    } else if a[1] != b[1] {
      assert a[1] != b[1];
    } else {
      assert a[2] != b[2];
    }
  }

  /** FirstKeyword finds i when i begins s and no earlier keyword does. */
  lemma {:induction false} FirstKeywordIs(s: string, ks: seq<Keyword>, i: nat)
    requires i < |ks| && HasPrefix(s, ks[i].word)
    requires forall k :: 0 <= k < i ==> !HasPrefix(s, ks[k].word)
    ensures FirstKeyword(s, ks) == Some(i)
  {
    if i > 0 {
      FirstKeywordIs(s, ks[1..], i - 1);
    }
  }

  // --- the test field ---

  /**
   * magic_parse_test for number types.  After '<' or '>' the direction is
   * read from the character that follows the prefix, so "<5" is a
   * greater-than test; after '^' or '&' the same happens to the choice
   * between all-zeros and all-ones.  The value is strtol's result cut to 32
   * bits.  The field is accepted when strtol used all of it.
   */
  function NumericTest(s: string, cmpUnsigned: bool): (r: Option<Test>)
    ensures r.Some? ==> r.value.NumTest?
    ensures r.Some? ==> r.value.check != IntSmaller && r.value.check != UIntSmaller && r.value.check != UIntOnes
  {
    var c := Peek(s);
    var t := if c == '<' || c == '>' || c == '^' || c == '&' || c == 'x' || c == '=' then s[1..] else s;
    var check :=
      if c == '<' || c == '>' then
        (if cmpUnsigned then (if Peek(t) == '<' then UIntSmaller else UIntGreater)
         else (if Peek(t) == '<' then IntSmaller else IntGreater))
      else if c == '^' || c == '&' then (if Peek(t) == '&' then UIntOnes else UIntZeros)
      else if c == 'x' then Any
      else IntEqual;
    var conv := StrToL(t, NumberBase(t));
    NoNumberAfterPrefix(t);
    if |t| == 0 || conv.end == |t| then Some(NumTest(check, WrapI32(conv.value)))
    else None
  }

  /** A second '<' or '&' is no part of a number, so strtol stops before it. */
  lemma NoNumberAfterPrefix(t: string)
    ensures Peek(t) == '<' || Peek(t) == '&' ==> StrToL(t, NumberBase(t)).end == 0
  {
    if Peek(t) == '<' || Peek(t) == '&' {
      assert SkipSpace(t, 0) == 0;
      assert DigitRun(t, 0, NumberBase(t)) == 0;
    }
  }

  /** So a doubled '<' or '&' starts no number, and the field is rejected. */
  lemma DoublePrefixRejected(p: char, rest: string, cmpUnsigned: bool)
    requires p == '<' || p == '&'
    ensures NumericTest([p, p] + rest, cmpUnsigned) == None
  {
    assert ([p, p] + rest)[1..] == [p] + rest;
  }

  /** A printed number, with or without '=', is an equality test on the number cut to 32 bits. */
  lemma EqualTest(n: nat, withSign: bool, cmpUnsigned: bool)
    requires 1 <= n <= LONG_MAX
    ensures NumericTest((if withSign then "=" else "") + DecimalString(n), cmpUnsigned)
            == Some(NumTest(IntEqual, WrapI32(n)))
  {
    var d := DecimalString(n);
    DecimalField(n);
    if withSign {
      assert ("=" + d)[1..] == d;
      EqualField("=" + d, d, cmpUnsigned);
    } else {
      assert "" + d == d;
      EqualField(d, d, cmpUnsigned);
    }
  }

  /** A field that is a whole number, alone or after '=', is an equality test on it. */
  lemma EqualField(s: string, t: string, cmpUnsigned: bool)
    requires '1' <= Peek(t) <= '9' && StrToL(t, NumberBase(t)).end == |t|
    requires s == t || (Peek(s) == '=' && s[1..] == t)
    ensures NumericTest(s, cmpUnsigned) == Some(NumTest(IntEqual, WrapI32(StrToL(t, NumberBase(t)).value)))
  {
  }

  /** A printed positive number starts with a non-zero digit, so strtol reads it in base 10 to its end. */
  lemma DecimalField(n: nat)
    requires 1 <= n <= LONG_MAX
    ensures '1' <= Peek(DecimalString(n)) <= '9'
    ensures StrToL(DecimalString(n), NumberBase(DecimalString(n))) == Conv(n, |DecimalString(n)|)
  {
    DecimalRoundTrip(n);
    DecimalLeadingDigit(n);
  }

  /** "<n" is read as a greater-than test, because the direction comes from the digit after '<'. */
  lemma LessReadsAsGreater(n: nat, cmpUnsigned: bool)
    requires 1 <= n <= LONG_MAX
    ensures NumericTest("<" + DecimalString(n), cmpUnsigned)
            == Some(NumTest(if cmpUnsigned then UIntGreater else IntGreater, WrapI32(n)))
  {
    var d := DecimalString(n);
    DecimalField(n);
    assert ("<" + d)[1..] == d;
  }

  /** "&n" and "^n" are both all-zeros tests. */
  lemma AndReadsAsZeros(n: nat, c: char, cmpUnsigned: bool)
    requires 1 <= n <= LONG_MAX
    requires c == '&' || c == '^'
    ensures NumericTest([c] + DecimalString(n), cmpUnsigned) == Some(NumTest(UIntZeros, WrapI32(n)))
  {
    var d := DecimalString(n);
    DecimalField(n);
    assert ([c] + d)[1..] == d;
  }

  predicate IsOctal(c: char) {
    '0' <= c <= '7'
  }

  function OctalValue(c: char): (d: nat)
    requires IsOctal(c)
    ensures d < 8
  {
    c as int - '0' as int
  }

  /** One escape after a backslash: its byte and how many characters it takes. */
  datatype Escaped = Escaped(byte: Byte, len: nat)

  /**
   * The switch after a backslash in magic_parse_test: \\ \t \n \r \b \f,
   * \s for a space, \e for ESC, up to three octal digits (kept to 8 bits,
   * as the char they are stored in), and any other character as itself.
   */
  function Escape(t: string): (e: Escaped)
    requires |t| > 0
    ensures 1 <= e.len <= 3 && e.len <= |t|
  {
    var c := t[0];
    if c == '\\' then Escaped(92, 1)
    else if c == 't' then Escaped(9, 1)
    else if c == 'n' then Escaped(10, 1)
    else if c == 'r' then Escaped(13, 1)
    else if c == 'b' then Escaped(8, 1)
    else if c == 'f' then Escaped(12, 1)
    else if c == 's' then Escaped(32, 1)
    else if c == 'e' then Escaped(27, 1)
    else if IsOctal(c) then
      if |t| > 1 && IsOctal(t[1]) then
        if |t| > 2 && IsOctal(t[2]) then
          Escaped((OctalValue(c) * 64 + OctalValue(t[1]) * 8 + OctalValue(t[2])) % 256, 3)
        else Escaped(OctalValue(c) * 8 + OctalValue(t[1]), 2)
      else Escaped(OctalValue(c), 1)
    else Escaped(CharByte(c), 1)
  }

  /** A string test ends at one of these. */
  predicate IsStringDelim(c: char) {
    c == ' ' || c == '\t' || c == '\n' || c == '\r'
  }

  /**
   * The decoding loop of magic_parse_test, appending to `out`: it stops at
   * a NUL, at a delimiter or after MAX_MAGIC_STRING bytes.  A backslash
   * escapes whatever follows it, a NUL included, and the loop goes on
   * after it.  At the very end of the text the C reads past the
   * terminating NUL; the model stores the NUL and stops.
   */
  function Decode(s: string, out: seq<Byte>): (r: seq<Byte>)
    requires |out| <= MAX_MAGIC_STRING
    ensures |out| <= |r| <= MAX_MAGIC_STRING && r[..|out|] == out
    decreases |s|
  {
    if |out| == MAX_MAGIC_STRING || |s| == 0 || s[0] == '\0' || IsStringDelim(s[0]) then out
    else if s[0] != '\\' then Decode(s[1..], out + [CharByte(s[0])])
    else if |s| == 1 then out + [0]
    else
      var e := Escape(s[1..]);
      Decode(s[1 + e.len..], out + [e.byte])
  }

  /** The bytes of a C string: everything before the first NUL (what g_strdup copies). */
  function CStr(bs: seq<Byte>): (r: seq<Byte>)
    ensures |r| <= |bs| && r == bs[..|r|] && 0 !in r
    ensures |r| < |bs| ==> bs[|r|] == 0
  {
    if |bs| == 0 || bs[0] == 0 then []
    else
      var t := CStr(bs[1..]);
      assert bs[..|t| + 1] == [bs[0]] + bs[1..][..|t|];
      [bs[0]] + t
  }

  /**
   * A backslash before a NUL stores a NUL byte and decoding carries on
   * behind it: the test runs on past the end of its line.
   */
  lemma EscapedNulContinues(next: string, out: seq<Byte>)
    requires |out| < MAX_MAGIC_STRING
    ensures Decode("\\\0" + next, out) == Decode(next, out + [0])
  {
    var s := "\\\0" + next;
    assert s[0] == '\\' && s[1..] == "\0" + next;
    assert Escape(s[1..]) == Escaped(0, 1);
    assert s[2..] == next;
  }

  /**
   * In "0 string =ab\\" followed by the line "1 byte 5", the test goes on
   * into that line: it holds a, b, the NUL and '1', four bytes of data,
   * and compares the two before the NUL.
   */
  lemma BackslashAtLineEnd()
    ensures StringTest("=ab\\" + "\0" + "1 byte 5") == StrTest(StringEqual, [97, 98], 4)
  {
    var t := "ab\\" + "\0" + "1 byte 5";
    assert ("=" + t)[1..] == t;
    assert "=" + t == "=ab\\" + "\0" + "1 byte 5";
    EqualStringTest("=" + t);
    ContinuedBytes();
    assert [97, 98, 0, 49][1..] == [98, 0, 49] && [98, 0, 49][1..] == [0, 49];
    assert CStr([97, 98, 0, 49]) == [97] + CStr([98, 0, 49]) == [97] + [98] + CStr([0, 49]);
  }

  /** The bytes "ab\\", the NUL and "1 byte 5" decode into. */
  lemma ContinuedBytes()
    ensures Decode("ab\\" + "\0" + "1 byte 5", []) == [97, 98, 0, 49]
  {
    var next := "1 byte 5";
    var t := "ab\\" + "\0" + next;
    assert t[1..] == "b\\" + "\0" + next;
    assert t[2..] == "\\\0" + next;
    assert t[0] == 'a' && t[1] == 'b' && CharByte('a') == 97 && CharByte('b') == 98;
    assert [] + [CharByte(t[0])] == [97] && [97] + [CharByte(t[1..][0])] == [97, 98];
    assert Decode(t, []) == Decode(t[1..], [97]) == Decode(t[2..], [97, 98]);
    EscapedNulContinues(next, [97, 98]);
    assert next[1..] == " byte 5";
    assert [97, 98] + [0] == [97, 98, 0] && [97, 98, 0] + [CharByte(next[0])] == [97, 98, 0, 49];
    assert Decode(next, [97, 98, 0]) == Decode(next[1..], [97, 98, 0, 49]) == [97, 98, 0, 49];
  }

  /** magic_parse_test for the string type: decodes up to a delimiter or NUL and always succeeds. */
  function StringTest(s: string): (r: Test)
    ensures r.StrTest? && r.size <= MAX_MAGIC_STRING && |r.bytes| <= r.size
    ensures r.check == StringSmaller ==> |r.bytes| > 0 && r.bytes[0] == '<' as int
  {
    var c := Peek(s);
    var t := if c == '<' || c == '>' || c == '=' then s[1..] else s;
    var check :=
      if c == '<' || c == '>' then (if Peek(t) == '<' then StringSmaller else StringGreater)
      else StringEqual;
    var bytes := Decode(t, []);
    assert Peek(t) == '<' ==> bytes[..1] == [CharByte('<')] by {
      if Peek(t) == '<' {
        assert bytes == Decode(t[1..], [] + [CharByte('<')]);
      }
    }
    StrTest(check, CStr(bytes), |bytes|)
  }

  /** magic_parse_test: the type decides which of the two parsers reads the field. */
  function ParseTest(s: string, ti: TypeInfo): (r: Option<Test>)
    ensures r.Some? ==> r.value.StrTest? == ti.readString
    ensures ti.readString ==> r.Some?
  {
    if ti.readString then Some(StringTest(s)) else NumericTest(s, ti.cmpUnsigned)
  }

  // --- writing a string test so that it reads back ---

  /** Bytes that can stand for themselves in a string test. */
  predicate Plain(b: Byte) {
    b != 0 && b != 92 && b != 32 && b != 9 && b != 10 && b != 13
  }

  function OctalDigit(d: nat): (c: char)
    requires d < 8
    ensures IsOctal(c) && OctalValue(c) == d
  {
    (('0' as int) + d) as char
  }

  /** One byte as a string test writes it: itself, or a backslash and three octal digits. */
  function EscapeByte(b: Byte): string {
    if Plain(b) then [b as char] else ['\\', OctalDigit(b / 64), OctalDigit(b / 8 % 8), OctalDigit(b % 8)]
  }

  function EscapeBytes(bs: seq<Byte>): string {
    if |bs| == 0 then "" else EscapeByte(bs[0]) + EscapeBytes(bs[1..])
  }

  /** The three octal digits EscapeByte writes denote the byte. */
  lemma OctalDigitsValue(b: Byte)
    ensures (b / 64 * 64 + b / 8 % 8 * 8 + b % 8) % 256 == b
  {
    var q := b / 8;
    assert b == q * 8 + b % 8;
    assert q == q / 8 * 8 + q % 8;
    assert q / 8 == b / 64;
  }

  /** The octal escape EscapeByte writes for b reads back as b. */
  lemma EscapeOctal(b: Byte, tail: string)
    ensures var e := EscapeByte(b);
      !Plain(b) ==> Escape(e[1..] + tail) == Escaped(b, 3)
  {
    if !Plain(b) {
      var t := EscapeByte(b)[1..] + tail;
      assert IsOctal(t[0]) && IsOctal(t[1]) && IsOctal(t[2]);
      assert OctalValue(t[0]) == b / 64 && OctalValue(t[1]) == b / 8 % 8 && OctalValue(t[2]) == b % 8;
      OctalDigitsValue(b);
    }
  }

  /** Decoding a byte written as itself. */
  lemma DecodePlain(b: Byte, tail: string, out: seq<Byte>)
    requires |out| < MAX_MAGIC_STRING && Plain(b)
    ensures Decode([b as char] + tail, out) == Decode(tail, out + [b])
  {
    var s := [b as char] + tail;
    assert s[0] == b as char && s[1..] == tail;
  }

  /** Decoding a byte written as an octal escape. */
  lemma DecodeOctal(b: Byte, tail: string, out: seq<Byte>)
    requires |out| < MAX_MAGIC_STRING && !Plain(b)
    ensures Decode(EscapeByte(b) + tail, out) == Decode(tail, out + [b])
  {
    var e := EscapeByte(b);
    var s := e + tail;
    EscapeOctal(b, tail);
    assert s[1..] == e[1..] + tail;
    assert s[0] == '\\' && |s| > 1;
    assert s[4..] == tail;
  }

  /** Decoding one escaped byte. */
  lemma DecodeOne(b: Byte, tail: string, out: seq<Byte>)
    requires |out| < MAX_MAGIC_STRING
    ensures Decode(EscapeByte(b) + tail, out) == Decode(tail, out + [b])
  {
    if Plain(b) {
      DecodePlain(b, tail, out);
    } else {
      DecodeOctal(b, tail, out);
    }
  }

  /** Decoding undoes EscapeBytes, whatever follows. */
  lemma {:induction false} DecodeEscaped(bs: seq<Byte>, rest: string, out: seq<Byte>)
    requires |out| + |bs| <= MAX_MAGIC_STRING
    ensures Decode(EscapeBytes(bs) + rest, out) == Decode(rest, out + bs)
  {
    if |bs| == 0 {
      assert EscapeBytes(bs) + rest == rest;
      assert out + bs == out;
    } else {
      var tail := EscapeBytes(bs[1..]) + rest;
      assert EscapeBytes(bs) + rest == EscapeByte(bs[0]) + tail by {
        assert EscapeBytes(bs) == EscapeByte(bs[0]) + EscapeBytes(bs[1..]);
        Assoc(EscapeByte(bs[0]), EscapeBytes(bs[1..]), rest);
      }
      DecodeOne(bs[0], tail, out);
      DecodeEscaped(bs[1..], rest, out + [bs[0]]);
      ConsAppend(out, bs);
    }
  }

  /** "=" followed by the escaped bytes is an equality test on exactly those bytes (cut at a NUL). */
  lemma StringTestRoundTrip(bs: seq<Byte>, rest: string)
    requires |bs| <= MAX_MAGIC_STRING
    requires |rest| == 0 || IsStringDelim(rest[0])
    ensures StringTest("=" + EscapeBytes(bs) + rest) == StrTest(StringEqual, CStr(bs), |bs|)
  {
    var s := "=" + EscapeBytes(bs) + rest;
    DropFirst('=', EscapeBytes(bs), rest);
    DecodeEscaped(bs, rest, []);
    assert [] + bs == bs;
    DecodeStops(rest, bs);
    EqualStringTest(s);
  }

  lemma Assoc(a: string, b: string, c: string)
    ensures a + b + c == a + (b + c)
  {
  }

  lemma ConsAppend<T>(out: seq<T>, xs: seq<T>)
    requires |xs| > 0
    ensures out + [xs[0]] + xs[1..] == out + xs
  {
  }

  lemma DropFirst(c: char, a: string, b: string)
    ensures ([c] + a + b)[0] == c && ([c] + a + b)[1..] == a + b
  {
  }

  /** Decoding stops at the end of the text or at a delimiter. */
  lemma DecodeStops(s: string, out: seq<Byte>)
    requires |out| <= MAX_MAGIC_STRING
    requires |s| == 0 || IsStringDelim(s[0])
    ensures Decode(s, out) == out
  {
  }

  /** A string test starting with '=' compares for equality with what follows it. */
  lemma EqualStringTest(s: string)
    requires Peek(s) == '='
    ensures var bytes := Decode(s[1..], []);
      StringTest(s) == StrTest(StringEqual, CStr(bytes), |bytes|)
  {
  }

  /** "<" before a string test gives a greater-than test unless the string itself starts with '<'. */
  lemma StringLessReadsAsGreater(bs: seq<Byte>)
    requires |bs| <= MAX_MAGIC_STRING
    requires |bs| == 0 || bs[0] != 60
    ensures StringTest("<" + EscapeBytes(bs)).check == StringGreater
  {
    var s := "<" + EscapeBytes(bs);
    assert s[1..] == EscapeBytes(bs);
    if |bs| > 0 {
      assert EscapeBytes(bs)[0] == EscapeByte(bs[0])[0];
    }
  }

  // --- splitting the specification ---

  predicate IsFieldDelim(c: char) {
    c == ' ' || c == '\t' || c == ','
  }

  /** Where the field starting at i ends: the first delimiter, or the end of the text. */
  function FieldEnd(s: string, i: nat): (j: nat)
    requires i <= |s|
    ensures i <= j <= |s|
    ensures forall k :: i <= k < j ==> !IsFieldDelim(s[k])
    ensures j < |s| ==> IsFieldDelim(s[j])
    decreases |s| - i
  {
    if i < |s| && !IsFieldDelim(s[i]) then FieldEnd(s, i + 1) else i
  }

  /** The end of a run of delimiters starting at i. */
  function SkipDelims(s: string, i: nat): (j: nat)
    requires i <= |s|
    ensures i <= j <= |s|
    ensures forall k :: i <= k < j ==> IsFieldDelim(s[k])
    ensures j < |s| ==> !IsFieldDelim(s[j])
    decreases |s| - i
  {
    if i < |s| && IsFieldDelim(s[i]) then SkipDelims(s, i + 1) else i
  }

  /**
   * SKIP_CLEAN: the start of the field after the one at i.  At the end of
   * the text there is no next field; the C macro steps past the
   * terminating NUL there, and the model stops instead.
   */
  function NextField(s: string, i: nat): (j: nat)
    requires i <= |s|
    ensures FieldEnd(s, i) <= j <= |s|
  {
    var e := FieldEnd(s, i);
    if e < |s| then SkipDelims(s, e + 1) else |s|
  }

  /**
   * Where magic_create continues after a rule whose line ends at lineEnd.
   * For a number test the final SKIP_CLEAN runs on through the line end
   * when only delimiters follow the value; it then also clears the
   * delimiters that begin the next line, and the loop, finding a NUL
   * there, ends.
   */
  function NextLine(s: string, lineEnd: nat, cleared: bool): (r: Option<nat>)
    requires lineEnd <= |s|
    ensures r.Some? ==> r.value == lineEnd + 1 <= |s|
  {
    if lineEnd == |s| then None
    else if cleared && lineEnd + 1 < |s| && IsFieldDelim(s[lineEnd + 1]) then None
    else Some(lineEnd + 1)
  }

  /** One pass of magic_create's loop at the start of s. */
  datatype Step = Skip(next: Option<nat>) | Rule(magic: Magic, next: Option<nat>) | Fail

  function Min(a: nat, b: nat): nat {
    if a < b then a else b
  }

  /** Does the text start with a line magic_create skips? */
  predicate SkippedLine(s: string) {
    |s| > 0 && (s[0] == '#' || s[0] == '\n')
  }

  function StepAt(s: string, hostLittle: bool): (st: Step)
    ensures st.Skip? <==> SkippedLine(s)
    ensures !st.Fail? && st.next.Some? ==> 0 < st.next.value <= |s|
  {
    if SkippedLine(s) then
      Skip(match IndexOf(s, '\n') case None => None case Some(i) => Some(i + 1))
    else RuleAt(s, hostLittle)
  }

  /**
   * What a string test reads from p2 on: the newline at lineEnd has been
   * overwritten with a NUL, and the lines after it are still untouched.
   */
  function TestMemory(s: string, p2: nat, lineEnd: nat): (m: string)
    requires p2 <= lineEnd <= |s|
    ensures |m| >= lineEnd - p2 && m[..lineEnd - p2] == s[p2..lineEnd]
    ensures lineEnd < |s| ==> |m| > lineEnd - p2 && m[lineEnd - p2] == '\0' && m[lineEnd - p2 + 1..] == s[lineEnd + 1..]
    ensures lineEnd == |s| ==> m == s[p2..]
  {
    if lineEnd < |s| then s[p2..lineEnd] + "\0" + s[lineEnd + 1..] else s[p2..]
  }

  /** The rule at the start of s, and where its line ends. */
  function RuleAt(s: string, hostLittle: bool): (st: Step)
    ensures !st.Skip?
    ensures st.Rule? && st.next.Some? ==> 0 < st.next.value <= |s|
  {
      var p1 := NextField(s, 0);
      var p2 := NextField(s, p1);
      match ParseOffset(s[..FieldEnd(s, 0)])
      case None => Fail
      case Some(offset) =>
        match ParseType(s[p1..FieldEnd(s, p1)], hostLittle)
        case None => Fail
        case Some(ti) =>
          var lineEnd := match IndexOf(s[p2..], '\n') case None => |s| case Some(i) => p2 + i;
          var testEnd := if ti.readString then lineEnd else Min(FieldEnd(s, p2), lineEnd);
          match ParseTest(if ti.readString then TestMemory(s, p2, lineEnd) else s[p2..testEnd], ti)
          case None => Fail
          case Some(test) =>
            Rule(Magic(offset, ti, test), NextLine(s, lineEnd, !ti.readString && SkipDelims(s, testEnd) >= lineEnd))
  }

  /**
   * The rule line "0 string =ab\\" followed by "1 byte 5": the newline
   * became a NUL, and the escaped NUL lets the test read on into the next
   * line, which is still read as a rule of its own.
   */
  lemma ContinuedStringRule(hostLittle: bool)
    ensures var st := RuleAt("0 string =ab\\" + "\n" + "1 byte 5", hostLittle);
      st.Rule? && st.magic.offset == 0 && st.magic.test == StrTest(StringEqual, [97, 98], 4) && st.next == Some(14)
  {
    var s := "0 string =ab\\" + "\n" + "1 byte 5";
    assert NextField(s, 0) == 2 && NextField(s, 2) == 9 && FieldEnd(s, 0) == 1 && FieldEnd(s, 2) == 8 by {
      ContinuedFields();
    }
    assert ParseOffset(s[..1]) == Some(0) by {
      ContinuedFields();
      assert s[..1] == DecimalString(0);
      OffsetRoundTrip(0, ' ');
    }
    assert ParseType(s[2..8], hostLittle).Some? && ParseType(s[2..8], hostLittle).value.readString by {
      ContinuedFields();
      assert s[2..8] == KEYWORDS[|KEYWORDS| - 1].word + "";
      KeywordTypes(|KEYWORDS| - 1, false, hostLittle);
    }
    assert IndexOf(s[9..], '\n') == Some(4) && NextLine(s, 13, false) == Some(14) by {
      ContinuedLine();
    }
    assert StringTest(TestMemory(s, 9, 13)) == StrTest(StringEqual, [97, 98], 4) by {
      ContinuedLine();
      BackslashAtLineEnd();
    }
  }

  /** Where the fields of "0 string =ab\\" start and end. */
  lemma ContinuedFields()
    ensures var s := "0 string =ab\\" + "\n" + "1 byte 5";
      && FieldEnd(s, 0) == 1 && NextField(s, 0) == 2 && FieldEnd(s, 2) == 8 && NextField(s, 2) == 9
      && s[..1] == "0" && s[2..8] == "string"
  {
    var line, next := "0 string =ab\\", "1 byte 5";
    var s := line + "\n" + next;
    assert s[..13] == line;
    assert s[0] == '0' && s[1] == ' ' && s[2] == 's' && s[8] == ' ' && s[9] == '=';
    assert FieldEnd(s, 0) == 1 && SkipDelims(s, 2) == 2;
    assert FieldEnd(s, 8) == 8 && FieldEnd(s, 7) == 8 && FieldEnd(s, 6) == 8;
    assert FieldEnd(s, 5) == 8 && FieldEnd(s, 4) == 8 && FieldEnd(s, 3) == 8;
    assert FieldEnd(s, 2) == 8 && SkipDelims(s, 9) == 9;
  }

  /** Where the line of "0 string =ab\\" ends, and what follows it. */
  lemma ContinuedLine()
    ensures var s := "0 string =ab\\" + "\n" + "1 byte 5";
      && IndexOf(s[9..], '\n') == Some(4) && |s| == 22
      && TestMemory(s, 9, 13) == "=ab\\" + "\0" + "1 byte 5"
  {
    var line, next := "0 string =ab\\", "1 byte 5";
    var s := line + "\n" + next;
    assert s[9..][4] == '\n' && '\n' !in s[9..][..4];
    assert s[9..13] == line[9..] && s[14..] == next;
    assert line[9..] == "=ab\\";
  }

  /** The rest of the text after a step, when the loop goes on (p && *p). */
  function After(s: string, next: Option<nat>): Option<string> {
    if next.Some? && next.value < |s| then Some(s[next.value..]) else None
  }

  /**
   * magic_create: every rule line puts its rule at the front of the list;
   * any field that does not parse rejects the whole specification.
   */
  function Create(s: string, hostLittle: bool, acc: seq<Magic>): (r: Option<seq<Magic>>)
    decreases |s|
  {
    match StepAt(s, hostLittle)
    case Fail => None
    case Skip(next) =>
      (match After(s, next) case None => Some(acc) case Some(t) => Create(t, hostLittle, acc))
    case Rule(m, next) =>
      (match After(s, next) case None => Some([m] + acc) case Some(t) => Create(t, hostLittle, [m] + acc))
  }

  function MagicCreate(spec: string, hostLittle: bool): Option<seq<Magic>> {
    Create(spec, hostLittle, [])
  }

  /** The rules of the specification in the order their lines appear. */
  function InOrder(s: string, hostLittle: bool): Option<seq<Magic>>
    decreases |s|
  {
    match StepAt(s, hostLittle)
    case Fail => None
    case Skip(next) =>
      (match After(s, next) case None => Some([]) case Some(t) => InOrder(t, hostLittle))
    case Rule(m, next) =>
      match After(s, next)
      case None => Some([m])
      case Some(t) =>
        match InOrder(t, hostLittle)
        case None => None
        case Some(ms) => Some([m] + ms)
  }

  /** magic_create lists the rules last line first, and fails exactly when some line fails. */
  lemma {:induction false} CreateReverses(s: string, hostLittle: bool, acc: seq<Magic>)
    ensures Create(s, hostLittle, acc)
            == match InOrder(s, hostLittle) case None => None case Some(ms) => Some(Reverse(ms) + acc)
    decreases |s|
  {
    var st := StepAt(s, hostLittle);
    if !st.Fail? && After(s, st.next).Some? {
      var t := After(s, st.next).value;
      if st.Skip? {
        CreateReverses(t, hostLittle, acc);
        SkipUnfolds(s, hostLittle, acc, t);
      } else {
        var m := st.magic;
        CreateReverses(t, hostLittle, [m] + acc);
        RuleUnfolds(s, hostLittle, acc, m, t);
      }
    } else {
      LastUnfolds(s, hostLittle, acc);
    }
  }

  /** One step of both walks over a skipped line. */
  lemma SkipUnfolds(s: string, hostLittle: bool, acc: seq<Magic>, t: string)
    requires StepAt(s, hostLittle).Skip? && After(s, StepAt(s, hostLittle).next) == Some(t)
    ensures Create(s, hostLittle, acc) == Create(t, hostLittle, acc)
    ensures InOrder(s, hostLittle) == InOrder(t, hostLittle)
  {
  }

  /** One step of both walks over a rule line that is not the last. */
  lemma RuleUnfolds(s: string, hostLittle: bool, acc: seq<Magic>, m: Magic, t: string)
    requires StepAt(s, hostLittle).Rule? && StepAt(s, hostLittle).magic == m
    requires After(s, StepAt(s, hostLittle).next) == Some(t)
    requires Create(t, hostLittle, [m] + acc)
             == match InOrder(t, hostLittle) case None => None case Some(ms) => Some(Reverse(ms) + ([m] + acc))
    ensures Create(s, hostLittle, acc)
            == match InOrder(s, hostLittle) case None => None case Some(ms) => Some(Reverse(ms) + acc)
  {
    assert Create(s, hostLittle, acc) == Create(t, hostLittle, [m] + acc);
    match InOrder(t, hostLittle)
    case None =>
      assert InOrder(s, hostLittle) == None;
    case Some(ms) =>
      assert InOrder(s, hostLittle) == Some([m] + ms);
      ReverseCons(m, ms, acc);
  }

  /** The walks at a failing line or at the last line. */
  lemma LastUnfolds(s: string, hostLittle: bool, acc: seq<Magic>)
    requires StepAt(s, hostLittle).Fail? || After(s, StepAt(s, hostLittle).next).None?
    ensures Create(s, hostLittle, acc)
            == match InOrder(s, hostLittle) case None => None case Some(ms) => Some(Reverse(ms) + acc)
  {
    var st := StepAt(s, hostLittle);
    if st.Fail? {
      assert Create(s, hostLittle, acc) == None && InOrder(s, hostLittle) == None;
    } else if st.Skip? {
      LastSkip(s, hostLittle, acc);
      assert Reverse<Magic>([]) + acc == acc;
    } else {
      LastRule(s, hostLittle, acc);
    }
  }

  lemma LastSkip(s: string, hostLittle: bool, acc: seq<Magic>)
    requires StepAt(s, hostLittle).Skip? && After(s, StepAt(s, hostLittle).next).None?
    ensures Create(s, hostLittle, acc) == Some(acc) && InOrder(s, hostLittle) == Some([])
  {
  }

  lemma LastRule(s: string, hostLittle: bool, acc: seq<Magic>)
    requires StepAt(s, hostLittle).Rule? && After(s, StepAt(s, hostLittle).next).None?
    ensures var m := StepAt(s, hostLittle).magic;
      Create(s, hostLittle, acc) == Some(Reverse([m]) + acc) && InOrder(s, hostLittle) == Some([m])
  {
    var m := StepAt(s, hostLittle).magic;
    assert Reverse([m]) == [m] by {
      assert [m][1..] == [];
    }
  }

  lemma ReverseCons<T>(x: T, xs: seq<T>, acc: seq<T>)
    ensures Reverse([x] + xs) + acc == Reverse(xs) + ([x] + acc)
  {
    assert ([x] + xs)[1..] == xs;
  }

  /** A comment line is passed over: what follows it is read as if it stood alone. */
  lemma CommentSkipped(comment: string, rest: string, hostLittle: bool, acc: seq<Magic>)
    requires |comment| > 0 && comment[0] == '#' && '\n' !in comment
    ensures Create(comment + "\n" + rest, hostLittle, acc)
            == if |rest| == 0 then Some(acc) else Create(rest, hostLittle, acc)
  {
    var s := comment + "\n" + rest;
    assert s[0] == '#';
    assert IndexOf(s, '\n') == Some(|comment|) by {
      assert s[|comment|] == '\n' && s[..|comment|] == comment;
    }
    assert s[|comment| + 1..] == rest;
  }
}

=== FILE: seqs.dfy ===
/**
 * Small facts about sequences shared by the container model.
 */
module Seqs {
  import opened Wrappers

  /** No element occurs twice. */
  predicate Distinct<T(==)>(xs: seq<T>) {
    forall i, j :: 0 <= i < j < |xs| ==> xs[i] != xs[j]
  }

  /** The position of the first occurrence of x (strchr on a string). */
  function IndexOf<T(==)>(xs: seq<T>, x: T): (r: Option<nat>)
    ensures r.Some? ==> r.value < |xs| && xs[r.value] == x && x !in xs[..r.value]
    ensures r.None? <==> x !in xs
  {
    if |xs| == 0 then None
    else if xs[0] == x then Some(0)
    else
      match IndexOf(xs[1..], x)
      case None => None
      case Some(i) =>
        assert xs[..i + 1] == [xs[0]] + xs[1..][..i];
        Some(i + 1)
  }

  /** xs without the first occurrence of x. */
  function RemoveValue<T(==)>(xs: seq<T>, x: T): (r: seq<T>)
    ensures x in xs ==> |r| == |xs| - 1
    ensures x !in xs ==> r == xs
    ensures forall y :: y in r ==> y in xs
    ensures forall y :: y != x && y in xs ==> y in r
  {
    if |xs| == 0 then []
    else if xs[0] == x then xs[1..]
    else [xs[0]] + RemoveValue(xs[1..], x)
  }

  /** Removing cuts out exactly the first occurrence and keeps the rest in order. */
  lemma {:induction false} RemoveValueAt<T>(xs: seq<T>, x: T, i: nat)
    requires i < |xs| && xs[i] == x && x !in xs[..i]
    ensures RemoveValue(xs, x) == xs[..i] + xs[i + 1..]
  {
    if i > 0 {
      var t := xs[1..];
      assert xs[0] != x by { assert xs[0] == xs[..i][0]; }
      assert x !in t[..i - 1] by { assert t[..i - 1] == xs[..i][1..]; }
      RemoveValueAt(t, x, i - 1);
      assert xs[..i] == [xs[0]] + t[..i - 1];
      assert xs[i + 1..] == t[i..];
    }
  }

  /** Removing from a sequence without repetitions removes every occurrence and keeps it free of repetitions. */
  lemma {:induction false} RemoveDistinct<T>(xs: seq<T>, x: T)
    requires Distinct(xs)
    ensures Distinct(RemoveValue(xs, x))
    ensures x !in RemoveValue(xs, x)
  {
    if |xs| > 0 {
      assert Distinct(xs[1..]) by {
        forall i, j | 0 <= i < j < |xs[1..]| ensures xs[1..][i] != xs[1..][j] {
          assert xs[1..][i] == xs[i + 1] && xs[1..][j] == xs[j + 1];
        }
      }
      if xs[0] != x {
        RemoveDistinct(xs[1..], x);
        var t := RemoveValue(xs[1..], x);
        assert xs[0] !in t by {
          assert xs[0] !in xs[1..] by {
            forall k | 0 <= k < |xs[1..]| ensures xs[1..][k] != xs[0] {
              assert xs[1..][k] == xs[k + 1];
            }
          }
        }
        var r := [xs[0]] + t;
        forall i, j | 0 <= i < j < |r| ensures r[i] != r[j] {
          if i == 0 {
            assert r[j] == t[j - 1];
          } else {
            assert r[i] == t[i - 1] && r[j] == t[j - 1];
          }
        }
      } else {
        forall k | 0 <= k < |xs[1..]| ensures xs[1..][k] != x {
          assert xs[1..][k] == xs[k + 1];
        }
      }
    }
  }

  /** A sequence has at least as many positions as it has different elements. */
  lemma {:induction false} SeqSetSize<T>(xs: seq<T>)
    ensures |set x | x in xs| <= |xs|
  {
    if |xs| > 0 {
      SeqSetSize(xs[1..]);
      assert (set x | x in xs) == (set x | x in xs[1..]) + {xs[0]};
    }
  }

  /** A subset is no larger than its superset. */
  lemma SubsetSize<T>(a: set<T>, b: set<T>)
    requires a <= b
    ensures |a| <= |b|
  {
    assert b == a + (b - a);
    assert a * (b - a) == {};
  }

  /** xs back to front. */
  function Reverse<T>(xs: seq<T>): (r: seq<T>)
    ensures |r| == |xs| && forall k :: 0 <= k < |xs| ==> r[k] == xs[|xs| - 1 - k]
  {
    if |xs| == 0 then [] else Reverse(xs[1..]) + [xs[0]]
  }
}

=== FILE: super.dfy ===
/**
 * The time stamps of a super object (bsesuper.c): when it was created,
 * when it was last modified and which modification time was last saved.
 * The object is dirty while it holds a modification that was not saved,
 * and every operation keeps the creation time at or before the
 * modification time.
 *
 * BseTime is read as an unbounded integer: the operations only compare
 * and copy time stamps.  The current time is a parameter.
 */
module Super {

  datatype Stamps = Stamps(creation: int, mod: int, saved: int)

  /** The invariant bsesuper.c keeps: nothing is modified before it is created. */
  predicate Valid(s: Stamps) {
    s.creation <= s.mod
  }

  /** bse_super_do_is_dirty: a modification newer than the saved one. */
  predicate IsDirty(s: Stamps) {
    s.mod > s.saved
  }

  /** bse_super_init: all three stamps are the current time. */
  function Init(now: int): (s: Stamps)
    ensures Valid(s) && !IsDirty(s)
    ensures s.creation == now && s.mod == now && s.saved == now
  {
    Stamps(now, now, now)
  }

  /** The outcome of setting a time property: the new stamps, and whether "mod-time" was announced as changed. */
  datatype ParamSet = ParamSet(stamps: Stamps, notifyModTime: bool)

  /**
   * Setting the "modification_time" property: the value, but never
   * earlier than the creation time.
   */
  function SetModTimeParam(s: Stamps, v: int): (r: Stamps)
    ensures Valid(r)
    ensures r.mod >= v && r.mod >= s.creation && (r.mod == v || r.mod == s.creation)
    ensures r.creation == s.creation && r.saved == s.saved
  {
    s.(mod := if s.creation > v then s.creation else v)
  }

  /**
   * Setting the "creation_time" property: the value is stored, and the
   * modification time is pulled up to it (and announced) when it was
   * earlier.
   */
  function SetCreationTimeParam(s: Stamps, v: int): (r: ParamSet)
    ensures Valid(r.stamps)
    ensures r.stamps.creation == v && r.stamps.saved == s.saved
    ensures r.stamps.mod >= s.mod && r.stamps.mod >= v && (r.stamps.mod == s.mod || r.stamps.mod == v)
    ensures r.notifyModTime <==> r.stamps.mod != s.mod
  {
    if v > s.mod then ParamSet(Stamps(v, v, s.saved), true)
    else ParamSet(s.(creation := v), false)
  }

  /** bse_super_do_modified: the modification time moves to the stamp if that is later. */
  function Modified(s: Stamps, stamp: int): (r: Stamps)
    ensures Valid(s) ==> Valid(r)
    ensures r.mod >= s.mod && r.mod >= stamp && (r.mod == s.mod || r.mod == stamp)
    ensures r.creation == s.creation && r.saved == s.saved
    ensures IsDirty(r) <==> IsDirty(s) || stamp > s.saved
  {
    s.(mod := if s.mod > stamp then s.mod else stamp)
  }

  /**
   * bse_super_set_creation_time: a creation time later than the last
   * modification moves the modification and saved times with it, so the
   * object is then clean; otherwise only the creation time changes.
   */
  function SetCreationTime(s: Stamps, c: int): (r: Stamps)
    ensures Valid(r)
    ensures r.creation == c
    ensures s.mod < c ==> r.mod == c && r.saved == c && !IsDirty(r)
    ensures s.mod >= c ==> r.mod == s.mod && r.saved == s.saved
    ensures IsDirty(r) <==> s.mod >= c && IsDirty(s)
  {
    if s.mod < c then Stamps(c, c, c) else s.(creation := c)
  }

  /**
   * bse_super_reset_mod_time: modified and saved at the given time, with
   * the creation time clipped to it; the object is clean afterwards.
   */
  function ResetModTime(s: Stamps, t: int): (r: Stamps)
    ensures Valid(r) && !IsDirty(r)
    ensures r.mod == t && r.saved == t
    ensures r.creation <= s.creation && (r.creation == s.creation || r.creation == t)
  {
    Stamps(if s.creation > t then t else s.creation, t, t)
  }

  /** Every way the stamps change. */
  datatype Op =
    | SetModTimeProp(v: int)
    | SetCreationTimeProp(v: int)
    | Modify(stamp: int)
    | SetCreation(c: int)
    | ResetMod(t: int)

  function Apply(s: Stamps, op: Op): Stamps {
    match op
    case SetModTimeProp(v) => SetModTimeParam(s, v)
    case SetCreationTimeProp(v) => SetCreationTimeParam(s, v).stamps
    case Modify(stamp) => Modified(s, stamp)
    case SetCreation(c) => SetCreationTime(s, c)
    case ResetMod(t) => ResetModTime(s, t)
  }

  function Run(s: Stamps, ops: seq<Op>): Stamps
    decreases |ops|
  {
    if |ops| == 0 then s else Run(Apply(s, ops[0]), ops[1..])
  }

  /** Whatever happens after bse_super_init, nothing is modified before it is created. */
  lemma {:induction false} RunValid(now: int, ops: seq<Op>)
    ensures Valid(Run(Init(now), ops))
  {
    RunKeepsValid(Init(now), ops);
  }

  lemma {:induction false} RunKeepsValid(s: Stamps, ops: seq<Op>)
    requires Valid(s)
    ensures Valid(Run(s, ops))
    decreases |ops|
  {
    if |ops| > 0 {
      RunKeepsValid(Apply(s, ops[0]), ops[1..]);
    }
  }

  /** Only touching the time properties directly or resetting can ever move the modification time back. */
  predicate Forward(op: Op) {
    op.SetCreationTimeProp? || op.Modify? || op.SetCreation?
  }

  lemma {:induction false} ForwardNeverRewinds(s: Stamps, ops: seq<Op>)
    requires forall k :: 0 <= k < |ops| ==> Forward(ops[k])
    ensures Run(s, ops).mod >= s.mod
    decreases |ops|
  {
    if |ops| > 0 {
      assert Forward(ops[0]);
      assert forall k :: 0 <= k < |ops[1..]| ==> ops[1..][k] == ops[k + 1];
      ForwardNeverRewinds(Apply(s, ops[0]), ops[1..]);
    }
  }

  /**
   * Once dirty, the object stays dirty until it is reset or its creation
   * time is moved past its modification time, as long as nobody sets the
   * modification time back to the saved one.
   */
  predicate KeepsDirt(op: Op, saved: int) {
    op.SetCreationTimeProp? || op.Modify? || (op.SetModTimeProp? && op.v > saved)
  }

  lemma {:induction false} DirtStays(s: Stamps, ops: seq<Op>)
    requires IsDirty(s)
    requires forall k :: 0 <= k < |ops| ==> KeepsDirt(ops[k], s.saved)
    ensures IsDirty(Run(s, ops)) && Run(s, ops).saved == s.saved
    decreases |ops|
  {
    if |ops| > 0 {
      assert KeepsDirt(ops[0], s.saved);
      assert forall k :: 0 <= k < |ops[1..]| ==> ops[1..][k] == ops[k + 1];
      DirtStays(Apply(s, ops[0]), ops[1..]);
    }
  }
}

=== FILE: wrappers.dfy ===
/** The optional value used wherever the C code passes a pointer that may be NULL. */
module Wrappers {

  datatype Option<+T> = None | Some(value: T) {

    /** Returns the value inside Some, or the given default for None. */
    function GetOr(default: T): T {
      match this
      case Some(v) => v
      case None => default
    }
  }
}
